=== FILE: README.md ===
# Retail analytics front end — a Dafny model

This project models the client-side logic of a small retail-analytics web application:

- **Dashboards.** Two sales dashboards aggregate payments, people counts and demographics into charts. Both mine association rules from the carts (market-basket analysis). A third, date-filtered dashboard builds category sales and pie charts.
- **Chatbot.** It answers sales and people-count questions for a date.
- **Checkout flow.** A QR scanner fills a cart, and a checkout page records the payment.
- **Store heatmap.** It counts dark pixels on a coarse grid.
- **People counter.** It stores person detections with a timestamp.
- **Feedback page.** It tallies detected faces by gender and mood and saves a summary row.

Each page or component is a module. Its state is an immutable datatype, and each handler is a pure function from the old state (and the handler's inputs) to the new state. A few shared modules sit underneath:

- `Tally`: a JavaScript object used as a counter, in insertion order.
- `Aggregates`: grouping by key.
- `Baskets`: rule mining, shared by both dashboards.
- `TimeOfDay`: the four day-part buckets.
- `Timestamp`: the `YYYY-MM-DD HH:MM:SS` text the pages store.
- `JsNum`: numbers that may be `NaN`.
- `Strings`: comparison, `split`, `trim`, case mapping and decimal rendering.

Everything the browser or the database supplies is a parameter of the function that uses it:

- query results;
- `JSON.parse` and `parseFloat` outcomes;
- the camera frame;
- detector predictions;
- the clock.

Each such function states what it does with every possible value of those parameters, including the error values, except where "## Left out" names a value the model does not represent.

Where the code does something other than the usual definition of market-basket analysis, the model follows the code:

- Each co-occurring pair is counted twice, once per ordering of the two items inside the loop. The counts are keyed by the sorted pair, so only the direction from the lexicographically smaller name to the larger one is ever emitted as a rule.
- The pages dashboard tests `confidence <= 1` and never uses its `minConfidence` argument.
- The components dashboard tests `confidence >= minConfidence`.
- The filtered dashboard's top-category reduce starts from `{}`, so it always shows "N/A".
- The filtered dashboard treats any object cart as a single line. The checkout stores arrays, which pass that test and add `NaN` under the category "undefined".

Each of these is stated as a lemma (`Baskets.CountAllMeaning`, `Baskets.NoReversedRule`, `PagesDashboard.CapHalvesCoOccurrence`, `Dash.TopCategoryAlwaysNA`, `Dash.ArrayCartPoisons`).

## Model

| member | source | states |
|---|---|---|
| Tally.Add | pages/Dashboard.jsx:41 | `t[k] = (t[k] \|\| 0) + d` raises `k`'s value by `d` and no other value. A new key is appended at the end and existing keys keep their order. Keys stay unique, the total grows by `d`, and values stay positive when `d` is. |
| Tally.Get | pages/Dashboard.jsx:41 | An absent key reads as 0. |
| Tally.GetEntry | components/Dashboard.tsx:127-131 | In a unique-keyed tally, each `Object.entries` pair holds the value lookup gives for its key. |
| Tally.ValuesTotal | pages/Dashboard.jsx:122-125 | `Object.values` sums to the tally's total. |
| Aggregates.ByKey | pages/Dashboard.jsx:114-120 | Accumulating keyed contributions gives unique keys. The keys are exactly those that occur, and the values sum to the contributions' sum. |
| Aggregates.ByKeyGet | pages/Dashboard.jsx:114-120 | Each key's value is the sum of the contributions made under that key. |
| Aggregates.ByKeyKeysOnly | pages/Dashboard.jsx:79-82 | The key order depends only on the sequence of keys, not on the amounts. |
| Aggregates.GenderByDate | pages/Dashboard.jsx:77-95 | One chart row per date, dates distinct, exactly the dates of the rows. Each row's columns are the male and female sums of its date. |
| Aggregates.GenderByDateSums | components/Dashboard.tsx:114-131 | Grouping by date loses and invents no people: the chart columns sum to the row columns. |
| Aggregates.ZipMeaning | pages/Dashboard.jsx:90-94 | Pairing the two grouped columns entry by entry gives each date its own male and female sums. |
| Aggregates.Top | pages/Dashboard.jsx:67-68 | The reduce from `['', 0]` returns a maximum value. It returns `('', 0)` exactly when no value is positive, and otherwise the first entry holding the maximum. |
| TimeOfDay.BucketOf | pages/Dashboard.jsx:132-141 | Hours 5–11 are morning, 12–16 afternoon and 17–20 evening. Every other hour, and an invalid timestamp's `NaN`, is night. Each condition holds in both directions. |
| TimeOfDay.AddTo | pages/Dashboard.jsx:133-141 | One increment changes only its own slice. |
| TimeOfDay.DistributeSlices | pages/Dashboard.jsx:128-145 | Each slice of `calculateTimeDistribution` is exactly the sum of the counts whose hour falls in it. |
| TimeOfDay.DistributeTotal | pages/Dashboard.jsx:128-145 | The four slices together hold every count exactly once. |
| TimeOfDay.InvalidHourIsNight | components/Dashboard.tsx:210-219 | Rows with invalid timestamps all land in the night slice. |
| DashboardRows.ChartOf | pages/Dashboard.jsx:122-125 | `{labels: Object.keys, data: Object.values}` pairs each label with its own value, and the data sum to the tally's total. |
| DashboardRows.RevenueAppend | pages/Dashboard.jsx:55 | Revenue (`x.price \|\| 0` summed) is additive over batches of payments. |
| DashboardRows.UnitsAppend | pages/Dashboard.jsx:49-52 | Unit sales, however a quantity is read, are additive over concatenated lines. |
| PagesDashboard.DecodeCart | pages/Dashboard.jsx:38-39 | A falsy cart decodes as the empty cart and an array cart is used as it is. Decoding fails exactly for a text that `JSON.parse` does not turn into an array and for a truthy cart that is not an array. |
| PagesDashboard.DecodeAll | pages/Dashboard.jsx:36-44 | The batch decodes exactly when every cart decodes, and then yields one decoded cart per payment. |
| PagesDashboard.ProductColumn | pages/Dashboard.jsx:59-66 | Only lines with a truthy name and a numeric quantity contribute, under their own name. |
| PagesDashboard.ProductCounts | pages/Dashboard.jsx:58-66 | Product keys are unique and non-empty. |
| PagesDashboard.ProductCountsGet | pages/Dashboard.jsx:58-66 | Each product's count is the sum of the quantities of its guarded lines. |
| PagesDashboard.UnitSalesVersusProducts | pages/Dashboard.jsx:49-66 | Unit sales equal the product counts' total plus the quantities on unnamed lines. The guard is the only reason the two differ. |
| PagesDashboard.TopProductEmpty | pages/Dashboard.jsx:67-69 | The top product is `''` exactly when no product has a positive count, and otherwise has the largest count. |
| PagesDashboard.ColumnsMatchLabels | pages/Dashboard.jsx:83-87 | A date's accumulated male (female) count is the sum of the counts of its rows labelled male (female) in any letter case. |
| PagesDashboard.GenderChartDates | pages/Dashboard.jsx:79-82 | The chart has an entry for every date that occurs, including dates whose rows carry neither label. |
| PagesDashboard.GenderChartTotals | pages/Dashboard.jsx:77-95 | Each chart entry totals, case-insensitively, the male and female counts of its date. |
| PagesDashboard.ValidDated | pages/Dashboard.jsx:114-119 | Only rows with a valid date contribute, under that date. |
| PagesDashboard.ValidDatedTotal | pages/Dashboard.jsx:114-119 | The skipped rows are exactly the invalid ones: the contributions sum to the counts of the valid rows. |
| PagesDashboard.PeopleByDate | pages/Dashboard.jsx:110-126 | Distinct labels, one per valid date. Each bar is that date's total, and the bars sum to the valid rows' counts. |
| PagesDashboard.CartNames | pages/Dashboard.jsx:153-154 | Each transaction contributes the names of its cart's lines, in order. |
| PagesDashboard.Rules | pages/Dashboard.jsx:147-182 | Every rule has `0 < support <= confidence <= 1` and `support >= minSupport`. Its antecedent sorts before its consequent, and no pair yields two rules. |
| PagesDashboard.RulesBounded | pages/Dashboard.jsx:177 | The `confidence <= 1` filter keeps every rule's confidence and support within (0, 1]. |
| PagesDashboard.CapHalvesCoOccurrence | pages/Dashboard.jsx:160-177 | Pair counts are doubled, so a pair passes the cap only if at most half of its antecedent's carts also hold the consequent. |
| PagesDashboard.DoubledPairExample | pages/Dashboard.jsx:160-177 | The carts [A,B], [A,B], [A] yield no rule at all: the doubled count gives confidence 4/3. |
| PagesDashboard.FetchData | pages/Dashboard.jsx:31-104 | The snapshot exists exactly when every cart decodes, because a `JSON.parse` error aborts the whole refresh. In that case the people chart has the valid dates, the top product is `''` exactly when no product count is positive, and every rule lies within (0, 1]. |
| ComponentsDashboard.ProductColumn | components/Dashboard.tsx:100-105 | Every line contributes its own name and quantity, with no guard. |
| ComponentsDashboard.ProductCounts | components/Dashboard.tsx:100-105 | Keys are unique and are exactly the names sold. |
| ComponentsDashboard.ProductCountsGet | components/Dashboard.tsx:100-105 | Each product's count is its total quantity sold. |
| ComponentsDashboard.ProductsTotalUnitSales | components/Dashboard.tsx:89-105 | With no guard, the product counts add up to exactly the unit sales. |
| ComponentsDashboard.Contributions | components/Dashboard.tsx:117-124 | A missing (falsy) column value counts as 0, under the row's date. |
| ComponentsDashboard.GenderChartSums | components/Dashboard.tsx:113-131 | The chart's male (female) column sums to the analysis table's male (female) column. |
| ComponentsDashboard.DatedCounts | components/Dashboard.tsx:153-155 | Every row contributes, and an invalid timestamp contributes under "Invalid Date". |
| ComponentsDashboard.PeopleByDate | components/Dashboard.tsx:150-162 | Distinct labels, exactly the date keys that occur, and each bar the sum of the counts under its date key. The bars sum to every row's count. |
| ComponentsDashboard.InvalidDateBar | components/Dashboard.tsx:154 | Any row with an invalid timestamp yields an "Invalid Date" bar. |
| ComponentsDashboard.Rules | components/Dashboard.tsx:164-204 | Every rule meets both thresholds, sorts its antecedent first and has its own pair. |
| ComponentsDashboard.RulesFiltered | components/Dashboard.tsx:198 | Every mined rule passes the `support >= minSupport && confidence >= minConfidence` test. |
| ComponentsDashboard.FetchData | components/Dashboard.tsx:71-145 | The refresh is aborted, with nothing shown changed, exactly when some payment's cart is not an array. Otherwise: the attendance total equals the unit sales, and each product's entry is its quantity sold; the gender chart preserves the table's column sums; the people bars sum to all counts; every rule has support ≥ 0.1 and confidence ≥ 0.5. |
| Baskets.Distinct | pages/Dashboard.jsx:154 | `new Set(names)` holds exactly the names, each once. |
| Baskets.DistinctFirstOccurrence | pages/Dashboard.jsx:154 | `new Set(names)` iterates the names in the order of their first occurrence in the cart. |
| Baskets.PairKey | pages/Dashboard.jsx:163 | `[a, b].sort()` of two different names is the same two names, smaller first. |
| Baskets.PairKeyHits | pages/Dashboard.jsx:163 | Exactly the two orderings of a pair map to its sorted key. |
| Baskets.CountItems | pages/Dashboard.jsx:156-158 | Counting items keeps keys unique and counts positive, and adds keys only for counted items. |
| Baskets.CountItemsGet | pages/Dashboard.jsx:156-158 | Each item's count rises by its number of occurrences. |
| Baskets.CountPairs | pages/Dashboard.jsx:160-167 | Pair counting keeps keys unique and counts positive. Every key it adds is sorted. |
| Baskets.CountPairsGet | pages/Dashboard.jsx:160-167 | A sorted key's count rises by the number of (outer, inner) positions naming its two items in either order. |
| Baskets.PairHitsProduct | pages/Dashboard.jsx:160-167 | That number is the product of the two items' multiplicities, counted in both orders. |
| Baskets.UntouchedKey | pages/Dashboard.jsx:163-164 | An unsorted key is never incremented. |
| Baskets.TransactionItemEffect | pages/Dashboard.jsx:154-158 | One transaction raises an item's count by 1 if it holds the item at all, however often. |
| Baskets.TransactionPairEffect | pages/Dashboard.jsx:154-167 | One transaction raises a sorted pair's count by 2 if it holds both items, and otherwise leaves it alone. |
| Baskets.CountAll | pages/Dashboard.jsx:150-168 | After the counting pass, the total is the number of transactions, keys are unique, pair counts are positive and every pair key is sorted. |
| Baskets.CountAllMeaning | pages/Dashboard.jsx:150-168 | An item's count is the number of carts containing it. A sorted pair's count is twice the number of carts containing both items, and any other key's count is 0. |
| Baskets.CountAllDivisible | pages/Dashboard.jsx:173-175 | No counted pair can divide by zero: there is a transaction, and both items were counted. |
| Baskets.Emit | pages/Dashboard.jsx:171-180 | The rule loop emits at most one rule per pair entry. |
| Baskets.EmitMembers | pages/Dashboard.jsx:171-180 | The emitted rules are exactly the rules of the entries that pass the filter. |
| Baskets.RuleAtExpected | pages/Dashboard.jsx:171-176 | Each entry's rule has support `2·co/n`, confidence `2·co/occ(a)` and lift `confidence/(occ(b)/n)`. Here co, occ and n are counted independently over the carts. |
| Baskets.MinedRuleSound | pages/Dashboard.jsx:147-182 | Soundness: every mined rule names a co-occurring sorted pair, carries the values the definitions give and passes the filter. |
| Baskets.MinedRuleComplete | pages/Dashboard.jsx:147-182 | Completeness: the rule of every co-occurring sorted pair that passes the filter is mined. |
| Baskets.NoReversedRule | pages/Dashboard.jsx:163-172 | The direction from the larger name to the smaller is never mined. |
| Baskets.EmitDistinctPairs | pages/Dashboard.jsx:171-180 | Unique pair entries yield rules with distinct (antecedent, consequent). |
| Baskets.MinedRulesDistinct | pages/Dashboard.jsx:147-182 | No two mined rules share antecedent and consequent. |
| Baskets.NoCartsNoRules | pages/Dashboard.jsx:150-181 | With no transactions there are no rules. |
| Baskets.CappedRuleBounds | pages/Dashboard.jsx:173-177 | Under the `confidence <= 1` filter, a rule's support is positive and at most its confidence, which is at most 1. |
| Baskets.UncappedConfidenceExample | components/Dashboard.tsx:192-200 | Under the threshold filter, a single cart [A, B] yields a rule whose support and confidence are 2. |
| Dash.DayWindow | components/Dash.tsx:37-50 | No date means no query. Otherwise the window runs from the start to the end of the selected day, and an instant lies in it exactly when it falls on that day. |
| Dash.SalesFrom | components/Dash.tsx:37-67 | No date means no query. Otherwise the payments query admits an instant exactly when it falls on the selected day or any later day. |
| Dash.CategorySalesMeaning | components/Dash.tsx:73-92 | The accumulated object has one entry per category that some object cart names, no category twice. Each entry's total is `price_per_item * quantity` summed over that category's carts, with `NaN` absorbing. |
| Dash.AccumulateKeys | components/Dash.tsx:79-87 | Adding to a category keeps the accumulator's keys in their order, appending the category at the end only when it is new. |
| Dash.AccumulateAmount | components/Dash.tsx:79-87 | Adding an amount to a category raises that category's total by it, creating the entry when absent, and leaves every other total alone. |
| Dash.NonObjectCartIgnored | components/Dash.tsx:75-90 | A payment whose cart is falsy or not an object leaves the accumulated object unchanged. |
| Dash.ArrayCartPoisons | components/Dash.tsx:75-86 | An array cart passes the object test but has no fields, so it adds `NaN` under "undefined", and that total stays `NaN` whatever is paid later. |
| Dash.TopCategoryAlwaysNA | components/Dash.tsx:95-99 | The reduce never leaves its initial `{}`, so the panel shows "N/A" whatever the sales. |
| Dash.Present | components/Dash.tsx:56-57 | The filter keeps exactly the rows whose field is non-empty. |
| Dash.PresentKeepsSlices | components/Dash.tsx:56-57 | Filtering first changes no slice with a non-empty label. |
| Dash.PieSlices | components/Dash.tsx:108-134 | Each pie slice is the sum of `count` over the rows whose field equals its label exactly. |
| Dash.TimeSlicesCover | components/Dash.tsx:113-118 | The four time slices hold exactly the rows labelled with one of the four names. |
| Dash.GenderSlicesCover | components/Dash.tsx:132-135 | The two gender slices hold exactly the rows labelled "Male" or "Female". |
| Dash.LowerCaseGenderIgnored | components/Dash.tsx:133-134 | The comparison is case-sensitive: "male" lands in neither slice. |
| Dash.LowerCaseTimeIgnored | components/Dash.tsx:114-117 | "morning" lands in no time slice. |
| Chatbot.GreetingClick | components/Chatbot.tsx:26-37 | The greeting button toggles the chat. Opening it shows the options and appends the greeting; closing it changes nothing else. |
| Chatbot.OptionSelect | components/Chatbot.tsx:129-140 | Choosing an option records it, hides the options, and appends the echo and the date prompt. |
| Chatbot.Send | components/Chatbot.tsx:142-192 | Sending echoes the input and clears it. With option 1 selected, a well-shaped date gets the sales answer; with option 2, the people-count answer. Either way the follow-up question is added and the query ends. Any other text re-prompts and keeps the option. Without an option: "yes" in any case re-offers the options; "no" adds the goodbye; "analysis" toggles the chat as the greeting button does; anything else gets the not-understood reply. |
| Chatbot.NoQueryWithoutDate | components/Chatbot.tsx:146-174 | Neither query's answer is looked at unless an option is selected and the date is well-shaped. |
| Chatbot.OnlySelectedQuery | components/Chatbot.tsx:148-153 | Only the selected option's query is looked at: option 1 asks for sales, option 2 for the people count. |
| Chatbot.AnalysisCloses | components/Chatbot.tsx:183-184 | "analysis" in any letter case closes the chat. |
| Chatbot.SelectThenDate | components/Chatbot.tsx:129-162 | Choosing an option and then sending a well-shaped date asks that option's query once, shows its answer and the follow-up, and resets the selection. |
| Chatbot.CartLines | components/Chatbot.tsx:62-71 | Decoding the carts fails exactly when some JSON cart does not parse. |
| Chatbot.TotalsPerCart | components/Chatbot.tsx:58-77 | The running totals over all lines equal the per-cart totals summed. |
| Chatbot.SalesReply | components/Chatbot.tsx:39-98 | `fetchSalesData` replies as follows: an invalid date gets the invalid-date text; no rows get "No sales recorded"; a failed query or a cart that does not parse gets the error text; decodable rows get the summary of their totals. The summary appears only in that last case. |
| Chatbot.PeopleTotalSumsParsed | components/Chatbot.tsx:117-120 | The people total is the sum of exactly the counts that parse, in row order; a count that does not parse adds nothing. |
| Chatbot.PeopleReply | components/Chatbot.tsx:100-127 | `fetchPeopleCount` replies as follows: no rows get "No records found"; rows get the total in decimal; a failed query gets the error text. |
| Chatbot.PeopleRangeOfDate | components/Chatbot.tsx:102-104 | For a well-shaped date the bounds are the date followed by the first and by the last second. |
| QrScanner.Parse | pages/QRScanner.tsx:63-75 | A payload parses exactly when it has one ';' and both fields contain a ':'. The name is the trimmed text between the first and second ':' of the first field; the price is `parseFloat` of the same piece of the second field, trimmed. |
| QrScanner.Generate | pages/QRScanner.tsx:106-110 | A payload is generated exactly when both inputs are non-empty. |
| QrScanner.ParseGenerated | pages/QRScanner.tsx:63-110 | Round trip: a generated payload parses back to the trimmed name and the price read from the trimmed price text. |
| QrScanner.NoColonNoProduct | pages/QRScanner.tsx:65-74 | A payload without ':' never parses. |
| QrScanner.AddProduct | pages/QRScanner.tsx:77-87 | A product already in the cart only sets the error. A new one is appended with quantity 1, and the error is cleared. The cart keeps unique names and quantities ≥ 1. |
| QrScanner.HandleScan | pages/QRScanner.tsx:54-61 | An unparsable payload only sets the format error; a parsed one goes to `addProductToCart`. |
| QrScanner.OnScanResult | pages/QRScanner.tsx:44-47 | While the cooldown flag is set, a scan changes nothing. |
| QrScanner.ScanTwiceAddsOnce | pages/QRScanner.tsx:77-82 | Scanning the same payload twice adds the product once. |
| QrScanner.UpdateQuantity | pages/QRScanner.tsx:89-97 | Only lines with the name change, to `max(1, q + delta)`. The cart invariant is kept. |
| QrScanner.UpdateUndone | pages/QRScanner.tsx:89-97 | An update that stays above the floor is undone by the opposite update. |
| QrScanner.RemoveItem | pages/QRScanner.tsx:99-101 | After removal the name is gone. |
| QrScanner.RemoveMembers | pages/QRScanner.tsx:99-101 | Removal keeps exactly the lines with other names. |
| QrScanner.RemoveAbsent | pages/QRScanner.tsx:99-101 | Removing an absent name changes nothing. |
| QrScanner.RemoveKeepsOk | pages/QRScanner.tsx:99-101 | Removal keeps the cart invariant. |
| QrScanner.AddThenRemove | pages/QRScanner.tsx:77-101 | Adding a new product and removing it restores the cart. |
| QrScanner.Total | pages/QRScanner.tsx:103-104 | The total is a number exactly when every price is, and is 0 for an empty cart. |
| QrScanner.TotalRemove | pages/QRScanner.tsx:99-104 | Removing a line takes exactly its price × quantity off the total. |
| QrScanner.AddTotal | pages/QRScanner.tsx:77-104 | Adding a new product adds its price once to the total. |
| Checkout.Cents | pages/Checkout.tsx:23 | `toFixed(2)` keeps the nearest number of hundredths, with ties rounded away from zero. |
| Checkout.Round2 | pages/Checkout.tsx:34 | `parseFloat(total.toFixed(2))` keeps `NaN` as `NaN`, and otherwise lies within half a cent of the total. |
| Checkout.Round2Cents | pages/Checkout.tsx:34 | An amount already in whole cents is unchanged. |
| Checkout.CalculateTotal | pages/Checkout.tsx:22-24 | The rounded total is a number exactly when every price is, and lies within half a cent of the exact total. |
| Checkout.Prefix10 | pages/Checkout.tsx:36 | `slice(0, 10)` is a prefix of at most ten characters. |
| Checkout.HandlePayment | pages/Checkout.tsx:26-47 | An empty name or cart inserts nothing and sets the message. Otherwise the row carries the cart, the rounded total, the name and the date prefix. A failed insert keeps the cart and sets the error; a successful one empties the cart and marks the payment done. |
| Checkout.NoDoublePayment | pages/Checkout.tsx:27-45 | After a successful payment, paying again inserts nothing. |
| Checkout.RetryAfterFailure | pages/Checkout.tsx:32-41 | After a failed payment, a retry sends the same row again. |
| Heatmap.Init | pages/StoreHeatmap.tsx:24-26 | The initial grid is 50 columns of 40 zeros. |
| Heatmap.Reset | pages/StoreHeatmap.tsx:77-91 | Reset zeroes every cell and keeps the shape. |
| Heatmap.ResetIsInit | pages/StoreHeatmap.tsx:77-83 | Resetting any well-formed grid gives the initial grid. |
| Heatmap.SampleInFrame | pages/StoreHeatmap.tsx:130-137 | Every sampled pixel's red, green and blue bytes lie inside the 500×400 RGBA frame. |
| Heatmap.DarkIff | pages/StoreHeatmap.tsx:137-140 | The brightness test `(r+g+b)/3 < 100` is the integer test `r+g+b < 300`. |
| Heatmap.Bump | pages/StoreHeatmap.tsx:141-143 | A bump raises one cell by 1 and keeps every other cell. |
| Heatmap.DetectMovement | pages/StoreHeatmap.tsx:128-147 | One pass raises exactly the cells whose sampled pixel is dark, each by 1. |
| Heatmap.DetectMovementIsDetect | pages/StoreHeatmap.tsx:128-147 | The loop agrees with the functional definition on every grid and frame. |
| Heatmap.DetectBounds | pages/StoreHeatmap.tsx:140-143 | Cells never decrease and rise by at most 1 per pass. |
| Heatmap.ColourOf | pages/StoreHeatmap.tsx:154-161 | Above 30 is red, above 10 is yellow, anything else is green. Each condition holds in both directions. |
| Heatmap.ColourMonotone | pages/StoreHeatmap.tsx:157-161 | A busier cell is never shown in a cooler colour. |
| Heatmap.ResetIsGreen | pages/StoreHeatmap.tsx:155-161 | A reset grid renders green everywhere. |
| Heatmap.ProcessFrame | pages/StoreHeatmap.tsx:108-121 | A frame is processed exactly when processing is on and the video plays. Each processed frame increments the counter, and frames off the interval leave the grid alone. |
| Heatmap.Run | pages/StoreHeatmap.tsx:108-124 | Back-to-back frames advance the counter by their number. |
| Heatmap.RunBounds | pages/StoreHeatmap.tsx:108-121 | Over a run, no cell decreases and none rises by more than the number of frames the interval lets through. |
| Heatmap.TenFramesOneDetection | pages/StoreHeatmap.tsx:114 | Of any ten consecutive frames, exactly one is analysed. |
| Heatmap.PageStartCamera | pages/StoreHeatmap.tsx:39-55 | The page's `startCamera` attaches the stream without starting processing. |
| Heatmap.ComponentStartCamera | components/StoreHeatmap.tsx:36-48 | The component's `startCamera` also starts processing. |
| Heatmap.StopProcessing | pages/StoreHeatmap.tsx:64-74 | Stopping turns processing off, releases the stream and resets the grid. |
| Heatmap.StartCameraDiffers | components/StoreHeatmap.tsx:36-54 | After a stop, restarting the camera on the page processes no frame, while the component processes the next one, with React's state capture set aside. |
| PeopleCount.People | pages/Peoplecount.tsx:83 | Filtering keeps at most as many predictions as there are. |
| PeopleCount.PeopleMembers | pages/Peoplecount.tsx:83 | The filter keeps exactly the "person" predictions. |
| PeopleCount.PeopleAppend | pages/Peoplecount.tsx:83 | Filtering distributes over concatenation of prediction lists. |
| PeopleCount.PersonCountIsCount | pages/Peoplecount.tsx:82-84 | The count is the number of "person" predictions. |
| PeopleCount.PageDetected | pages/Peoplecount.tsx:82-84 | A detection pass sets the page's count to the number of persons and nothing else. |
| PeopleCount.PageTick | pages/Peoplecount.tsx:19-47 | Each interval tick does one of two things. A positive count is stored with the formatted clock; a zero count stores nothing. Either way the count ends at 0. |
| PeopleCount.PageStop | pages/Peoplecount.tsx:61-68 | Stopping hides the camera and drops the count without storing it. |
| PeopleCount.PageRowsPositive | pages/Peoplecount.tsx:41-42 | The page never stores a zero count. |
| PeopleCount.PageTickOnce | pages/Peoplecount.tsx:31-41 | A second tick before the next detection stores nothing. |
| PeopleCount.ComponentDetected | components/Peoplecount.tsx:72-74 | A detection pass sets the component's count to the number of persons. |
| PeopleCount.ComponentStop | components/Peoplecount.tsx:42-64 | The component's stop records the last count, stores it unconditionally with the formatted clock, resets the count and hides the camera. |
| PeopleCount.ComponentStoresZero | components/Peoplecount.tsx:57-60 | Unlike the page, the component stores a row for an empty room. |
| PeopleCount.RangeIsDayBounds | components/Chatbot.tsx:102-104 | The chatbot's bounds for a day are the stored texts of that day's first and last second. |
| PeopleCount.StoredRowInDayRange | components/Chatbot.tsx:102-110 | A stored timestamp lies within the chatbot's string bounds for a day exactly when it was taken on that day. |
| Timestamp.PadStart2 | pages/Peoplecount.tsx:23 | `padStart(2, '0')` left-pads with zeros to at least two characters. |
| Timestamp.Pad2Two | pages/Peoplecount.tsx:23-24 | Padding a number below 100 gives its two digits. |
| Timestamp.YearFour | pages/Peoplecount.tsx:23 | A four-digit year renders as its four digits. |
| Timestamp.FormatParts | pages/Peoplecount.tsx:22-28 | The stored timestamp is 19 characters: the date text, a space and the time text. |
| Timestamp.ParseFormat | pages/Peoplecount.tsx:22-28 | Round trip: the timestamp text of a valid clock reads back as that clock. |
| Timestamp.FormatInjective | pages/Peoplecount.tsx:22-28 | Different clocks never share a timestamp text. |
| Timestamp.LessIsBefore | components/Chatbot.tsx:109-110 | Comparing two timestamp texts as strings is comparing the clocks chronologically. |
| Timestamp.LessDate | components/Chatbot.tsx:109-110 | Comparing two date texts as strings is comparing the dates. |
| Feedback.GenderLabel | pages/Feedback.tsx:128 | "MALE" exactly when the detector says "male", and "FEMALE" for anything else. |
| Feedback.Scan | pages/Feedback.tsx:119-155 | One pass counts every face once as male or female, detects exactly when there are faces, and records one entry per face. The last face's expression, if any, becomes the mood. |
| Feedback.ScanRecords | pages/Feedback.tsx:147-155 | Each record carries its face's gender label and its own timestamp. |
| Feedback.ScanCountsGender | pages/Feedback.tsx:140-145 | The male count is the number of "male" faces, and the rest are female. |
| Feedback.ScanMood | pages/Feedback.tsx:131-135 | The mood after a pass is the one in force at its last face. |
| Feedback.MoodFromFaces | pages/Feedback.tsx:122-135 | The mood shown is "UNKNOWN" or the expression of one of the frame's faces. |
| Feedback.RecordsFollowMood | pages/Feedback.tsx:148-154 | Each record's emotion is the mood in force at its face. |
| Feedback.RecordsExtend | pages/Feedback.tsx:148-155 | A later face leaves earlier records as they were. |
| Feedback.StartCamera | pages/Feedback.tsx:30-61 | Starting shows the camera and hides the summary, keeping what was collected. |
| Feedback.DrawBoxes | pages/Feedback.tsx:109-181 | `drawBoxes` overwrites the counts with this frame's and appends one record per face. No face means not detected and mood "UNKNOWN". The finals and the visibility flags are untouched. |
| Feedback.SaveRow | pages/Feedback.tsx:183-208 | The saved row carries the totals, a `YYYY-MM-DD` date and an `HH:MM:SS` time. |
| Feedback.StopCamera | pages/Feedback.tsx:63-87 | Stopping saves exactly when something was collected, and then saves the current counts. It hides the camera, marks nobody detected, shows the summary and sets the finals to the current counts. |
| Feedback.SavedCountsAreLastFrame | pages/Feedback.tsx:72-80 | The saved totals are those of the last frame, not the session's sum. |
| Feedback.LaterStopsSave | pages/Feedback.tsx:78-80 | Collected records are never cleared: once faces were seen, a later session that sees nobody still saves a row, with zero totals. |
| Feedback.StopWithoutFaces | pages/Feedback.tsx:78-86 | Stopping before any face is seen saves nothing and shows zero finals. |
| Feedback.SavedStampIsFormat | pages/Feedback.tsx:187-188 | The saved date and time, joined by a space, are the people counter's timestamp text. |
| Feedback.ReadBack | components/Dashboard.tsx:122-123 | The dashboard reads a saved row back with its date and its totals, a zero read as missing, which is 0. |
| Feedback.SavedRowCharted | components/Dashboard.tsx:113-131 | A saved row adds its counts, and only its counts, to the dashboard's gender chart. |
| Strings.LessTotal | pages/Dashboard.jsx:163 | Two different names are always ordered one way or the other, so the sorted pair key is defined. |
| Strings.LessTransitive | pages/Dashboard.jsx:163 | String order is transitive. |
| Strings.Split | pages/QRScanner.tsx:65-68 | `split` always yields at least one piece. |
| Strings.SplitLength | pages/QRScanner.tsx:65-66 | `split` yields one more piece than there are separators. |
| Strings.Trim | pages/QRScanner.tsx:67-68 | `trim` yields a contiguous slice of the input. Everything cut before and after it is white space, the slice neither starts nor ends with white space, and an already trimmed string is left alone. |
| Strings.Lower | pages/Dashboard.jsx:83-85 | `toLowerCase` lower-cases each character in place. |
| Strings.NatToStringValue | components/Chatbot.tsx:117-121 | The decimal rendering of a count reads back as the count. |
| JsNum.Plus | pages/QRScanner.tsx:103-104 | Adding `NaN` gives `NaN`; adding numbers gives their sum. |
| JsNum.TimesInt | pages/QRScanner.tsx:104 | `price * quantity` is `NaN` exactly when the price is. |
| JsNum.Times | components/Dash.tsx:77 | A product is `NaN` exactly when a factor is; otherwise it is the product of the values. |

## Left out

**Not modelled at all:**

- Rendering is not modelled. This covers the JSX, the charts and their colours, the canvas drawing of boxes and heatmap cells, and navigation. The non-core parts of the repository are also out: the landing page, the navigation bar and the other presentational components.
- The database client is not modelled. Query results are inputs; an inserted row is a returned value; an error is a `Failed` query or a boolean. A refused `select` is taken as an empty result, as the code's `data || []` does.
- The camera and the detection models are not modelled. Object predictions, face detections and frame pixels are inputs. A face's expression is given as its strongest expression (`Face.mood`): the argmax over the expression scores is not modelled.
- Timers are not modelled. This covers the people counter's six-second interval, the scanner's one-second cooldown reset and `requestAnimationFrame`. Each is a step the caller applies: `PageTick`, `OnScanResult` with the flag, `ProcessFrame`.
- React's asynchronous state updates and stale closures are not modelled. Handlers apply their updates immediately, in order.
- `localStorage` is not modelled. The cart hand-over from the scanner to the checkout page is the checkout state's `cart`.
- The chatbot's unused `itemsSold` text and the time stamp it renders next to a reply are not modelled.
- The heatmap component's duplicated grid, which is re-created on every render, is not modelled. The grid is a value threaded through the calls.

**Browser behaviour taken as inputs:**

- `JSON.parse`, `parseFloat`, `parseInt` and the validity of `new Date(...)` are parameters. `toLocaleDateString` and `getHours` are too: dates are their locale keys, and an invalid timestamp's hour is `None`.
- The JavaScript Date arithmetic of the filtered dashboard's day window is modelled on a day number and milliseconds.
- Timestamp: the clock fields are taken from the local-time getters, and a four-digit year is assumed (`Valid`).

**Modelled, with a deliberately narrower contract:**

- Tally.Add: JavaScript objects enumerate integer-like keys first, in numeric order. The model keeps every key in insertion order, so a product named like a number may appear earlier on screen than modelled.
- Baskets.PairKey: the pair is kept as two names rather than the joined text `a,b`. A name containing a comma, which the code would split wrongly, is not modelled.
- Checkout.Cents: rounding is exact decimal rounding of a real number. Binary floating point can round a tie such as 1.005 down, and that is not modelled.
- QrScanner.Total: the sum is exact on reals, as is all arithmetic on prices (`JsNum.Num` is a real or `NaN`). The `toFixed(2)` applied for display is not modelled here; the checkout page's rounding is modelled by `Checkout.Round2`.
- PagesDashboard.FetchData: the revenue is the exact sum. The `toFixed(2)` display formatting is not applied.
- Strings.Lower: case mapping is for ASCII letters only.
- Heatmap.DetectMovement: pixel values are unbounded integers rather than clamped bytes. The contract holds for every value.
- Baskets.Emit: a rule carries its two names; the display text `${a} => ${b}` is not built.
- ComponentsDashboard.FetchData: a cart line that is itself null throws at `y.name`. Lines here are always objects, so that abort is not modelled.
- Chatbot.SalesReply: the summary carries its totals as numbers; their rendering as text is not modelled.
- PagesDashboard.CartNames: a line with no name is given the name `""`. In the code the name stays `undefined`, which `new Set` keeps, the counts key as "undefined", and `sort()` places after every text.
- PagesDashboard.Rules: for a pair with a nameless line, the code builds the key `Milk,` and emits `Milk => ` with a `NaN` lift, because the count of `""` is undefined. The model orders `""` first instead. Those rules come out reversed and with other confidence and lift values.
- PagesDashboard.FetchData: a demographics row with a null or missing gender throws at `toLowerCase`. By then the people data, product counts, unit sales, revenue and top product have been set. Rows here always carry a text gender, so that partial abort is not modelled.
- PagesDashboard.FetchData: a cart line that is itself null passes the `y?.name` guard of the attendance fold (pages/Dashboard.jsx:40). The unit-sales reduce then throws at `y.quantity` (line 51), after the people and attendance data were set (lines 46-47). Cart lines here are always objects, so that partial abort is not modelled.
- PagesDashboard.FetchData: a truthy quantity that is not a number is string-concatenated by `sum + (y.quantity || 0)`. The model counts it as 0.
- Strings.LessTotal: the order is on Unicode code points, while JavaScript compares UTF-16 code units. The two disagree when a character above U+FFFF meets one in U+E000–U+FFFF at the first difference. For such names, the sorted pair key and the rule direction may differ from the code.

=== FILE: aggregates.dfy ===
/**
  Per-key folds shared by the dashboards: summing a count under a date key
  (`aggregated[date] = (aggregated[date] || 0) + n`) and the two-column
  variant that keeps a male and a female total per date.
 */
module Aggregates {
  import opened Tally

  /** Sum of the values of a list of keyed contributions. */
  function SumValues(ps: seq<(string, int)>): int
    decreases |ps|
  {
    if |ps| == 0 then 0 else SumValues(ps[..|ps| - 1]) + ps[|ps| - 1].1
  }

  /** Reference: the sum of the contributions made under key `k`. */
  function KeySum(ps: seq<(string, int)>, k: string): int
    decreases |ps|
  {
    if |ps| == 0 then 0
    else KeySum(ps[..|ps| - 1], k) + (if ps[|ps| - 1].0 == k then ps[|ps| - 1].1 else 0)
  }

  /** `ps.forEach(([k, n]) => acc[k] = (acc[k] || 0) + n)`, from an empty object. */
  function ByKey(ps: seq<(string, int)>): (t: Tally<string>)
    ensures Unique(t)
    ensures forall k :: k in Keys(t) <==> k in Keys(ps)
    ensures Total(t) == SumValues(ps)
    decreases |ps|
  {
    if |ps| == 0 then []
    else
      var init := ps[..|ps| - 1];
      assert Keys(ps) == Keys(init) + [ps[|ps| - 1].0];
      Add(ByKey(init), ps[|ps| - 1].0, ps[|ps| - 1].1)
  }

  /** Appending one contribution adds it to the total and to its key's sum. */
  lemma Snoc(ps: seq<(string, int)>, x: (string, int))
    ensures SumValues(ps + [x]) == SumValues(ps) + x.1
    ensures forall k :: KeySum(ps + [x], k) == KeySum(ps, k) + (if x.0 == k then x.1 else 0)
  {
    assert (ps + [x])[..|ps|] == ps;
  }

  /** Each key's accumulated value is the sum of the contributions made under it. */
  lemma {:induction false} ByKeyGet(ps: seq<(string, int)>, k: string)
    ensures Get(ByKey(ps), k) == KeySum(ps, k)
    decreases |ps|
  {
    if |ps| > 0 {
      ByKeyGet(ps[..|ps| - 1], k);
    }
  }

  /** The key order of `ByKey` depends only on the sequence of keys. */
  lemma {:induction false} ByKeyKeysOnly(ps: seq<(string, int)>, qs: seq<(string, int)>)
    requires Keys(ps) == Keys(qs)
    ensures Keys(ByKey(ps)) == Keys(ByKey(qs))
    decreases |ps|
  {
    if |ps| > 0 {
      var n := |ps|;
      assert Keys(ps[..n - 1]) == Keys(ps)[..n - 1];
      assert Keys(qs[..n - 1]) == Keys(qs)[..n - 1];
      assert ps[n - 1].0 == Keys(ps)[n - 1] == qs[n - 1].0;
      ByKeyKeysOnly(ps[..n - 1], qs[..n - 1]);
    }
  }

  /** One row of the gender chart: `{ date, totalMale, totalFemale }`. */
  datatype DateTotals = DateTotals(date: string, totalMale: int, totalFemale: int)

  /** A row's contribution: its date key and what it adds to each column. */
  datatype GenderContribution = GenderContribution(date: string, male: int, female: int)

  function MaleColumn(rows: seq<GenderContribution>): (ps: seq<(string, int)>)
    ensures |ps| == |rows| && forall i :: 0 <= i < |rows| ==> ps[i] == (rows[i].date, rows[i].male)
  {
    seq(|rows|, i requires 0 <= i < |rows| => (rows[i].date, rows[i].male))
  }

  function FemaleColumn(rows: seq<GenderContribution>): (ps: seq<(string, int)>)
    ensures |ps| == |rows| && forall i :: 0 <= i < |rows| ==> ps[i] == (rows[i].date, rows[i].female)
  {
    seq(|rows|, i requires 0 <= i < |rows| => (rows[i].date, rows[i].female))
  }

  /** The date of every row, in row order: the key column of either gender column. */
  function RowDates(rows: seq<GenderContribution>): (ds: seq<string>)
    ensures |ds| == |rows| && forall i :: 0 <= i < |rows| ==> ds[i] == rows[i].date
  {
    Keys(MaleColumn(rows))
  }

  /** The date column of the chart rows. */
  function Dates(out: seq<DateTotals>): (ds: seq<string>)
    ensures |ds| == |out| && forall i :: 0 <= i < |out| ==> ds[i] == out[i].date
  {
    seq(|out|, i requires 0 <= i < |out| => out[i].date)
  }

  /**
    `if (!acc[date]) acc[date] = {0, 0}; acc[date].male += m; acc[date].female += f`
    followed by `Object.entries(acc).map(...)`: one entry per distinct date, in
    order of first appearance.
   */
  function GenderByDate(rows: seq<GenderContribution>): (out: seq<DateTotals>)
    ensures forall i, j :: 0 <= i < j < |out| ==> out[i].date != out[j].date
    ensures forall d :: d in Dates(out) <==> d in RowDates(rows)
    ensures forall i :: 0 <= i < |out| ==>
      out[i].totalMale == KeySum(MaleColumn(rows), out[i].date)
      && out[i].totalFemale == KeySum(FemaleColumn(rows), out[i].date)
  {
    ColumnsShareKeys(rows);
    ZipMeaning(rows);
    Zip(ByKey(MaleColumn(rows)), ByKey(FemaleColumn(rows)))
  }

  /** Both columns accumulate under the same keys in the same order. */
  lemma ColumnsShareKeys(rows: seq<GenderContribution>)
    ensures Keys(ByKey(MaleColumn(rows))) == Keys(ByKey(FemaleColumn(rows)))
    ensures Keys(MaleColumn(rows)) == RowDates(rows)
  {
    assert Keys(MaleColumn(rows)) == Keys(FemaleColumn(rows));
    ByKeyKeysOnly(MaleColumn(rows), FemaleColumn(rows));
  }

  function Zip(males: Tally<string>, females: Tally<string>): (out: seq<DateTotals>)
    requires Keys(males) == Keys(females)
    ensures |out| == |males|
    ensures forall i :: 0 <= i < |out| ==> out[i] == DateTotals(males[i].0, males[i].1, females[i].1)
  {
    assert |Keys(males)| == |Keys(females)|;
    seq(|males|, i requires 0 <= i < |males| => DateTotals(males[i].0, males[i].1, females[i].1))
  }

  lemma ZipMeaning(rows: seq<GenderContribution>)
    requires Keys(ByKey(MaleColumn(rows))) == Keys(ByKey(FemaleColumn(rows)))
    requires Keys(MaleColumn(rows)) == RowDates(rows)
    ensures var out := Zip(ByKey(MaleColumn(rows)), ByKey(FemaleColumn(rows)));
      && (forall i, j :: 0 <= i < j < |out| ==> out[i].date != out[j].date)
      && (forall d :: d in Dates(out) <==> d in RowDates(rows))
      && (forall i :: 0 <= i < |out| ==>
            out[i].totalMale == KeySum(MaleColumn(rows), out[i].date)
            && out[i].totalFemale == KeySum(FemaleColumn(rows), out[i].date))
  {
    var males, females := ByKey(MaleColumn(rows)), ByKey(FemaleColumn(rows));
    var out := Zip(males, females);
    assert Dates(out) == Keys(males);
    forall i | 0 <= i < |out|
      ensures out[i].totalMale == KeySum(MaleColumn(rows), out[i].date)
      ensures out[i].totalFemale == KeySum(FemaleColumn(rows), out[i].date)
    {
      assert females[i].0 == Keys(females)[i] == Keys(males)[i] == males[i].0;
      GetEntry(males, i);
      GetEntry(females, i);
      ByKeyGet(MaleColumn(rows), males[i].0);
      ByKeyGet(FemaleColumn(rows), males[i].0);
    }
  }

  /** The male column of the chart. */
  function SumMale(out: seq<DateTotals>): int
    decreases |out|
  {
    if |out| == 0 then 0 else out[0].totalMale + SumMale(out[1..])
  }

  /** The female column of the chart. */
  function SumFemale(out: seq<DateTotals>): int
    decreases |out|
  {
    if |out| == 0 then 0 else out[0].totalFemale + SumFemale(out[1..])
  }

  lemma {:induction false} ZipSums(males: Tally<string>, females: Tally<string>)
    requires Keys(males) == Keys(females)
    ensures SumMale(Zip(males, females)) == Total(males)
    ensures SumFemale(Zip(males, females)) == Total(females)
    decreases |males|
  {
    if |males| > 0 {
      assert Keys(males[1..]) == Keys(males)[1..];
      assert Keys(females[1..]) == Keys(females)[1..];
      assert Zip(males, females)[1..] == Zip(males[1..], females[1..]);
      ZipSums(males[1..], females[1..]);
    }
  }

  /** Grouping by date neither loses nor invents people: the chart columns sum to the row sums. */
  lemma GenderByDateSums(rows: seq<GenderContribution>)
    ensures SumMale(GenderByDate(rows)) == SumValues(MaleColumn(rows))
    ensures SumFemale(GenderByDate(rows)) == SumValues(FemaleColumn(rows))
  {
    ColumnsShareKeys(rows);
    ZipSums(ByKey(MaleColumn(rows)), ByKey(FemaleColumn(rows)));
  }

  /**
    `Object.entries(t).reduce((max, e) => e[1] > max[1] ? e : max, ['', 0])`:
    the first entry whose value is strictly maximal, or `['', 0]` when no
    value is positive.
   */
  function Top(t: Tally<string>): (r: (string, int))
    ensures r.1 >= 0 && forall i :: 0 <= i < |t| ==> t[i].1 <= r.1
    ensures (forall i :: 0 <= i < |t| ==> t[i].1 <= 0) ==> r == ("", 0)
    ensures (exists i :: 0 <= i < |t| && t[i].1 > 0) ==>
      exists i :: 0 <= i < |t| && t[i] == r && forall j :: 0 <= j < i ==> t[j].1 < r.1
    decreases |t|
  {
    if |t| == 0 then ("", 0)
    else
      var n := |t| - 1;
      var m := Top(t[..n]);
      assert forall i :: 0 <= i < n ==> t[..n][i] == t[i];
      if t[n].1 > m.1 then t[n] else m
  }
}

=== FILE: baskets.dfy ===
/**
  Market-basket association rules as both dashboards compute them
  (`calculateAssociationRules`): one pass counts, per transaction, every
  distinct item once and every ordered pair of distinct items under its
  sorted key; a second pass turns each pair key into one rule
  "smaller => larger" with support, confidence and lift, and keeps the rules
  the dashboard's filter accepts.

  Because both orders `(A, B)` and `(B, A)` of a co-occurring pair hit the
  same sorted key, every co-occurrence adds 2 to the pair count.
 */
module Baskets {
  import opened Tally
  import opened Strings

  /** A pair key `[a, b].sort().join(',')`, kept as the two names (names hold no comma). */
  type Pair = (string, string)

  /** `new Set(names)`: the distinct names in order of first occurrence. */
  function Distinct(names: seq<string>): (d: seq<string>)
    ensures forall x :: x in d <==> x in names
    ensures forall i, j :: 0 <= i < j < |d| ==> d[i] != d[j]
    decreases |names|
  {
    if |names| == 0 then []
    else
      var d := Distinct(names[..|names| - 1]);
      var last := names[|names| - 1];
      assert names == names[..|names| - 1] + [last];
      if last in d then d else d + [last]
  }

  /** `s.indexOf(x)`: the position of the first occurrence of `x`. */
  function FirstIndex(s: seq<string>, x: string): (n: nat)
    requires x in s
    ensures n < |s| && s[n] == x
    ensures forall k :: 0 <= k < n ==> s[k] != x
    decreases |s|
  {
    if s[0] == x then 0 else 1 + FirstIndex(s[1..], x)
  }

  /** Appending an element leaves the first occurrence of an earlier one where it was. */
  lemma FirstIndexSnoc(s: seq<string>, y: string, x: string)
    requires x in s
    ensures FirstIndex(s + [y], x) == FirstIndex(s, x)
  {
    var n0, n1 := FirstIndex(s, x), FirstIndex(s + [y], x);
    assert (s + [y])[n0] == x;
    assert n1 <= n0;
    assert s[n1] == (s + [y])[n1];
  }

  /** The set iterates its names in the order in which they first occur. */
  lemma {:induction false} DistinctFirstOccurrence(names: seq<string>)
    ensures forall i, j :: 0 <= i < j < |Distinct(names)| ==>
              FirstIndex(names, Distinct(names)[i]) < FirstIndex(names, Distinct(names)[j])
    decreases |names|
  {
    if |names| > 0 {
      var init, last := names[..|names| - 1], names[|names| - 1];
      assert names == init + [last];
      DistinctFirstOccurrence(init);
      var d0, d := Distinct(init), Distinct(names);
      forall x | x in init
        ensures FirstIndex(names, x) == FirstIndex(init, x)
      {
        FirstIndexSnoc(init, last, x);
      }
      if last !in d0 {
        assert last !in init;
        assert FirstIndex(names, last) == |init|;
        assert d == d0 + [last];
      }
    }
  }

  /** `[a, b].sort()`: the lexicographically smaller name first. */
  function PairKey(a: string, b: string): (k: Pair)
    requires a != b
    ensures Less(k.0, k.1)
    ensures {k.0, k.1} == {a, b}
  {
    LessTotal(a, b);
    if Less(b, a) then (b, a) else (a, b)
  }

  /** The only two ordered pairs that share the key `(p, q)` are `(p, q)` and `(q, p)`. */
  lemma PairKeyHits(a: string, b: string, p: string, q: string)
    requires a != b && Less(p, q)
    ensures PairKey(a, b) == (p, q) <==> (a == p && b == q) || (a == q && b == p)
  {
    LessAsymmetric(p, q);
  }

  /** `items.forEach(item => itemCounts[item] = (itemCounts[item] || 0) + 1)`. */
  function CountItems(t: Tally<string>, items: seq<string>): (r: Tally<string>)
    ensures Unique(t) ==> Unique(r)
    ensures Positive(t) ==> Positive(r)
    ensures forall k :: k in Keys(r) ==> k in Keys(t) || k in items
    decreases |items|
  {
    if |items| == 0 then t else CountItems(Add(t, items[0], 1), items[1..])
  }

  /** The inner loop: `bs.forEach(b => if (a !== b) itemPairCounts[key(a, b)] += 1)`. */
  function CountPairsWith(t: Tally<Pair>, a: string, bs: seq<string>): (r: Tally<Pair>)
    ensures Unique(t) ==> Unique(r)
    ensures Positive(t) ==> Positive(r)
    ensures forall k :: k in Keys(r) ==> k in Keys(t) || Less(k.0, k.1)
    decreases |bs|
  {
    if |bs| == 0 then t
    else if a != bs[0] then CountPairsWith(Add(t, PairKey(a, bs[0]), 1), a, bs[1..])
    else CountPairsWith(t, a, bs[1..])
  }

  /** The outer loop: every `a` of `outer` against every `b` of `bs`. */
  function CountPairs(t: Tally<Pair>, outer: seq<string>, bs: seq<string>): (r: Tally<Pair>)
    ensures Unique(t) ==> Unique(r)
    ensures Positive(t) ==> Positive(r)
    ensures forall k :: k in Keys(r) ==> k in Keys(t) || Less(k.0, k.1)
    decreases |outer|
  {
    if |outer| == 0 then t else CountPairs(CountPairsWith(t, outer[0], bs), outer[1..], bs)
  }

  /** The counters after the first pass, and `transactions.length`. */
  datatype Counts = Counts(items: Tally<string>, pairs: Tally<Pair>, total: nat)

  /** One `transactions.forEach` step on the names of one cart. */
  function CountTransaction(c: Counts, names: seq<string>): Counts {
    var u := Distinct(names);
    Counts(CountItems(c.items, u), CountPairs(c.pairs, u, u), c.total)
  }

  /** Counting over the carts from first to last, from empty counters. */
  function CountAll(carts: seq<seq<string>>): (c: Counts)
    ensures c.total == |carts|
    ensures Unique(c.items) && Unique(c.pairs) && Positive(c.pairs)
    ensures forall k :: k in Keys(c.pairs) ==> Less(k.0, k.1)
    decreases |carts|
  {
    if |carts| == 0 then Counts([], [], 0)
    else
      var c := CountAll(carts[..|carts| - 1]);
      var c' := CountTransaction(c, carts[|carts| - 1]);
      Counts(c'.items, c'.pairs, |carts|)
  }

  // ---------------------------------------------------------------------------
  // Reference definitions: how many carts hold an item, and a pair of items.

  /** Number of carts that contain `x`. */
  function Occurs(carts: seq<seq<string>>, x: string): (n: nat)
    ensures n <= |carts|
    decreases |carts|
  {
    if |carts| == 0 then 0
    else Occurs(carts[..|carts| - 1], x) + (if x in carts[|carts| - 1] then 1 else 0)
  }

  /** Number of carts that contain both `a` and `b`. */
  function CoOccurs(carts: seq<seq<string>>, a: string, b: string): (n: nat)
    ensures n <= Occurs(carts, a) && n <= Occurs(carts, b)
    decreases |carts|
  {
    if |carts| == 0 then 0
    else
      var last := carts[|carts| - 1];
      CoOccurs(carts[..|carts| - 1], a, b) + (if a in last && b in last then 1 else 0)
  }

  // ---------------------------------------------------------------------------
  // Effect of one transaction.

  lemma {:induction false} CountItemsGet(t: Tally<string>, items: seq<string>, x: string)
    ensures Get(CountItems(t, items), x) == Get(t, x) + multiset(items)[x]
    decreases |items|
  {
    if |items| > 0 {
      var t' := Add(t, items[0], 1);
      CountItemsGet(t', items[1..], x);
      assert Get(t', x) == Get(t, x) + (if items[0] == x then 1 else 0);
      MultisetHead(items, x);
    }
  }

  lemma {:induction false} CountPairsWithGet(t: Tally<Pair>, a: string, bs: seq<string>, p: string, q: string)
    requires Less(p, q)
    ensures Get(CountPairsWith(t, a, bs), (p, q))
         == Get(t, (p, q)) + (if a == p then multiset(bs)[q] else 0) + (if a == q then multiset(bs)[p] else 0)
    decreases |bs|
  {
    LessIrreflexive(p);
    if |bs| > 0 {
      var b := bs[0];
      MultisetHead(bs, p);
      MultisetHead(bs, q);
      if a != b {
        var t' := Add(t, PairKey(a, b), 1);
        PairKeyHits(a, b, p, q);
        assert Get(t', (p, q)) == Get(t, (p, q)) + (if PairKey(a, b) == (p, q) then 1 else 0);
        CountPairsWithGet(t', a, bs[1..], p, q);
        assert CountPairsWith(t, a, bs) == CountPairsWith(t', a, bs[1..]);
      } else {
        CountPairsWithGet(t, a, bs[1..], p, q);
        assert CountPairsWith(t, a, bs) == CountPairsWith(t, a, bs[1..]);
      }
    }
  }

  /** Reference: how many (outer, inner) position pairs name `p` then `q`, or `q` then `p`. */
  function PairHits(outer: seq<string>, bs: seq<string>, p: string, q: string): int
    decreases |outer|
  {
    if |outer| == 0 then 0
    else
      (if outer[0] == p then multiset(bs)[q] else 0) + (if outer[0] == q then multiset(bs)[p] else 0)
      + PairHits(outer[1..], bs, p, q)
  }

  lemma {:induction false} CountPairsGet(t: Tally<Pair>, outer: seq<string>, bs: seq<string>, p: string, q: string)
    requires Less(p, q)
    ensures Get(CountPairs(t, outer, bs), (p, q)) == Get(t, (p, q)) + PairHits(outer, bs, p, q)
    decreases |outer|
  {
    if |outer| > 0 {
      var mid := CountPairsWith(t, outer[0], bs);
      assert CountPairs(t, outer, bs) == CountPairs(mid, outer[1..], bs);
      CountPairsWithGet(t, outer[0], bs, p, q);
      CountPairsGet(mid, outer[1..], bs, p, q);
    }
  }

  /** Counted by position, the pair hits are the products of the multiplicities. */
  lemma {:induction false} PairHitsProduct(outer: seq<string>, bs: seq<string>, p: string, q: string)
    ensures PairHits(outer, bs, p, q)
         == multiset(outer)[p] * multiset(bs)[q] + multiset(outer)[q] * multiset(bs)[p]
    decreases |outer|
  {
    if |outer| > 0 {
      PairHitsProduct(outer[1..], bs, p, q);
      MultisetHead(outer, p);
      MultisetHead(outer, q);
      var ep: int := if outer[0] == p then 1 else 0;
      var eq: int := if outer[0] == q then 1 else 0;
      var rp, rq := multiset(outer[1..])[p], multiset(outer[1..])[q];
      var bp, bq := multiset(bs)[p], multiset(bs)[q];
      Distribute(PairHits(outer, bs, p, q), ep, rp, bq, eq, rq, bp);
    }
  }

  lemma MultisetHead(s: seq<string>, x: string)
    requires |s| > 0
    ensures multiset(s)[x] == (if s[0] == x then 1 else 0) + multiset(s[1..])[x]
  {
    assert s == [s[0]] + s[1..];
  }

  lemma Distribute(total: int, ep: int, rp: int, bq: int, eq: int, rq: int, bp: int)
    requires total == ep * bq + eq * bp + rp * bq + rq * bp
    ensures total == (ep + rp) * bq + (eq + rq) * bp
  {
  }

  /** A sequence without repetitions holds each element once. */
  lemma {:induction false} DistinctMultiplicity(u: seq<string>, x: string)
    requires forall i, j :: 0 <= i < j < |u| ==> u[i] != u[j]
    ensures multiset(u)[x] == if x in u then 1 else 0
    decreases |u|
  {
    if |u| > 0 {
      assert u == [u[0]] + u[1..];
      assert u[0] !in u[1..];
      DistinctMultiplicity(u[1..], x);
    }
  }

  /** Within one transaction each distinct item name adds exactly 1 to its count. */
  lemma TransactionItemEffect(c: Counts, names: seq<string>, x: string)
    ensures Get(CountTransaction(c, names).items, x) == Get(c.items, x) + (if x in names then 1 else 0)
  {
    var u := Distinct(names);
    CountItemsGet(c.items, u, x);
    DistinctMultiplicity(u, x);
  }

  /**
    Within one transaction each unordered pair of distinct names adds exactly 2
    to its sorted key, and no other key changes.
   */
  lemma TransactionPairEffect(c: Counts, names: seq<string>, p: string, q: string)
    ensures Get(CountTransaction(c, names).pairs, (p, q))
         == Get(c.pairs, (p, q)) + (if Less(p, q) && p in names && q in names then 2 else 0)
  {
    var u := Distinct(names);
    var r := CountTransaction(c, names).pairs;
    if Less(p, q) {
      CountPairsGet(c.pairs, u, u, p, q);
      PairHitsProduct(u, u, p, q);
      DistinctMultiplicity(u, p);
      DistinctMultiplicity(u, q);
    } else {
      assert (p, q) !in Keys(r) || (p, q) in Keys(c.pairs);
      if (p, q) in Keys(c.pairs) {
        // `CountPairs` only adds keys in sorted order, so it never touches this one.
        UntouchedKey(c.pairs, u, u, (p, q));
      }
    }
  }

  /** A key that is not in sorted order keeps its count. */
  lemma {:induction false} UntouchedKey(t: Tally<Pair>, outer: seq<string>, bs: seq<string>, k: Pair)
    requires !Less(k.0, k.1)
    ensures Get(CountPairs(t, outer, bs), k) == Get(t, k)
    decreases |outer|
  {
    if |outer| > 0 {
      UntouchedKeyWith(t, outer[0], bs, k);
      UntouchedKey(CountPairsWith(t, outer[0], bs), outer[1..], bs, k);
    }
  }

  lemma {:induction false} UntouchedKeyWith(t: Tally<Pair>, a: string, bs: seq<string>, k: Pair)
    requires !Less(k.0, k.1)
    ensures Get(CountPairsWith(t, a, bs), k) == Get(t, k)
    decreases |bs|
  {
    if |bs| > 0 {
      if a != bs[0] {
        UntouchedKeyWith(Add(t, PairKey(a, bs[0]), 1), a, bs[1..], k);
      } else {
        UntouchedKeyWith(t, a, bs[1..], k);
      }
    }
  }

  /**
    After all carts: an item's count is the number of carts that hold it, and
    a sorted pair's count is twice the number of carts that hold both.
   */
  lemma {:induction false} CountAllMeaning(carts: seq<seq<string>>, x: string, p: string, q: string)
    ensures Get(CountAll(carts).items, x) == Occurs(carts, x)
    ensures Get(CountAll(carts).pairs, (p, q)) == if Less(p, q) then 2 * CoOccurs(carts, p, q) else 0
    decreases |carts|
  {
    if |carts| > 0 {
      var init := carts[..|carts| - 1];
      CountAllMeaning(init, x, p, q);
      TransactionItemEffect(CountAll(init), carts[|carts| - 1], x);
      TransactionPairEffect(CountAll(init), carts[|carts| - 1], p, q);
    }
  }

  // ---------------------------------------------------------------------------
  // Rules.

  /** `{ rule: `${antecedent} => ${consequent}`, support, confidence, lift }`. */
  datatype Rule = Rule(antecedent: string, consequent: string, support: real, confidence: real, lift: real)

  /** The two threshold tests found in the source. */
  datatype Filter =
    | SupportCappedConfidence(minSupport: real)
      // pages/Dashboard.jsx: `support >= minSupport && confidence <= 1`
    | SupportAndConfidence(minSupport: real, minConfidence: real)
      // components/Dashboard.tsx: `support >= minSupport && confidence >= minConfidence`

  predicate Keeps(f: Filter, r: Rule) {
    match f
    case SupportCappedConfidence(s) => r.support >= s && r.confidence <= 1.0
    case SupportAndConfidence(s, c) => r.support >= s && r.confidence >= c
  }

  /** Every counted pair names two items that were counted, in a non-empty batch. */
  predicate Divisible(c: Counts) {
    forall i :: 0 <= i < |c.pairs| ==>
      c.total > 0 && Get(c.items, c.pairs[i].0.0) > 0 && Get(c.items, c.pairs[i].0.1) > 0
  }

  /** The rule built from the `i`-th pair entry. */
  function RuleAt(c: Counts, i: nat): Rule
    requires Divisible(c) && i < |c.pairs|
  {
    var (a, b) := c.pairs[i].0;
    var count := c.pairs[i].1 as real;
    var n := c.total as real;
    var confidence := count / Get(c.items, a) as real;
    Rule(a, b, count / n, confidence, confidence / (Get(c.items, b) as real / n))
  }

  lemma RuleAtKey(c: Counts, i: nat)
    requires Divisible(c) && i < |c.pairs|
    ensures (RuleAt(c, i).antecedent, RuleAt(c, i).consequent) == c.pairs[i].0
  {
  }

  /** `for (const [pair, count] of Object.entries(itemPairCounts))`, from entry `lo` on. */
  function Emit(c: Counts, f: Filter, lo: nat): (rules: seq<Rule>)
    requires Divisible(c) && lo <= |c.pairs|
    ensures |rules| <= |c.pairs| - lo
    decreases |c.pairs| - lo
  {
    if lo == |c.pairs| then []
    else
      var rest := Emit(c, f, lo + 1);
      var r := RuleAt(c, lo);
      if Keeps(f, r) then [r] + rest else rest
  }

  /** The emitted rules are exactly the kept rules of the entries from `lo` on. */
  lemma {:induction false} EmitMembers(c: Counts, f: Filter, lo: nat)
    requires Divisible(c) && lo <= |c.pairs|
    ensures forall r :: r in Emit(c, f, lo) <==> exists i :: lo <= i < |c.pairs| && r == RuleAt(c, i) && Keeps(f, r)
    decreases |c.pairs| - lo
  {
    if lo < |c.pairs| {
      EmitMembers(c, f, lo + 1);
      var rest, r := Emit(c, f, lo + 1), RuleAt(c, lo);
      assert Emit(c, f, lo) == if Keeps(f, r) then [r] + rest else rest;
    }
  }

  /** After counting, no pair entry can make a division by zero. */
  lemma CountAllDivisible(carts: seq<seq<string>>)
    ensures Divisible(CountAll(carts))
  {
    var c := CountAll(carts);
    forall i | 0 <= i < |c.pairs|
      ensures c.total > 0 && Get(c.items, c.pairs[i].0.0) > 0 && Get(c.items, c.pairs[i].0.1) > 0
    {
      var (p, q) := c.pairs[i].0;
      assert c.pairs[i].0 in Keys(c.pairs);
      GetEntry(c.pairs, i);
      CountAllMeaning(carts, p, p, q);
      CountAllMeaning(carts, q, p, q);
    }
  }

  /** `calculateAssociationRules(transactions, ...)` over the names of each cart. */
  function MineRules(carts: seq<seq<string>>, f: Filter): seq<Rule> {
    var c := CountAll(carts);
    CountAllDivisible(carts);
    Emit(c, f, 0)
  }

  /** The rule the definitions of support, confidence and lift give for the sorted pair `(a, b)`. */
  function ExpectedRule(carts: seq<seq<string>>, a: string, b: string): Rule
    requires CoOccurs(carts, a, b) > 0
  {
    var n := |carts| as real;
    var count := 2 * CoOccurs(carts, a, b);
    var confidence := count as real / Occurs(carts, a) as real;
    Rule(a, b, count as real / n, confidence, confidence / (Occurs(carts, b) as real / n))
  }

  /** The `i`-th pair entry yields the rule the reference counts predict. */
  lemma RuleAtExpected(carts: seq<seq<string>>, i: nat)
    requires i < |CountAll(carts).pairs|
    ensures Divisible(CountAll(carts))
    ensures var k := CountAll(carts).pairs[i].0;
            Less(k.0, k.1) && CoOccurs(carts, k.0, k.1) > 0 && RuleAt(CountAll(carts), i) == ExpectedRule(carts, k.0, k.1)
  {
    CountAllDivisible(carts);
    var c := CountAll(carts);
    var (p, q) := c.pairs[i].0;
    assert c.pairs[i].0 in Keys(c.pairs);
    GetEntry(c.pairs, i);
    CountAllMeaning(carts, p, p, q);
    CountAllMeaning(carts, q, p, q);
  }

  /**
    Soundness: every mined rule is the rule of a co-occurring sorted pair, with
    antecedent lexicographically before (so different from) its consequent, and
    it passes the filter.
   */
  lemma MinedRuleSound(carts: seq<seq<string>>, f: Filter, r: Rule)
    requires r in MineRules(carts, f)
    ensures Less(r.antecedent, r.consequent) && r.antecedent != r.consequent
    ensures CoOccurs(carts, r.antecedent, r.consequent) > 0
    ensures r == ExpectedRule(carts, r.antecedent, r.consequent)
    ensures Keeps(f, r)
  {
    CountAllDivisible(carts);
    EmitMembers(CountAll(carts), f, 0);
    var i :| 0 <= i < |CountAll(carts).pairs| && r == RuleAt(CountAll(carts), i) && Keeps(f, r);
    RuleAtExpected(carts, i);
    LessIrreflexive(r.antecedent);
  }

  /** Completeness: the rule of every co-occurring sorted pair that passes the filter is mined. */
  lemma MinedRuleComplete(carts: seq<seq<string>>, f: Filter, a: string, b: string)
    requires Less(a, b) && CoOccurs(carts, a, b) > 0
    requires Keeps(f, ExpectedRule(carts, a, b))
    ensures ExpectedRule(carts, a, b) in MineRules(carts, f)
  {
    CountAllDivisible(carts);
    var c := CountAll(carts);
    CountAllMeaning(carts, a, a, b);
    assert Get(c.pairs, (a, b)) > 0;
    assert (a, b) in Keys(c.pairs);
    var i :| 0 <= i < |c.pairs| && c.pairs[i].0 == (a, b);
    RuleAtExpected(carts, i);
    EmitMembers(c, f, 0);
  }

  /** The reversed direction `b => a` of a sorted pair is never mined. */
  lemma NoReversedRule(carts: seq<seq<string>>, f: Filter, r: Rule)
    requires r in MineRules(carts, f)
    ensures !Less(r.consequent, r.antecedent)
  {
    MinedRuleSound(carts, f, r);
    LessAsymmetric(r.antecedent, r.consequent);
  }

  /** No two rules share an antecedent and consequent. */
  predicate DistinctRules(rules: seq<Rule>) {
    forall i, j :: 0 <= i < j < |rules| ==>
      (rules[i].antecedent, rules[i].consequent) != (rules[j].antecedent, rules[j].consequent)
  }

  lemma {:induction false} EmitDistinctPairs(c: Counts, f: Filter, lo: nat)
    requires Divisible(c) && Unique(c.pairs) && lo <= |c.pairs|
    ensures DistinctRules(Emit(c, f, lo))
    decreases |c.pairs| - lo
  {
    if lo < |c.pairs| {
      EmitDistinctPairs(c, f, lo + 1);
      var r := RuleAt(c, lo);
      var rest := Emit(c, f, lo + 1);
      if Keeps(f, r) {
        assert DistinctRules([r] + rest) by {
          EmitLaterKeys(c, f, lo);
          PrependDistinct(r, rest);
        }
        assert Emit(c, f, lo) == [r] + rest;
      } else {
        assert Emit(c, f, lo) == rest;
      }
    }
  }

  /** Rules emitted after entry `lo` carry other keys than entry `lo`. */
  lemma EmitLaterKeys(c: Counts, f: Filter, lo: nat)
    requires Divisible(c) && Unique(c.pairs) && lo < |c.pairs|
    ensures forall r :: r in Emit(c, f, lo + 1) ==> (r.antecedent, r.consequent) != (RuleAt(c, lo).antecedent, RuleAt(c, lo).consequent)
  {
    EmitMembers(c, f, lo + 1);
    RuleAtKey(c, lo);
    forall r | r in Emit(c, f, lo + 1)
      ensures (r.antecedent, r.consequent) != c.pairs[lo].0
    {
      var i :| lo + 1 <= i < |c.pairs| && r == RuleAt(c, i) && Keeps(f, r);
      RuleAtKey(c, i);
      assert c.pairs[i].0 != c.pairs[lo].0;
    }
  }

  lemma PrependDistinct(r: Rule, rest: seq<Rule>)
    requires DistinctRules(rest)
    requires forall x :: x in rest ==> (x.antecedent, x.consequent) != (r.antecedent, r.consequent)
    ensures DistinctRules([r] + rest)
  {
    var rules := [r] + rest;
    forall i, j | 0 <= i < j < |rules|
      ensures (rules[i].antecedent, rules[i].consequent) != (rules[j].antecedent, rules[j].consequent)
    {
      assert rules[j] == rest[j - 1] && rules[j] in rest;
      if i > 0 {
        assert rules[i] == rest[i - 1];
      }
    }
  }

  /** Each pair key yields at most one rule. */
  lemma MinedRulesDistinct(carts: seq<seq<string>>, f: Filter)
    ensures DistinctRules(MineRules(carts, f))
  {
    CountAllDivisible(carts);
    assert MineRules(carts, f) == Emit(CountAll(carts), f, 0);
    EmitDistinctPairs(CountAll(carts), f, 0);
  }

  /** No transactions, no rules. */
  lemma NoCartsNoRules(f: Filter)
    ensures MineRules([], f) == []
  {
  }

  /** Dividing by a larger positive number gives a smaller quotient. */
  lemma DivAntitone(n: real, x: real, y: real)
    requires n >= 0.0 && 0.0 < x <= y
    ensures n / y <= n / x
  {
    assert n / y * y == n && n / x * x == n;
  }

  lemma PositiveQuotient(n: real, d: real)
    requires n > 0.0 && d > 0.0
    ensures n / d > 0.0
  {
  }

  /**
    With the filter of pages/Dashboard.jsx every mined rule has
    0 < support <= confidence <= 1, because an item is in at most every cart.
   */
  lemma CappedRuleBounds(carts: seq<seq<string>>, minSupport: real, r: Rule)
    requires r in MineRules(carts, SupportCappedConfidence(minSupport))
    ensures 0.0 < r.support <= r.confidence <= 1.0
  {
    MinedRuleSound(carts, SupportCappedConfidence(minSupport), r);
    var a, b := r.antecedent, r.consequent;
    var count := (2 * CoOccurs(carts, a, b)) as real;
    var n, na := |carts| as real, Occurs(carts, a) as real;
    assert 0.0 < count && 0.0 < na <= n;
    assert r.support == count / n && r.confidence == count / na;
    DivAntitone(count, na, n);
    PositiveQuotient(count, n);
  }

  /**
    With the filter of components/Dashboard.tsx nothing caps confidence: a
    single cart holding two items yields the rule "A => B" with support and
    confidence 2.
   */
  lemma UncappedConfidenceExample()
    ensures Rule("A", "B", 2.0, 2.0, 2.0) in MineRules([["A", "B"]], SupportAndConfidence(0.1, 0.5))
  {
    var carts := [["A", "B"]];
    assert carts[..0] == [];
    assert Occurs(carts, "A") == 1 && Occurs(carts, "B") == 1;
    assert CoOccurs(carts, "A", "B") == 1;
    assert Less("A", "B");
    assert ExpectedRule(carts, "A", "B") == Rule("A", "B", 2.0, 2.0, 2.0);
    MinedRuleComplete(carts, SupportAndConfidence(0.1, 0.5), "A", "B");
  }
}

=== FILE: chatbot.dfy ===
/**
  The chat widget (components/Chatbot.tsx): a dialogue that offers two
  queries, asks for a date, validates its shape, answers from the store and
  then asks whether more help is wanted. Each handler is a transition of the
  widget state; the awaited store query is a parameter of `Send`.
 */
module Chatbot {
  import opened Wrappers
  import opened Strings
  import Tally

  datatype Sender = User | Bot

  /** What a message shows: plain text, or the sales summary the first query renders. */
  datatype Content =
    | Text(s: string)
    | SalesSummary(date: string, amount: real, items: int)

  datatype Message = Message(content: Content, sender: Sender)

  /** `messages`, `input`, `isOpen`, `showOptions` and `selectedOption`. */
  datatype ChatState = ChatState(
    messages: seq<Message>,
    input: string,
    isOpen: bool,
    showOptions: bool,
    selected: Option<int>)

  const Greeting: string := "How can I assist you today?"
  const Options: seq<string> := [
    "1) Total sales amount and product count based on date",
    "2) Total people at a particular date"]
  const DatePrompt: string := "Please provide a date (YYYY-MM-DD):"
  const MoreHelp: string := "Do you want more help? (Yes/No)"
  const BadDate: string := "Sorry, I can\U{2019}t understand. Please provide a valid date in YYYY-MM-DD format."
  const Goodbye: string := "Thank you! If you want to start again, type 'analysis'."
  const NotUnderstood: string := "Sorry, I can't understand you. Please type 'Yes' or 'No'."
  const SalesError: string := "Sorry, there was an error fetching the data."
  const PeopleError: string := "Sorry, there was an error fetching the people count."

  /** The widget as first rendered. */
  const Initial: ChatState := ChatState([], "", false, false, None)

  /** Every option ever selected is one of the two buttons. */
  predicate Valid(s: ChatState) {
    s.selected.None? || s.selected.value == 1 || s.selected.value == 2
  }

  /** A message list that extends `s`'s with `added`. */
  predicate Appended(s: ChatState, r: ChatState, added: seq<Message>) {
    r.messages == s.messages + added
  }

  /** `handleGreetingClick`: an open chat closes; a closed one opens with the options and a greeting. */
  function GreetingClick(s: ChatState): (r: ChatState)
    ensures r.isOpen == !s.isOpen
    ensures s.isOpen ==> r == s.(isOpen := false)
    ensures !s.isOpen ==> Appended(s, r, [Message(Text(Greeting), Bot)]) && r.showOptions
    ensures r.input == s.input && r.selected == s.selected
  {
    if s.isOpen then s.(isOpen := false)
    else s.(showOptions := true, messages := s.messages + [Message(Text(Greeting), Bot)], isOpen := true)
  }

  /** `handleOptionSelect(option)`, reachable from the two option buttons. */
  function OptionSelect(s: ChatState, option: int): (r: ChatState)
    requires option == 1 || option == 2
    ensures Valid(r) && r.selected == Some(option) && !r.showOptions
    ensures Appended(s, r, [Message(Text("You selected: " + Options[option - 1]), User), Message(Text(DatePrompt), Bot)])
    ensures r.input == s.input && r.isOpen == s.isOpen
  {
    s.(messages := s.messages + [Message(Text("You selected: " + Options[option - 1]), User)],
       selected := Some(option),
       showOptions := false)
     .(messages := s.messages + [Message(Text("You selected: " + Options[option - 1]), User), Message(Text(DatePrompt), Bot)])
  }

  /** `/^\d{4}-\d{2}-\d{2}$/`: four digits, dash, two digits, dash, two digits. */
  predicate IsDateShape(s: string) {
    |s| == 10 && s[4] == '-' && s[7] == '-'
    && forall i :: 0 <= i < 10 && i != 4 && i != 7 ==> IsDigit(s[i])
  }

  /** The bot's reply to a well-shaped date: option 1 asks `fetchSalesData`, option 2 `fetchPeopleCount`. */
  function Answer(option: int, date: string, sales: string -> Content, people: string -> string): Content {
    if option == 1 then sales(date) else Text(people(date))
  }

  /**
    `handleSend`. The user's text is echoed first; `sales` and `people` are
    the awaited queries of the two options, applied to the typed date.
   */
  function Send(s: ChatState, sales: string -> Content, people: string -> string): (r: ChatState)
    requires Valid(s)
    ensures Valid(r)
    ensures r.input == ""
    ensures s.messages + [Message(Text(s.input), User)] <= r.messages
    ensures s.selected == Some(1) && IsDateShape(s.input) ==>
      Appended(s, r, [Message(Text(s.input), User), Message(sales(s.input), Bot), Message(Text(MoreHelp), Bot)])
    ensures s.selected == Some(2) && IsDateShape(s.input) ==>
      Appended(s, r, [Message(Text(s.input), User), Message(Text(people(s.input)), Bot), Message(Text(MoreHelp), Bot)])
    ensures s.selected.Some? && IsDateShape(s.input) ==> r.selected.None?
    ensures s.selected.Some? && !IsDateShape(s.input) ==>
      Appended(s, r, [Message(Text(s.input), User), Message(Text(BadDate), Bot)]) && r.selected == s.selected
    ensures s.selected.Some? ==> r.isOpen == s.isOpen && r.showOptions == s.showOptions
    ensures s.selected.None? ==> r.selected.None?
    ensures s.selected.None? && Lower(s.input) == "yes" ==>
      Appended(s, r, [Message(Text(s.input), User)]) && r.showOptions && r.isOpen == s.isOpen
    ensures s.selected.None? && Lower(s.input) == "no" ==>
      Appended(s, r, [Message(Text(s.input), User), Message(Text(Goodbye), Bot)])
      && r.isOpen == s.isOpen && r.showOptions == s.showOptions
    ensures s.selected.None? && Lower(s.input) == "analysis" && s.isOpen ==>
      Appended(s, r, [Message(Text(s.input), User)]) && !r.isOpen && r.showOptions == s.showOptions
    ensures s.selected.None? && Lower(s.input) == "analysis" && !s.isOpen ==>
      Appended(s, r, [Message(Text(s.input), User), Message(Text(Greeting), Bot)]) && r.isOpen && r.showOptions
    ensures s.selected.None? && Lower(s.input) != "yes" && Lower(s.input) != "no" && Lower(s.input) != "analysis" ==>
      Appended(s, r, [Message(Text(s.input), User), Message(Text(NotUnderstood), Bot)])
      && r.isOpen == s.isOpen && r.showOptions == s.showOptions
  {
    var echoed := s.(messages := s.messages + [Message(Text(s.input), User)]);
    if s.selected.Some? then
      if IsDateShape(s.input) then
        echoed.(messages := echoed.messages + [Message(Answer(s.selected.value, s.input, sales, people), Bot), Message(Text(MoreHelp), Bot)],
                input := "", selected := None)
      else
        echoed.(messages := echoed.messages + [Message(Text(BadDate), Bot)], input := "")
    else
      var lower := Lower(s.input);
      var next :=
        if lower == "yes" then echoed.(showOptions := true)
        else if lower == "no" then echoed.(messages := echoed.messages + [Message(Text(Goodbye), Bot)])
        else if lower == "analysis" then GreetingClick(echoed)
        else echoed.(messages := echoed.messages + [Message(Text(NotUnderstood), Bot)]);
      next.(input := "")
  }

  /** The store is queried only for a well-shaped date: otherwise neither answer is looked at. */
  lemma NoQueryWithoutDate(s: ChatState, sales: string -> Content, people: string -> string,
                           sales': string -> Content, people': string -> string)
    requires Valid(s) && !(s.selected.Some? && IsDateShape(s.input))
    ensures Send(s, sales, people) == Send(s, sales', people')
  {
  }

  /** Only the selected option's query is looked at. */
  lemma OnlySelectedQuery(s: ChatState, sales: string -> Content, people: string -> string,
                          sales': string -> Content, people': string -> string)
    requires Valid(s) && s.selected.Some?
    requires s.selected.value == 1 ==> sales(s.input) == sales'(s.input)
    requires s.selected.value == 2 ==> people(s.input) == people'(s.input)
    ensures Send(s, sales, people) == Send(s, sales', people')
  {
  }

  /** The send form is only shown while the chat is open, and "analysis" (in any case) then closes it. */
  lemma AnalysisCloses(s: ChatState, sales: string -> Content, people: string -> string)
    requires Valid(s) && s.isOpen && s.selected.None? && Lower(s.input) == "analysis"
    ensures !Send(s, sales, people).isOpen
  {
  }

  /** Choosing an option and then typing a well-shaped date asks that option's query once and ends the query. */
  lemma SelectThenDate(s: ChatState, option: int, date: string, sales: string -> Content, people: string -> string)
    requires option == 1 || option == 2
    requires IsDateShape(date)
    ensures var r := Send(OptionSelect(s, option).(input := date), sales, people);
      r.selected.None? && r.input == ""
      && r.messages == s.messages + [
        Message(Text("You selected: " + Options[option - 1]), User), Message(Text(DatePrompt), Bot),
        Message(Text(date), User), Message(Answer(option, date, sales, people), Bot), Message(Text(MoreHelp), Bot)]
  {
  }

  // ---------------------------------------------------------------------------
  // The two queries.

  /** A line of a sold cart. */
  datatype SaleLine = SaleLine(name: string, price: real, quantity: int)

  /** A payment's cart: an array, or JSON text to decode. */
  datatype SaleCart = Items(items: seq<SaleLine>) | Json(text: string)

  /** The outcome of a store query: its rows, or an error (which the handler throws and catches). */
  datatype Query<T> = Rows(rows: seq<T>) | Failed

  /** Σ price × quantity and Σ quantity over lines. */
  function Amount(lines: seq<SaleLine>): real
    decreases |lines|
  {
    if |lines| == 0 then 0.0 else Amount(lines[..|lines| - 1]) + lines[|lines| - 1].price * lines[|lines| - 1].quantity as real
  }

  function ItemCount(lines: seq<SaleLine>): int
    decreases |lines|
  {
    if |lines| == 0 then 0 else ItemCount(lines[..|lines| - 1]) + lines[|lines| - 1].quantity
  }

  /** Decodes every cart; a text that does not parse throws. */
  function CartLines(carts: seq<SaleCart>, decode: string -> Option<seq<SaleLine>>): (r: Option<seq<SaleLine>>)
    ensures r.None? <==> exists i :: 0 <= i < |carts| && carts[i].Json? && decode(carts[i].text).None?
    decreases |carts|
  {
    if |carts| == 0 then Some([])
    else
      var n := |carts| - 1;
      assert forall i :: 0 <= i < n ==> carts[..n][i] == carts[i];
      var init := CartLines(carts[..n], decode);
      var last := match carts[n] case Items(items) => Some(items) case Json(t) => decode(t);
      if init.Some? && last.Some? then Some(init.value + last.value) else None
  }

  lemma {:induction false} AmountAppend(a: seq<SaleLine>, b: seq<SaleLine>)
    ensures Amount(a + b) == Amount(a) + Amount(b)
    ensures ItemCount(a + b) == ItemCount(a) + ItemCount(b)
    decreases |b|
  {
    if |b| > 0 {
      assert (a + b)[..|a + b| - 1] == a + b[..|b| - 1];
      assert (a + b)[|a + b| - 1] == b[|b| - 1];
      AmountAppend(a, b[..|b| - 1]);
    } else {
      assert a + b == a;
    }
  }

  /** Reference: the totals per cart, summed over the carts. */
  function CartsAmount(carts: seq<seq<SaleLine>>): real
    decreases |carts|
  {
    if |carts| == 0 then 0.0 else CartsAmount(carts[..|carts| - 1]) + Amount(carts[|carts| - 1])
  }

  function CartsItems(carts: seq<seq<SaleLine>>): int
    decreases |carts|
  {
    if |carts| == 0 then 0 else CartsItems(carts[..|carts| - 1]) + ItemCount(carts[|carts| - 1])
  }

  /** The decoded carts, one per payment. */
  function Decoded(carts: seq<SaleCart>, decode: string -> Option<seq<SaleLine>>): (d: seq<seq<SaleLine>>)
    requires CartLines(carts, decode).Some?
    ensures |d| == |carts|
    decreases |carts|
  {
    if |carts| == 0 then []
    else
      var n := |carts| - 1;
      assert CartLines(carts[..n], decode).Some?;
      Decoded(carts[..n], decode) + [match carts[n] case Items(items) => items case Json(t) => decode(t).value]
  }

  /** The running totals over all lines are the per-cart totals summed. */
  lemma {:induction false} TotalsPerCart(carts: seq<SaleCart>, decode: string -> Option<seq<SaleLine>>)
    requires CartLines(carts, decode).Some?
    ensures Amount(CartLines(carts, decode).value) == CartsAmount(Decoded(carts, decode))
    ensures ItemCount(CartLines(carts, decode).value) == CartsItems(Decoded(carts, decode))
    decreases |carts|
  {
    if |carts| > 0 {
      var n := |carts| - 1;
      assert CartLines(carts[..n], decode).Some?;
      TotalsPerCart(carts[..n], decode);
      var d := Decoded(carts, decode);
      assert d[..n] == Decoded(carts[..n], decode);
      assert CartLines(carts, decode).value == CartLines(carts[..n], decode).value + d[n];
      AmountAppend(CartLines(carts[..n], decode).value, d[n]);
    }
  }

  /** `fetchSalesData(1, date)`; `validDate` says whether `new Date(date)` is a valid date. */
  function SalesReply(date: string, validDate: bool, query: Query<SaleCart>, decode: string -> Option<seq<SaleLine>>): (c: Content)
    ensures !validDate ==> c == Text("The date \"" + date + "\" is invalid. Please provide a valid date.")
    ensures validDate && query.Rows? && |query.rows| == 0 ==> c == Text("No sales recorded on " + date + ".")
    ensures validDate && query.Rows? && |query.rows| > 0 && CartLines(query.rows, decode).Some? ==>
      c == SalesSummary(date, CartsAmount(Decoded(query.rows, decode)), CartsItems(Decoded(query.rows, decode)))
    ensures validDate && query.Failed? ==> c == Text(SalesError)
    ensures validDate && query.Rows? && CartLines(query.rows, decode).None? ==> c == Text(SalesError)
    ensures c.SalesSummary? <==> validDate && query.Rows? && |query.rows| > 0 && CartLines(query.rows, decode).Some?
  {
    if !validDate then Text("The date \"" + date + "\" is invalid. Please provide a valid date.")
    else if query.Failed? then Text(SalesError)
    else if |query.rows| == 0 then Text("No sales recorded on " + date + ".")
    else
      match CartLines(query.rows, decode)
      case None => Text(SalesError)
      case Some(lines) =>
        TotalsPerCart(query.rows, decode);
        SalesSummary(date, Amount(lines), ItemCount(lines))
  }

  /** A people-count row; `lastCount` is `None` where `parseInt` gives NaN. */
  datatype PeopleRow = PeopleRow(lastCount: Option<int>)

  /** `data.reduce((acc, r) => acc + (parseInt(r.lastCount, 10) || 0), 0)`. */
  function PeopleTotal(rows: seq<PeopleRow>): int
    decreases |rows|
  {
    if |rows| == 0 then 0 else PeopleTotal(rows[..|rows| - 1]) + rows[|rows| - 1].lastCount.GetOr(0)
  }

  /** Reference: the counts that parse, in row order. */
  function Parsed(rows: seq<PeopleRow>): seq<int>
    decreases |rows|
  {
    if |rows| == 0 then []
    else (if rows[0].lastCount.Some? then [rows[0].lastCount.value] else []) + Parsed(rows[1..])
  }

  lemma {:induction false} ParsedSnoc(rows: seq<PeopleRow>, x: PeopleRow)
    ensures Parsed(rows + [x]) == Parsed(rows) + (if x.lastCount.Some? then [x.lastCount.value] else [])
    decreases |rows|
  {
    if |rows| == 0 {
      assert [x][1..] == [];
    } else {
      var h := if rows[0].lastCount.Some? then [rows[0].lastCount.value] else [];
      assert (rows + [x])[0] == rows[0];
      assert (rows + [x])[1..] == rows[1..] + [x];
      assert Parsed(rows + [x]) == h + Parsed(rows[1..] + [x]);
      ParsedSnoc(rows[1..], x);
      assert Parsed(rows) == h + Parsed(rows[1..]);
    }
  }

  lemma {:induction false} SumSnoc(s: seq<int>, n: int)
    ensures Tally.SumSeq(s + [n]) == Tally.SumSeq(s) + n
    decreases |s|
  {
    if |s| == 0 {
      assert [n][1..] == [];
    } else {
      assert (s + [n])[1..] == s[1..] + [n];
      SumSnoc(s[1..], n);
    }
  }

  /** The total is the sum of exactly the counts that parse: a `NaN` falls back to 0 and adds nothing. */
  lemma {:induction false} PeopleTotalSumsParsed(rows: seq<PeopleRow>)
    ensures PeopleTotal(rows) == Tally.SumSeq(Parsed(rows))
    decreases |rows|
  {
    if |rows| > 0 {
      var n := |rows| - 1;
      PeopleTotalSumsParsed(rows[..n]);
      assert rows == rows[..n] + [rows[n]];
      ParsedSnoc(rows[..n], rows[n]);
      if rows[n].lastCount.Some? {
        SumSnoc(Parsed(rows[..n]), rows[n].lastCount.value);
      } else {
        assert Parsed(rows[..n]) + [] == Parsed(rows[..n]);
      }
    }
  }

  /** `fetchPeopleCount(date)`. */
  function PeopleReply(date: string, query: Query<PeopleRow>): (t: string)
    ensures query.Rows? && |query.rows| == 0 ==> t == "No records found for " + date + "."
    ensures query.Rows? && |query.rows| > 0 ==> t == "Total people counted on " + date + ": " + IntToString(PeopleTotal(query.rows))
    ensures query.Failed? ==> t == PeopleError
  {
    match query
    case Failed => PeopleError
    case Rows(rows) =>
      if |rows| == 0 then "No records found for " + date + "."
      else "Total people counted on " + date + ": " + IntToString(PeopleTotal(rows))
  }

  /** The `gte`/`lte` bounds `${year}-${month}-${day} 00:00:00` and `... 23:59:59` from `date.split("-")`. */
  function PeopleRange(date: string): (string, string)
  {
    var parts := Split(date, '-');
    var year := parts[0];
    var month := if |parts| > 1 then parts[1] else "undefined";
    var day := if |parts| > 2 then parts[2] else "undefined";
    (year + "-" + month + "-" + day + " 00:00:00", year + "-" + month + "-" + day + " 23:59:59")
  }

  /** For a well-shaped date the bounds are the date itself followed by the first and last second. */
  lemma PeopleRangeOfDate(date: string)
    requires IsDateShape(date)
    ensures PeopleRange(date) == (date + " 00:00:00", date + " 23:59:59")
  {
    var y, m, d := date[..4], date[5..7], date[8..];
    assert date == y + ['-'] + (m + ['-'] + d);
    assert '-' !in y by {
      assert forall i :: 0 <= i < 4 ==> IsDigit(y[i]);
    }
    assert '-' !in m by {
      assert forall i :: 0 <= i < 2 ==> IsDigit(m[i]);
    }
    assert '-' !in d by {
      assert forall i :: 0 <= i < 2 ==> IsDigit(d[i]);
    }
    SplitFirst(y, '-', m + ['-'] + d);
    SplitFirst(m, '-', d);
    SplitNoSep(d, '-');
    assert Split(date, '-') == [y, m, d];
    assert y + "-" + m + "-" + d == date;
  }
}

=== FILE: checkout.dfy ===
/**
  The checkout page (pages/Checkout.tsx): the rounded cart total, the guard of
  `handlePayment`, the payment row it inserts and the two outcomes of the insert.
 */
module Checkout {
  import opened Wrappers
  import opened JsNum
  import opened QrScanner

  /**
    The integer number of hundredths `toFixed(2)` keeps: the nearest one,
    with ties rounded away from zero (the sign is set aside first).
   */
  function Cents(x: real): (k: int)
    ensures (k as real) - 0.5 <= x * 100.0 <= (k as real) + 0.5
    ensures x >= 0.0 ==> x * 100.0 < (k as real) + 0.5
    ensures x < 0.0 ==> (k as real) - 0.5 < x * 100.0
  {
    if x >= 0.0 then (x * 100.0 + 0.5).Floor else -((-x * 100.0 + 0.5).Floor)
  }

  /** `parseFloat(n.toFixed(2))`: `NaN` stays `NaN`, a finite value is rounded to cents. */
  function Round2(n: Num): (r: Num)
    ensures r.Finite? <==> n.Finite?
    ensures r.Finite? ==> r.v * 100.0 == Cents(n.v) as real
    ensures r.Finite? ==> -0.005 <= r.v - n.v <= 0.005
  {
    match n
    case NaN => NaN
    case Finite(v) => Finite(Cents(v) as real / 100.0)
  }

  /** Rounding an amount that is already in whole cents changes nothing. */
  lemma Round2Cents(k: int)
    ensures Round2(Finite(k as real / 100.0)) == Finite(k as real / 100.0)
  {
    var x := k as real / 100.0;
    assert x * 100.0 == k as real;
    if k >= 0 {
      assert (k as real + 0.5).Floor == k;
    } else {
      assert (-(k as real) + 0.5).Floor == -k;
    }
    assert Cents(x) == k;
  }

  /** `calculateTotal`: the cart total rounded to cents. */
  function CalculateTotal(cart: seq<CartItem>): (r: Num)
    ensures r.Finite? <==> forall x :: x in cart ==> x.price.Finite?
    ensures r.Finite? ==> -0.005 <= r.v - Total(cart).v <= 0.005
  {
    Round2(Total(cart))
  }

  /** The row inserted into `payments`. */
  datatype PaymentRow = PaymentRow(cart: seq<CartItem>, price: Num, name: string, paymentDate: string)

  datatype CheckoutState = CheckoutState(cart: seq<CartItem>, name: string, paymentSuccess: bool, error: string)

  const MissingInput: string := "Please enter your name and ensure cart is not empty."
  const PaymentFailed: string := "Failed to process payment."

  /** The state after `handlePayment` and the row it tried to insert, if any. */
  datatype Outcome = Outcome(state: CheckoutState, inserted: Option<PaymentRow>)

  /** `slice(0, 10)`: at most the first ten characters. */
  function Prefix10(s: string): (r: string)
    ensures |r| == if |s| < 10 then |s| else 10
    ensures r <= s
  {
    if |s| < 10 then s else s[..10]
  }

  /**
    `handlePayment`, given the current ISO timestamp and whether the insert
    reports an error. An empty name or cart inserts nothing; otherwise the row
    is sent, and a failed insert keeps the cart while a successful one
    empties it and marks the payment done.
   */
  function HandlePayment(s: CheckoutState, isoNow: string, insertFails: bool): (o: Outcome)
    ensures o.inserted.None? <==> s.name == "" || |s.cart| == 0
    ensures o.inserted.None? ==> o.state == s.(error := MissingInput)
    ensures o.inserted.Some? ==>
      && o.inserted.value.cart == s.cart
      && o.inserted.value.name == s.name
      && o.inserted.value.price == CalculateTotal(s.cart)
      && o.inserted.value.paymentDate <= isoNow
      && |o.inserted.value.paymentDate| == (if |isoNow| < 10 then |isoNow| else 10)
    ensures o.inserted.Some? && insertFails ==> o.state == s.(error := PaymentFailed)
    ensures o.inserted.Some? && !insertFails ==> o.state == s.(paymentSuccess := true, cart := [])
  {
    if s.name == "" || |s.cart| == 0 then Outcome(s.(error := MissingInput), None)
    else
      var row := PaymentRow(s.cart, CalculateTotal(s.cart), s.name, Prefix10(isoNow));
      if insertFails then Outcome(s.(error := PaymentFailed), Some(row))
      else Outcome(s.(paymentSuccess := true, cart := []), Some(row))
  }

  /** After a successful payment the emptied cart cannot be paid for again. */
  lemma NoDoublePayment(s: CheckoutState, iso1: string, iso2: string, fails: bool)
    requires HandlePayment(s, iso1, false).inserted.Some?
    ensures HandlePayment(HandlePayment(s, iso1, false).state, iso2, fails).inserted.None?
  {
  }

  /** A failed payment can be retried and sends the same cart and price again. */
  lemma RetryAfterFailure(s: CheckoutState, iso: string, fails: bool)
    requires HandlePayment(s, iso, true).inserted.Some?
    ensures HandlePayment(HandlePayment(s, iso, true).state, iso, fails).inserted
      == HandlePayment(s, iso, true).inserted
  {
  }
}

=== FILE: componentsdashboard.dfy ===
/**
  The `fetchData` pass of the typed dashboard (components/Dashboard.tsx). Carts
  are arrays of `{ name, quantity }` with no guard on either field, gender
  figures come from the per-session analysis table, an invalid timestamp is
  grouped under the key "Invalid Date", and rules must reach a minimum
  confidence instead of being capped at 1.
 */
module ComponentsDashboard {
  import opened Wrappers
  import opened Tally
  import opened Strings
  import opened Aggregates
  import opened Baskets
  import opened TimeOfDay
  import opened DashboardRows

  /** A cart line, typed as a number quantity. */
  type Line = LineItem<int>

  /** `y.quantity`, added as it stands. */
  function Quantity(q: int): int {
    q
  }

  /**
    `x.cart` as the store returns it: an array of lines, or any other value
    (null, JSON text, an object), on which `x.cart.forEach` throws.
   */
  datatype StoredCart = Array(items: seq<Line>) | NotArray

  type StoredPayment = Payment<StoredCart>

  /** A payment whose cart is an array, as the type annotation promises. */
  type ArrayPayment = Payment<seq<Line>>

  predicate AllArrays(stored: seq<StoredPayment>) {
    forall i :: 0 <= i < |stored| ==> stored[i].cart.Array?
  }

  /** The payments seen through their array carts. */
  function Arrays(stored: seq<StoredPayment>): (pays: seq<ArrayPayment>)
    requires AllArrays(stored)
    ensures |pays| == |stored|
    ensures forall i :: 0 <= i < |stored| ==> pays[i] == Payment(stored[i].cart.items, stored[i].price)
  {
    seq(|stored|, i requires 0 <= i < |stored| => Payment(stored[i].cart.items, stored[i].price))
  }

  // ---------------------------------------------------------------------------
  // Unit sales and product quantities.

  /** All lines of all payments, in order. */
  function Lines(pays: seq<ArrayPayment>): seq<Line>
    decreases |pays|
  {
    if |pays| == 0 then [] else Lines(pays[..|pays| - 1]) + pays[|pays| - 1].cart
  }

  /** The outer reduce over the payments. */
  function UnitSales(pays: seq<ArrayPayment>): int
    decreases |pays|
  {
    if |pays| == 0 then 0 else UnitSales(pays[..|pays| - 1]) + Units(pays[|pays| - 1].cart, Quantity)
  }

  /** Every line's (name, quantity), unguarded. */
  function ProductColumn(items: seq<Line>): (ps: seq<(string, int)>)
    ensures |ps| == |items| && forall i :: 0 <= i < |items| ==> ps[i] == (items[i].name, items[i].quantity)
  {
    seq(|items|, i requires 0 <= i < |items| => (items[i].name, items[i].quantity))
  }

  /** `productCounts` (and the identical `attendanceData`). */
  function ProductCounts(pays: seq<ArrayPayment>): (t: Tally<string>)
    ensures Unique(t)
    ensures forall k :: k in Keys(t) <==> k in Names(Lines(pays))
  {
    var items := Lines(pays);
    assert Keys(ProductColumn(items)) == Names(items);
    ByKey(ProductColumn(items))
  }

  lemma {:induction false} UnitsColumn(items: seq<Line>)
    ensures Units(items, Quantity) == SumValues(ProductColumn(items))
    decreases |items|
  {
    if |items| > 0 {
      var n := |items| - 1;
      UnitsColumn(items[..n]);
      assert ProductColumn(items) == ProductColumn(items[..n]) + [(items[n].name, items[n].quantity)];
      Snoc(ProductColumn(items[..n]), (items[n].name, items[n].quantity));
    }
  }

  lemma {:induction false} UnitSalesLines(pays: seq<ArrayPayment>)
    ensures UnitSales(pays) == Units(Lines(pays), Quantity)
    decreases |pays|
  {
    if |pays| > 0 {
      UnitSalesLines(pays[..|pays| - 1]);
      UnitsAppend(Lines(pays[..|pays| - 1]), pays[|pays| - 1].cart, Quantity);
    }
  }

  /** With no guard, the product quantities add up to exactly the unit sales. */
  lemma ProductsTotalUnitSales(pays: seq<ArrayPayment>)
    ensures Total(ProductCounts(pays)) == UnitSales(pays)
  {
    UnitSalesLines(pays);
    UnitsColumn(Lines(pays));
  }

  /** Reference: the quantity sold of product `k`. */
  function NameQuantity(items: seq<Line>, k: string): int
    decreases |items|
  {
    if |items| == 0 then 0
    else NameQuantity(items[..|items| - 1], k) + (if items[|items| - 1].name == k then items[|items| - 1].quantity else 0)
  }

  lemma {:induction false} ColumnKeySum(items: seq<Line>, k: string)
    ensures KeySum(ProductColumn(items), k) == NameQuantity(items, k)
    decreases |items|
  {
    if |items| > 0 {
      var n := |items| - 1;
      ColumnKeySum(items[..n], k);
      assert ProductColumn(items) == ProductColumn(items[..n]) + [(items[n].name, items[n].quantity)];
      Snoc(ProductColumn(items[..n]), (items[n].name, items[n].quantity));
    }
  }

  /** Each product's entry is the quantity sold of it. */
  lemma ProductCountsGet(pays: seq<ArrayPayment>, k: string)
    ensures Get(ProductCounts(pays), k) == NameQuantity(Lines(pays), k)
  {
    ByKeyGet(ProductColumn(Lines(pays)), k);
    ColumnKeySum(Lines(pays), k);
  }

  // ---------------------------------------------------------------------------
  // Gender by date, from the analysis table.

  /** An analysis row; a column is `None` when its value is falsy. */
  datatype AnalysisRow = AnalysisRow(date: string, totalMale: Option<int>, totalFemale: Option<int>)

  /** `item["Total male"] || 0` and `item["Total Female"] || 0` under `item.Date`. */
  function Contributions(rows: seq<AnalysisRow>): (cs: seq<GenderContribution>)
    ensures |cs| == |rows|
    ensures forall i :: 0 <= i < |rows| ==>
      cs[i] == GenderContribution(rows[i].date, rows[i].totalMale.GetOr(0), rows[i].totalFemale.GetOr(0))
  {
    seq(|rows|, i requires 0 <= i < |rows| =>
      GenderContribution(rows[i].date, rows[i].totalMale.GetOr(0), rows[i].totalFemale.GetOr(0)))
  }

  function GenderChart(rows: seq<AnalysisRow>): seq<DateTotals> {
    GenderByDate(Contributions(rows))
  }

  /** Reference: the male column of the analysis rows, missing values read as 0. */
  function MaleInput(rows: seq<AnalysisRow>): int
    decreases |rows|
  {
    if |rows| == 0 then 0 else MaleInput(rows[..|rows| - 1]) + rows[|rows| - 1].totalMale.GetOr(0)
  }

  function FemaleInput(rows: seq<AnalysisRow>): int
    decreases |rows|
  {
    if |rows| == 0 then 0 else FemaleInput(rows[..|rows| - 1]) + rows[|rows| - 1].totalFemale.GetOr(0)
  }

  lemma {:induction false} ColumnsMatchInput(rows: seq<AnalysisRow>)
    ensures SumValues(MaleColumn(Contributions(rows))) == MaleInput(rows)
    ensures SumValues(FemaleColumn(Contributions(rows))) == FemaleInput(rows)
    decreases |rows|
  {
    if |rows| > 0 {
      var n := |rows| - 1;
      ColumnsMatchInput(rows[..n]);
      var cs := Contributions(rows);
      assert Contributions(rows[..n]) == cs[..n];
      assert MaleColumn(cs)[..n] == MaleColumn(cs[..n]);
      assert FemaleColumn(cs)[..n] == FemaleColumn(cs[..n]);
    }
  }

  /** Summing the chart's male (female) column gives the sum of the table's male (female) column. */
  lemma GenderChartSums(rows: seq<AnalysisRow>)
    ensures SumMale(GenderChart(rows)) == MaleInput(rows)
    ensures SumFemale(GenderChart(rows)) == FemaleInput(rows)
  {
    GenderByDateSums(Contributions(rows));
    ColumnsMatchInput(rows);
  }

  // ---------------------------------------------------------------------------
  // People counts.

  /** What `new Date(timestamp).toLocaleDateString()` gives for an invalid timestamp. */
  const InvalidDate: string := "Invalid Date"

  /** Every row's (date key, count); an invalid timestamp keys under "Invalid Date". */
  function DatedCounts(entries: seq<PeopleEntry>): (ps: seq<(string, int)>)
    ensures |ps| == |entries|
    ensures forall i :: 0 <= i < |entries| ==> ps[i] == (entries[i].date.GetOr(InvalidDate), entries[i].count)
  {
    seq(|entries|, i requires 0 <= i < |entries| => (entries[i].date.GetOr(InvalidDate), entries[i].count))
  }

  function CountSum(entries: seq<PeopleEntry>): int
    decreases |entries|
  {
    if |entries| == 0 then 0 else CountSum(entries[..|entries| - 1]) + entries[|entries| - 1].count
  }

  lemma {:induction false} DatedCountsTotal(entries: seq<PeopleEntry>)
    ensures SumValues(DatedCounts(entries)) == CountSum(entries)
    decreases |entries|
  {
    if |entries| > 0 {
      var n := |entries| - 1;
      DatedCountsTotal(entries[..n]);
      assert DatedCounts(entries)[..n] == DatedCounts(entries[..n]);
    }
  }

  /**
    `aggregatePeopleCountByDate`: one label per date key in order of first
    appearance; nothing is skipped, so the bars add up to every count.
   */
  function PeopleByDate(entries: seq<PeopleEntry>): (c: Chart)
    ensures |c.labels| == |c.data|
    ensures forall i, j :: 0 <= i < j < |c.labels| ==> c.labels[i] != c.labels[j]
    ensures forall d :: d in c.labels <==> d in Keys(DatedCounts(entries))
    ensures forall i :: 0 <= i < |c.labels| ==> c.data[i] == KeySum(DatedCounts(entries), c.labels[i])
    ensures SumSeq(c.data) == CountSum(entries)
  {
    var t := ByKey(DatedCounts(entries));
    DatedCountsTotal(entries);
    PeopleByDateEntries(entries, t);
    ChartOf(t)
  }

  lemma PeopleByDateEntries(entries: seq<PeopleEntry>, t: Tally<string>)
    requires t == ByKey(DatedCounts(entries))
    ensures forall i :: 0 <= i < |t| ==> t[i].1 == KeySum(DatedCounts(entries), t[i].0)
  {
    forall i | 0 <= i < |t|
      ensures t[i].1 == KeySum(DatedCounts(entries), t[i].0)
    {
      GetEntry(t, i);
      ByKeyGet(DatedCounts(entries), t[i].0);
    }
  }

  /** An entry with an invalid timestamp always produces the "Invalid Date" bar. */
  lemma InvalidDateBar(entries: seq<PeopleEntry>, i: nat)
    requires i < |entries| && entries[i].date.None?
    ensures InvalidDate in PeopleByDate(entries).labels
  {
    assert Keys(DatedCounts(entries))[i] == InvalidDate;
  }

  // ---------------------------------------------------------------------------
  // Association rules.

  function CartNames(pays: seq<ArrayPayment>): (ns: seq<seq<string>>)
    ensures |ns| == |pays| && forall i :: 0 <= i < |pays| ==> ns[i] == Names(pays[i].cart)
  {
    seq(|pays|, i requires 0 <= i < |pays| => Names(pays[i].cart))
  }

  /** `calculateAssociationRules(transactions, minSupport, minConfidence)`. */
  function Rules(pays: seq<ArrayPayment>, minSupport: real, minConfidence: real): (rules: seq<Rule>)
    ensures forall r :: r in rules ==> r.support >= minSupport && r.confidence >= minConfidence
    ensures forall r :: r in rules ==> Less(r.antecedent, r.consequent)
    ensures DistinctRules(rules)
  {
    var names := CartNames(pays);
    var f := SupportAndConfidence(minSupport, minConfidence);
    RulesFiltered(names, f);
    MinedRulesDistinct(names, f);
    MineRules(names, f)
  }

  lemma RulesFiltered(names: seq<seq<string>>, f: Filter)
    ensures forall r :: r in MineRules(names, f) ==> Keeps(f, r) && Less(r.antecedent, r.consequent)
  {
    forall r | r in MineRules(names, f)
      ensures Keeps(f, r) && Less(r.antecedent, r.consequent)
    {
      MinedRuleSound(names, f, r);
    }
  }

  // ---------------------------------------------------------------------------
  // The whole pass.

  /**
    `fetchData`, with the three query results as inputs. A cart that is not an
    array throws at its first `forEach`, before any state is set, so every
    chart keeps what it showed.
   */
  function FetchData(stored: seq<StoredPayment>, genderRows: seq<AnalysisRow>, people: seq<PeopleEntry>): (r: Option<Snapshot>)
    ensures r.None? <==> exists i :: 0 <= i < |stored| && stored[i].cart.NotArray?
    ensures r.Some? ==> Total(r.value.attendance) == r.value.unitSales
    ensures r.Some? ==> forall k :: Get(r.value.attendance, k) == NameQuantity(Lines(Arrays(stored)), k)
    ensures r.Some? ==> SumMale(r.value.gender) == MaleInput(genderRows) && SumFemale(r.value.gender) == FemaleInput(genderRows)
    ensures r.Some? ==> SumSeq(r.value.people.data) == CountSum(people)
    ensures r.Some? ==> forall x :: x in r.value.rules ==> x.support >= 0.1 && x.confidence >= 0.5
  {
    if !AllArrays(stored) then None
    else
      var pays := Arrays(stored);
      ProductsTotalUnitSales(pays);
      GenderChartSums(genderRows);
      var counts := ProductCounts(pays);
      forall k
        ensures Get(counts, k) == NameQuantity(Lines(pays), k)
      {
        ProductCountsGet(pays, k);
      }
      Some(Snapshot(
        counts,
        UnitSales(pays),
        Revenue(Prices(pays)),
        Top(counts).0,
        GenderChart(genderRows),
        Rules(pays, 0.1, 0.5),
        TimeOfDay.Distribute(HourEntries(people)),
        PeopleByDate(people)))
  }
}

=== FILE: dash.dfy ===
/**
  The daily analytics panel (components/Dash.tsx): the query window of the
  selected day, per-category sales, the top category, and the two pie charts
  over demographic rows.
 */
module Dash {
  import opened Wrappers
  import opened JsNum
  import Tally

  // ---------------------------------------------------------------------------
  // The day window.

  const MillisPerDay: int := 24 * 60 * 60 * 1000

  /** A local instant: a day number and the milliseconds since that day's midnight. */
  datatype Instant = Instant(day: int, ms: int)

  predicate ValidInstant(t: Instant) {
    0 <= t.ms < MillisPerDay
  }

  /** Chronological order of valid instants. */
  predicate AtOrBefore(a: Instant, b: Instant) {
    a.day < b.day || (a.day == b.day && a.ms <= b.ms)
  }

  datatype Window = Window(start: Instant, end: Instant)

  /**
    `setHours(0, 0, 0, 0)` and `setHours(23, 59, 59, 999)` on copies of the
    selected date; with no date selected nothing is fetched.
   */
  function DayWindow(selected: Option<Instant>): (w: Option<Window>)
    ensures w.None? <==> selected.None?
    ensures w.Some? ==> ValidInstant(w.value.start) && ValidInstant(w.value.end)
    ensures w.Some? ==> forall t :: ValidInstant(t) ==>
      (AtOrBefore(w.value.start, t) && AtOrBefore(t, w.value.end) <==> t.day == selected.value.day)
  {
    match selected
    case None => None
    case Some(d) => Some(Window(Instant(d.day, 0), Instant(d.day, MillisPerDay - 1)))
  }

  /**
    The payments query bounds only the start (`gte`): it admits an instant
    exactly when the instant falls on the selected day or a later one.
   */
  function SalesFrom(selected: Option<Instant>): (start: Option<Instant>)
    ensures start.None? <==> selected.None?
    ensures start.Some? ==> ValidInstant(start.value)
    ensures start.Some? ==> forall t :: ValidInstant(t) ==>
      (AtOrBefore(start.value, t) <==> t.day >= selected.value.day)
  {
    match DayWindow(selected)
    case None => None
    case Some(w) => Some(w.start)
  }

  // ---------------------------------------------------------------------------
  // Category sales.

  /**
    `curr.cart` of a payment: falsy, a truthy non-object (for example a
    string), or an object whose `item`, `price_per_item` and `quantity` are
    read as they stand. A missing `item` is the property key "undefined" and
    a missing factor is `NaN` once multiplied.
   */
  datatype SaleCart = NoCart | NotObject | Object(item: string, pricePerItem: Num, quantity: Num)

  /**
    The checkout stores an array of lines, which passes `typeof === 'object'`
    but has none of the three fields: `undefined * undefined` under the key
    "undefined".
   */
  const ArrayCart: SaleCart := Object("undefined", NaN, NaN)

  /** `price_per_item * quantity` of an object cart. */
  function CartAmount(c: SaleCart): Num
    requires c.Object?
  {
    Times(c.pricePerItem, c.quantity)
  }

  /** The accumulator `acc`: (name, total) entries in order of insertion. */
  type Totals = seq<(string, Num)>

  /** `acc[k].total`, with a category never sold reading as 0. */
  function Amount(t: Totals, k: string): Num
    decreases |t|
  {
    if |t| == 0 then Finite(0.0)
    else if t[0].0 == k then t[0].1
    else Amount(t[1..], k)
  }

  /** `acc[k] ? acc[k].total += v : acc[k] = { total: v, name: k }`. */
  function Accumulate(t: Totals, k: string, v: Num): Totals
    decreases |t|
  {
    if |t| == 0 then [(k, v)]
    else if t[0].0 == k then [(k, Plus(t[0].1, v))] + t[1..]
    else [t[0]] + Accumulate(t[1..], k, v)
  }

  lemma {:induction false} AccumulateAmount(t: Totals, k: string, v: Num, j: string)
    ensures Amount(Accumulate(t, k, v), j) == if j == k then Plus(Amount(t, k), v) else Amount(t, j)
    decreases |t|
  {
    if |t| > 0 && t[0].0 != k {
      AccumulateAmount(t[1..], k, v, j);
      assert Accumulate(t, k, v)[1..] == Accumulate(t[1..], k, v);
    } else if |t| > 0 {
      assert Accumulate(t, k, v)[1..] == t[1..];
    }
  }

  lemma {:induction false} AccumulateKeys(t: Totals, k: string, v: Num)
    ensures Tally.Keys(Accumulate(t, k, v)) == if k in Tally.Keys(t) then Tally.Keys(t) else Tally.Keys(t) + [k]
    decreases |t|
  {
    if |t| > 0 {
      assert Tally.Keys(t) == [t[0].0] + Tally.Keys(t[1..]);
      if t[0].0 == k {
        assert Accumulate(t, k, v)[1..] == t[1..];
      } else {
        AccumulateKeys(t[1..], k, v);
        assert Accumulate(t, k, v)[1..] == Accumulate(t[1..], k, v);
      }
    }
  }

  /** `salesData.reduce(...)`: one entry per category, in order of first sale. */
  function CategorySales(carts: seq<SaleCart>): Totals
    decreases |carts|
  {
    if |carts| == 0 then []
    else
      var acc := CategorySales(carts[..|carts| - 1]);
      var c := carts[|carts| - 1];
      if c.Object? then Accumulate(acc, c.item, CartAmount(c)) else acc
  }

  /** Reference: the categories of the object carts, in order, repeats kept. */
  function SoldItems(carts: seq<SaleCart>): seq<string>
    decreases |carts|
  {
    if |carts| == 0 then []
    else
      var c := carts[|carts| - 1];
      SoldItems(carts[..|carts| - 1]) + (if c.Object? then [c.item] else [])
  }

  /** Reference: the total of category `k`, summed from 0 with `NaN` absorbing. */
  function CategoryAmount(carts: seq<SaleCart>, k: string): Num
    decreases |carts|
  {
    if |carts| == 0 then Finite(0.0)
    else
      var c := carts[|carts| - 1];
      Plus(CategoryAmount(carts[..|carts| - 1], k), if c.Object? && c.item == k then CartAmount(c) else Finite(0.0))
  }

  /**
    The accumulated object has one entry per category that some object cart
    names, no category twice, and each total is that category's reference sum.
   */
  lemma {:induction false} CategorySalesMeaning(carts: seq<SaleCart>)
    ensures Tally.Unique(CategorySales(carts))
    ensures forall k :: k in Tally.Keys(CategorySales(carts)) <==> k in SoldItems(carts)
    ensures forall k :: Amount(CategorySales(carts), k) == CategoryAmount(carts, k)
    decreases |carts|
  {
    if |carts| > 0 {
      var n := |carts| - 1;
      CategorySalesMeaning(carts[..n]);
      var acc := CategorySales(carts[..n]);
      var c := carts[n];
      if c.Object? {
        AccumulateKeys(acc, c.item, CartAmount(c));
        forall k
          ensures Amount(CategorySales(carts), k) == CategoryAmount(carts, k)
        {
          AccumulateAmount(acc, c.item, CartAmount(c), k);
        }
      }
    }
  }

  /** A payment whose cart is falsy or not an object adds nothing. */
  lemma NonObjectCartIgnored(carts: seq<SaleCart>, c: SaleCart)
    requires !c.Object?
    ensures CategorySales(carts + [c]) == CategorySales(carts)
  {
    assert (carts + [c])[..|carts|] == carts;
  }

  /** Once an array cart has been paid, the "undefined" category totals `NaN`. */
  lemma ArrayCartPoisons(carts: seq<SaleCart>, later: seq<SaleCart>)
    ensures "undefined" in Tally.Keys(CategorySales(carts + [ArrayCart] + later))
    ensures Amount(CategorySales(carts + [ArrayCart] + later), "undefined") == NaN
  {
    var all := carts + [ArrayCart] + later;
    CategorySalesMeaning(all);
    SoldItemsConcat(carts + [ArrayCart], later);
    assert (carts + [ArrayCart])[..|carts|] == carts;
    assert "undefined" in SoldItems(carts + [ArrayCart]);
    CategoryAmountNaN(carts, later, "undefined");
  }

  lemma {:induction false} SoldItemsConcat(a: seq<SaleCart>, b: seq<SaleCart>)
    ensures SoldItems(a + b) == SoldItems(a) + SoldItems(b)
    decreases |b|
  {
    if |b| == 0 {
      assert a + b == a;
    } else {
      var n := |b| - 1;
      SoldItemsConcat(a, b[..n]);
      assert (a + b)[..|a + b| - 1] == a + b[..n];
    }
  }

  /** `NaN` is absorbing, so an array cart's `NaN` survives every later payment. */
  lemma {:induction false} CategoryAmountNaN(carts: seq<SaleCart>, later: seq<SaleCart>, k: string)
    requires k == "undefined"
    ensures CategoryAmount(carts + [ArrayCart] + later, k) == NaN
    decreases |later|
  {
    if |later| == 0 {
      assert carts + [ArrayCart] + later == carts + [ArrayCart];
      assert (carts + [ArrayCart])[..|carts|] == carts;
    } else {
      var n := |later| - 1;
      CategoryAmountNaN(carts, later[..n], k);
      assert (carts + [ArrayCart] + later)[..|carts| + 1 + n] == carts + [ArrayCart] + later[..n];
    }
  }

  // ---------------------------------------------------------------------------
  // Top category.

  /** The reduce's accumulator: the initial `{}` or a category `{ total, name }`. */
  datatype Best = Blank | Category(name: string, total: Num)

  /**
    `category.total > max.total`: `{}.total` is undefined, and every
    comparison with `undefined` or `NaN` is false.
   */
  predicate Beats(total: Num, max: Best) {
    match max
    case Blank => false
    case Category(_, t) => total.Finite? && t.Finite? && total.v > t.v
  }

  /** `Object.values(categorySales).reduce(..., {})`. */
  function TopCategory(t: Totals): Best
    decreases |t|
  {
    if |t| == 0 then Blank
    else
      var max := TopCategory(t[..|t| - 1]);
      var (name, total) := t[|t| - 1];
      if Beats(total, max) then Category(name, total) else max
  }

  /** `topCategory.name || "N/A"`. */
  function Shown(b: Best): string {
    if b.Category? && b.name != "" then b.name else "N/A"
  }

  /** The accumulator never leaves `{}`, so the panel always shows "N/A". */
  lemma {:induction false} TopCategoryAlwaysNA(t: Totals)
    ensures TopCategory(t) == Blank
    ensures Shown(TopCategory(t)) == "N/A"
    decreases |t|
  {
    if |t| > 0 {
      TopCategoryAlwaysNA(t[..|t| - 1]);
    }
  }

  // ---------------------------------------------------------------------------
  // Pie charts.

  /** A demographics row; a missing field is `""`. */
  datatype DemoItem = DemoItem(timeOfDay: string, gender: string, count: int)

  datatype Field = TimeOfDayField | GenderField

  function FieldOf(x: DemoItem, f: Field): string {
    match f
    case TimeOfDayField => x.timeOfDay
    case GenderField => x.gender
  }

  /** `rows.filter(item => item[f])`: rows whose field is truthy. */
  function Present(rows: seq<DemoItem>, f: Field): (r: seq<DemoItem>)
    ensures forall x :: x in r <==> x in rows && FieldOf(x, f) != ""
    decreases |rows|
  {
    if |rows| == 0 then []
    else
      var init := Present(rows[..|rows| - 1], f);
      var x := rows[|rows| - 1];
      assert rows == rows[..|rows| - 1] + [x];
      if FieldOf(x, f) != "" then init + [x] else init
  }

  /** `.filter(item => item[f] === value).reduce((acc, curr) => acc + curr.count, 0)`. */
  function Slice(rows: seq<DemoItem>, f: Field, value: string): int
    decreases |rows|
  {
    if |rows| == 0 then 0
    else
      var x := rows[|rows| - 1];
      Slice(rows[..|rows| - 1], f, value) + (if FieldOf(x, f) == value then x.count else 0)
  }

  const TimeLabels: seq<string> := ["Morning", "Afternoon", "Evening", "Night"]
  const GenderLabels: seq<string> := ["Male", "Female"]

  /** The pie over the rows that have the field, one slice per label. */
  function Pie(rows: seq<DemoItem>, f: Field, labels: seq<string>): (data: seq<int>)
    ensures |data| == |labels|
  {
    var kept := Present(rows, f);
    seq(|labels|, i requires 0 <= i < |labels| => Slice(kept, f, labels[i]))
  }

  function TimePie(rows: seq<DemoItem>): seq<int> {
    Pie(rows, TimeOfDayField, TimeLabels)
  }

  function GenderPie(rows: seq<DemoItem>): seq<int> {
    Pie(rows, GenderField, GenderLabels)
  }

  /** Filtering on a truthy field first changes no slice with a non-empty label. */
  lemma {:induction false} PresentKeepsSlices(rows: seq<DemoItem>, f: Field, value: string)
    requires value != ""
    ensures Slice(Present(rows, f), f, value) == Slice(rows, f, value)
    decreases |rows|
  {
    if |rows| > 0 {
      var n := |rows| - 1;
      PresentKeepsSlices(rows[..n], f, value);
      var init := Present(rows[..n], f);
      var x := rows[n];
      var bump := if FieldOf(x, f) == value then x.count else 0;
      assert Slice(rows, f, value) == Slice(rows[..n], f, value) + bump;
      if FieldOf(x, f) != "" {
        var q := init + [x];
        assert Present(rows, f) == q;
        assert q[..|q| - 1] == init && q[|q| - 1] == x;
        assert Slice(q, f, value) == Slice(init, f, value) + bump;
      } else {
        assert Present(rows, f) == init;
      }
    }
  }

  /** Every slice is the count of rows whose field equals its label exactly. */
  lemma PieSlices(rows: seq<DemoItem>, f: Field, labels: seq<string>)
    requires forall i :: 0 <= i < |labels| ==> labels[i] != ""
    ensures forall i :: 0 <= i < |labels| ==> Pie(rows, f, labels)[i] == Slice(rows, f, labels[i])
  {
    forall i | 0 <= i < |labels|
      ensures Pie(rows, f, labels)[i] == Slice(rows, f, labels[i])
    {
      PresentKeepsSlices(rows, f, labels[i]);
    }
  }

  /** Reference: the counts of rows whose field is one of the labels. */
  function Labelled(rows: seq<DemoItem>, f: Field, labels: seq<string>): int
    decreases |rows|
  {
    if |rows| == 0 then 0
    else
      var x := rows[|rows| - 1];
      Labelled(rows[..|rows| - 1], f, labels) + (if FieldOf(x, f) in labels then x.count else 0)
  }

  /** The four time slices hold exactly the rows labelled with one of the four names. */
  lemma {:induction false} TimeSlicesCover(rows: seq<DemoItem>)
    ensures Slice(rows, TimeOfDayField, "Morning") + Slice(rows, TimeOfDayField, "Afternoon")
      + Slice(rows, TimeOfDayField, "Evening") + Slice(rows, TimeOfDayField, "Night")
      == Labelled(rows, TimeOfDayField, TimeLabels)
    decreases |rows|
  {
    if |rows| > 0 {
      TimeSlicesCover(rows[..|rows| - 1]);
    }
  }

  /** The two gender slices hold exactly the rows labelled "Male" or "Female". */
  lemma {:induction false} GenderSlicesCover(rows: seq<DemoItem>)
    ensures Slice(rows, GenderField, "Male") + Slice(rows, GenderField, "Female")
      == Labelled(rows, GenderField, GenderLabels)
    decreases |rows|
  {
    if |rows| > 0 {
      GenderSlicesCover(rows[..|rows| - 1]);
    }
  }

  lemma SliceSingle(x: DemoItem, f: Field, value: string)
    ensures Slice([x], f, value) == if FieldOf(x, f) == value then x.count else 0
  {
    assert [x][..0] == [];
  }

  /** The comparison is case-sensitive: a lower-case gender lands in no slice. */
  lemma LowerCaseGenderIgnored(n: int)
    ensures GenderPie([DemoItem("Morning", "male", n)]) == [0, 0]
  {
    var x := DemoItem("Morning", "male", n);
    PieSlices([x], GenderField, GenderLabels);
    SliceSingle(x, GenderField, "Male");
    SliceSingle(x, GenderField, "Female");
    assert "male"[0] != "Male"[0];
  }

  /** Likewise a lower-case time of day lands in no slice. */
  lemma LowerCaseTimeIgnored(n: int)
    ensures TimePie([DemoItem("morning", "Male", n)]) == [0, 0, 0, 0]
  {
    var x := DemoItem("morning", "Male", n);
    PieSlices([x], TimeOfDayField, TimeLabels);
    SliceSingle(x, TimeOfDayField, "Morning");
    SliceSingle(x, TimeOfDayField, "Afternoon");
    SliceSingle(x, TimeOfDayField, "Evening");
    SliceSingle(x, TimeOfDayField, "Night");
    assert "morning"[0] != "Morning"[0] && "morning"[0] != "Evening"[0] && "morning"[0] != "Night"[0];
    assert |"morning"| != |"Afternoon"|;
  }
}

=== FILE: dashboardrows.dfy ===
/**
  Rows and screen figures common to both dashboards: a people-count row, a bar
  chart's labels and data, the revenue sum, and everything `fetchData` shows.
 */
module DashboardRows {
  import opened Wrappers
  import opened Tally
  import opened Aggregates
  import opened Baskets
  import opened TimeOfDay

  /**
    A people-count row: the locale date key of its timestamp (`None` when the
    timestamp is an invalid date), the hour of that timestamp, and its count.
   */
  datatype PeopleEntry = PeopleEntry(date: Option<string>, hour: Option<int>, count: int)

  /** A bar chart's `{ labels, data }`. */
  datatype Chart = Chart(labels: seq<string>, data: seq<int>)

  /** `{ labels: Object.keys(t), data: Object.values(t) }`. */
  function ChartOf(t: Tally<string>): (c: Chart)
    ensures |c.labels| == |c.data| == |t|
    ensures forall i :: 0 <= i < |t| ==> c.labels[i] == t[i].0 && c.data[i] == t[i].1
    ensures SumSeq(c.data) == Total(t)
  {
    ValuesTotal(t);
    Chart(Keys(t), Values(t))
  }

  /** The rows as the time-of-day distribution sees them. */
  function HourEntries(entries: seq<PeopleEntry>): (es: seq<Entry>)
    ensures |es| == |entries|
    ensures forall i :: 0 <= i < |entries| ==> es[i] == Entry(entries[i].hour, entries[i].count)
  {
    seq(|entries|, i requires 0 <= i < |entries| => Entry(entries[i].hour, entries[i].count))
  }

  /**
    `pay.data.reduce((total, x) => total + (x.price || 0), 0)`; a price is
    `None` when it is falsy (missing, null, zero or NaN).
   */
  function Revenue(prices: seq<Option<real>>): real
    decreases |prices|
  {
    if |prices| == 0 then 0.0 else Revenue(prices[..|prices| - 1]) + prices[|prices| - 1].GetOr(0.0)
  }

  /** Revenue over two batches of payments is the sum of their revenues. */
  lemma {:induction false} RevenueAppend(a: seq<Option<real>>, b: seq<Option<real>>)
    ensures Revenue(a + b) == Revenue(a) + Revenue(b)
    decreases |b|
  {
    if |b| > 0 {
      assert (a + b)[..|a + b| - 1] == a + b[..|b| - 1];
      assert (a + b)[|a + b| - 1] == b[|b| - 1];
      RevenueAppend(a, b[..|b| - 1]);
    } else {
      assert a + b == a;
    }
  }

  /** A cart line `{ name, quantity }`; each dashboard reads `quantity` its own way. */
  datatype LineItem<Q> = LineItem(name: string, quantity: Q)

  /** A payments row: the cart as stored, and `price`, `None` when it is falsy. */
  datatype Payment<C> = Payment(cart: C, price: Option<real>)

  /** The payments' prices, for the revenue sum. */
  function Prices<C>(pays: seq<Payment<C>>): (ps: seq<Option<real>>)
    ensures |ps| == |pays| && forall i :: 0 <= i < |pays| ==> ps[i] == pays[i].price
  {
    seq(|pays|, i requires 0 <= i < |pays| => pays[i].price)
  }

  /** `cart.map(item => item.name)`. */
  function Names<Q>(items: seq<LineItem<Q>>): (ns: seq<string>)
    ensures |ns| == |items| && forall i :: 0 <= i < |items| ==> ns[i] == items[i].name
  {
    seq(|items|, i requires 0 <= i < |items| => items[i].name)
  }

  /**
    `cart.reduce((sum, y) => sum + read(y.quantity), 0)`, where `read` is how
    the dashboard turns a stored quantity into a number.
   */
  function Units<Q>(items: seq<LineItem<Q>>, read: Q -> int): int
    decreases |items|
  {
    if |items| == 0 then 0 else Units(items[..|items| - 1], read) + read(items[|items| - 1].quantity)
  }

  lemma {:induction false} UnitsAppend<Q>(a: seq<LineItem<Q>>, b: seq<LineItem<Q>>, read: Q -> int)
    ensures Units(a + b, read) == Units(a, read) + Units(b, read)
    decreases |b|
  {
    if |b| > 0 {
      assert (a + b)[..|a + b| - 1] == a + b[..|b| - 1];
      assert (a + b)[|a + b| - 1] == b[|b| - 1];
      UnitsAppend(a, b[..|b| - 1], read);
    } else {
      assert a + b == a;
    }
  }

  /** What `fetchData` puts on screen. */
  datatype Snapshot = Snapshot(
    attendance: Tally<string>,
    unitSales: int,
    revenue: real,
    topProduct: string,
    gender: seq<DateTotals>,
    rules: seq<Rule>,
    time: Distribution,
    people: Chart)
}

=== FILE: feedback.dfy ===
/**
  The feedback page (pages/Feedback.tsx): the per-frame tally of faces by
  gender, the mood shown, the records collected for every face seen, and
  the `analysis` row saved when the camera is stopped.
 */
module Feedback {
  import opened Wrappers
  import opened Timestamp
  import ComponentsDashboard
  import Aggregates

  /**
    One face the detector reports: its gender text and, when the detector
    gave expression scores, the name of the strongest one in upper case.
   */
  datatype Face = Face(gender: string, mood: Option<string>)

  /** One entry of `collectedData`. */
  datatype Record = Record(gender: string, emotion: string, timestamp: string)

  const Unknown: string := "UNKNOWN"
  const MaleLabel: string := "MALE"
  const FemaleLabel: string := "FEMALE"

  /** Anything the detector does not call "male" is labelled female. */
  function GenderLabel(f: Face): (g: string)
    ensures g == MaleLabel <==> f.gender == "male"
    ensures g == MaleLabel || g == FemaleLabel
  {
    if f.gender == "male" then MaleLabel else FemaleLabel
  }

  /** What one pass of `drawBoxes` over a frame's faces accumulates. */
  datatype Frame = Frame(male: nat, female: nat, detected: bool, mood: string, records: seq<Record>)

  /**
    The `forEach` of `drawBoxes`, face by face: the gender counters, the
    running mood (kept from the previous face when a face has no
    expressions) and one record per face, stamped with `stamps[i]`.
   */
  function Scan(faces: seq<Face>, stamps: seq<string>): (r: Frame)
    requires |stamps| == |faces|
    ensures r.male + r.female == |faces|
    ensures r.detected <==> |faces| > 0
    ensures |r.records| == |faces|
    ensures |faces| > 0 && faces[|faces| - 1].mood.Some? ==> r.mood == faces[|faces| - 1].mood.value
    ensures |faces| > 0 ==> r.records[|faces| - 1].emotion == r.mood
    decreases |faces|
  {
    if |faces| == 0 then Frame(0, 0, false, Unknown, [])
    else
      var n := |faces| - 1;
      var p := Scan(faces[..n], stamps[..n]);
      var f := faces[n];
      var g := GenderLabel(f);
      var mood := if f.mood.Some? then f.mood.value else p.mood;
      Frame(
        p.male + (if g == MaleLabel then 1 else 0),
        p.female + (if g == FemaleLabel then 1 else 0),
        true,
        mood,
        p.records + [Record(g, mood, stamps[n])])
  }

  /** One record per face, in order, with the face's gender label and its own timestamp. */
  lemma ScanRecords(faces: seq<Face>, stamps: seq<string>)
    requires |stamps| == |faces|
    ensures var recs := Scan(faces, stamps).records;
      forall i :: 0 <= i < |faces| ==> recs[i].gender == GenderLabel(faces[i]) && recs[i].timestamp == stamps[i]
  {
    forall i | 0 <= i < |faces|
      ensures Scan(faces, stamps).records[i].gender == GenderLabel(faces[i])
      ensures Scan(faces, stamps).records[i].timestamp == stamps[i]
    {
      RecordAt(faces, stamps, i);
    }
  }

  lemma {:induction false} RecordAt(faces: seq<Face>, stamps: seq<string>, i: int)
    requires |stamps| == |faces| && 0 <= i < |faces|
    ensures Scan(faces, stamps).records[i].gender == GenderLabel(faces[i])
    ensures Scan(faces, stamps).records[i].timestamp == stamps[i]
    decreases |faces|
  {
    var n := |faces| - 1;
    if i < n {
      RecordAt(faces[..n], stamps[..n], i);
      RecordsExtend(faces, stamps, i);
    }
  }

  /** Reference: the faces the detector calls "male", counted position by position. */
  function CountMale(faces: seq<Face>): nat
    decreases |faces|
  {
    if |faces| == 0 then 0 else (if faces[0].gender == "male" then 1 else 0) + CountMale(faces[1..])
  }

  lemma {:induction false} CountMaleSnoc(faces: seq<Face>)
    requires |faces| > 0
    ensures CountMale(faces) == CountMale(faces[..|faces| - 1]) + (if faces[|faces| - 1].gender == "male" then 1 else 0)
    decreases |faces|
  {
    if |faces| > 1 {
      var n := |faces| - 1;
      CountMaleSnoc(faces[1..]);
      assert faces[1..][..n - 1] == faces[..n][1..];
    }
  }

  /** The male counter is exactly the number of faces the detector calls "male"; the rest are female. */
  lemma {:induction false} ScanCountsGender(faces: seq<Face>, stamps: seq<string>)
    requires |stamps| == |faces|
    ensures Scan(faces, stamps).male == CountMale(faces)
    ensures Scan(faces, stamps).female == |faces| - CountMale(faces)
    decreases |faces|
  {
    if |faces| > 0 {
      var n := |faces| - 1;
      ScanCountsGender(faces[..n], stamps[..n]);
      CountMaleSnoc(faces);
    }
  }

  /**
    Reference: the mood in force at face `i`, that of the nearest face at or
    before `i` with expressions, or "UNKNOWN" when there is none.
   */
  function MoodAt(faces: seq<Face>, i: int): string
    requires i < |faces|
    decreases i + 1
  {
    if i < 0 then Unknown
    else if faces[i].mood.Some? then faces[i].mood.value
    else MoodAt(faces, i - 1)
  }

  lemma {:induction false} MoodAtPrefix(faces: seq<Face>, n: int, i: int)
    requires 0 <= n <= |faces| && i < n
    ensures MoodAt(faces[..n], i) == MoodAt(faces, i)
    decreases i + 1
  {
    if i >= 0 {
      assert faces[..n][i] == faces[i];
      MoodAtPrefix(faces, n, i - 1);
    }
  }

  /** The mood a frame ends with is the one in force at its last face. */
  lemma {:induction false} ScanMood(faces: seq<Face>, stamps: seq<string>)
    requires |stamps| == |faces|
    ensures Scan(faces, stamps).mood == MoodAt(faces, |faces| - 1)
    decreases |faces|
  {
    if |faces| > 0 {
      var n := |faces| - 1;
      ScanMood(faces[..n], stamps[..n]);
      MoodAtPrefix(faces, n, n - 1);
      ScanMoodStep(faces, stamps);
    }
  }

  /** The mood in force is "UNKNOWN" or the strongest expression of a face at or before it. */
  lemma {:induction false} MoodAtFromFaces(faces: seq<Face>, i: int)
    requires i < |faces|
    ensures var m := MoodAt(faces, i);
      m == Unknown || exists j :: 0 <= j <= i && faces[j].mood == Some(m)
    decreases i + 1
  {
    if i >= 0 && faces[i].mood.None? {
      MoodAtFromFaces(faces, i - 1);
    }
  }

  /** The mood shown is "UNKNOWN" or the strongest expression of one of the frame's faces. */
  lemma MoodFromFaces(faces: seq<Face>, stamps: seq<string>)
    requires |stamps| == |faces|
    ensures var m := Scan(faces, stamps).mood;
      m == Unknown || exists i :: 0 <= i < |faces| && faces[i].mood == Some(m)
  {
    ScanMood(faces, stamps);
    MoodAtFromFaces(faces, |faces| - 1);
  }

  lemma ScanMoodStep(faces: seq<Face>, stamps: seq<string>)
    requires |stamps| == |faces| > 0
    ensures var n := |faces| - 1;
      Scan(faces, stamps).mood
        == if faces[n].mood.Some? then faces[n].mood.value else Scan(faces[..n], stamps[..n]).mood
  {
  }

  /** The emotion of each record is the mood in force at that face. */
  lemma {:induction false} RecordsFollowMood(faces: seq<Face>, stamps: seq<string>, i: int)
    requires |stamps| == |faces| && 0 <= i < |faces|
    ensures Scan(faces, stamps).records[i].emotion == MoodAt(faces, i)
    decreases |faces|
  {
    var n := |faces| - 1;
    if i < n {
      RecordsFollowMood(faces[..n], stamps[..n], i);
      MoodAtPrefix(faces, n, i);
      RecordsExtend(faces, stamps, i);
    } else {
      ScanMood(faces, stamps);
    }
  }

  /** A later face leaves the records of the earlier ones as they were. */
  lemma RecordsExtend(faces: seq<Face>, stamps: seq<string>, i: int)
    requires |stamps| == |faces| && 0 <= i < |faces| - 1
    ensures Scan(faces, stamps).records[i] == Scan(faces[..|faces| - 1], stamps[..|faces| - 1]).records[i]
  {
  }

  /** The page's state. */
  datatype State = State(
    showCamera: bool,
    maleCount: nat,
    femaleCount: nat,
    mood: string,
    isPersonDetected: bool,
    collected: seq<Record>,
    finalMaleCount: nat,
    finalFemaleCount: nat,
    finalMood: string,
    summaryVisible: bool)

  const Initial: State := State(false, 0, 0, "Neutral", false, [], 0, 0, Unknown, false)

  /** `handleStartCamera`: the camera is shown and the previous summary hidden. */
  function StartCamera(s: State): (t: State)
    ensures t.showCamera && !t.summaryVisible
    ensures t.collected == s.collected && t.maleCount == s.maleCount && t.femaleCount == s.femaleCount
  {
    s.(showCamera := true, summaryVisible := false)
  }

  /**
    `drawBoxes` on one frame: the counters are overwritten with this frame's
    counts (not added up), the mood is this frame's, and the frame's records
    are appended to what was collected before.
   */
  function DrawBoxes(s: State, faces: seq<Face>, stamps: seq<string>): (t: State)
    requires |stamps| == |faces|
    ensures t.maleCount + t.femaleCount == |faces|
    ensures t.isPersonDetected <==> |faces| > 0
    ensures |faces| == 0 ==> t.mood == Unknown
    ensures |t.collected| == |s.collected| + |faces| && t.collected[..|s.collected|] == s.collected
    ensures forall i :: 0 <= i < |faces| ==>
      t.collected[|s.collected| + i].gender == GenderLabel(faces[i])
      && t.collected[|s.collected| + i].timestamp == stamps[i]
    ensures t.showCamera == s.showCamera && t.summaryVisible == s.summaryVisible
    ensures t.finalMaleCount == s.finalMaleCount && t.finalFemaleCount == s.finalFemaleCount
      && t.finalMood == s.finalMood
  {
    var f := Scan(faces, stamps);
    ScanRecords(faces, stamps);
    var cleared := !f.detected && s.isPersonDetected;
    s.(maleCount := f.male,
       femaleCount := f.female,
       mood := if cleared then Unknown else f.mood,
       isPersonDetected := if f.detected then true else if s.isPersonDetected then false else s.isPersonDetected,
       collected := s.collected + f.records)
  }

  /** The row inserted into `analysis`. */
  datatype SavedRow = SavedRow(date: string, totalMale: int, totalFemale: int, time: string)

  /** `saveDataToSupabase` at clock `now`: the `en-CA` date and the 24-hour `en-GB` time. */
  function SaveRow(totalMale: int, totalFemale: int, now: Clock): (r: SavedRow)
    requires Valid(now)
    ensures |r.date| == 10 && r.date[4] == '-' && r.date[7] == '-'
    ensures |r.time| == 8 && r.time[2] == ':' && r.time[5] == ':'
    ensures r.totalMale == totalMale && r.totalFemale == totalFemale
  {
    SavedRow(DateText(now), totalMale, totalFemale, TimeText(now))
  }

  /**
    `handleStopCamera`: the camera is hidden, a row with the current counts
    is saved only when something has been collected, and the current counts
    and mood become the summary.
   */
  function StopCamera(s: State, now: Clock): (r: (State, Option<SavedRow>))
    requires Valid(now)
    ensures r.1.Some? <==> |s.collected| > 0
    ensures r.1.Some? ==> r.1.value.totalMale == s.maleCount && r.1.value.totalFemale == s.femaleCount
    ensures !r.0.showCamera && !r.0.isPersonDetected && r.0.summaryVisible
    ensures r.0.finalMaleCount == s.maleCount && r.0.finalFemaleCount == s.femaleCount
      && r.0.finalMood == s.mood
    ensures r.0.collected == s.collected
  {
    var saved := if |s.collected| > 0 then Some(SaveRow(s.maleCount, s.femaleCount, now)) else None;
    (s.(showCamera := false,
        isPersonDetected := false,
        finalMaleCount := s.maleCount,
        finalFemaleCount := s.femaleCount,
        finalMood := s.mood,
        summaryVisible := true),
     saved)
  }

  /**
    The saved "Total male" is the male count of the last frame alone: the
    frames before it contribute nothing.
   */
  lemma SavedCountsAreLastFrame(s: State, earlier: seq<Face>, es: seq<string>, last: seq<Face>, ls: seq<string>, now: Clock)
    requires |es| == |earlier| && |ls| == |last| && Valid(now)
    requires |earlier| > 0
    ensures var t := DrawBoxes(DrawBoxes(s, earlier, es), last, ls);
      && StopCamera(t, now).1.Some?
      && StopCamera(t, now).1.value.totalMale == CountMale(last)
      && StopCamera(t, now).1.value.totalFemale == |last| - CountMale(last)
  {
    ScanCountsGender(last, ls);
  }

  /**
    Collected records are never cleared, so once a session has seen a face
    every later stop saves a row, even after a session that saw nobody.
   */
  lemma LaterStopsSave(s: State, faces: seq<Face>, stamps: seq<string>, now: Clock, later: Clock)
    requires |stamps| == |faces| && Valid(now) && Valid(later)
    requires |faces| > 0
    ensures var t := StopCamera(DrawBoxes(StartCamera(s), faces, stamps), now).0;
      StopCamera(DrawBoxes(StartCamera(t), [], []), later).1
        == Some(SavedRow(DateText(later), 0, 0, TimeText(later)))
  {
  }

  /** Stopping before any face was seen saves nothing and shows an empty summary. */
  lemma StopWithoutFaces(now: Clock)
    requires Valid(now)
    ensures StopCamera(StartCamera(Initial), now).1.None?
    ensures StopCamera(StartCamera(Initial), now).0.finalMaleCount == 0
  {
  }

  /** The saved date and time, joined by a space, are the timestamp text the people counter stores. */
  lemma SavedStampIsFormat(male: int, female: int, now: Clock)
    requires Valid(now)
    ensures var r := SaveRow(male, female, now); r.date + " " + r.time == Format(now)
  {
    FormatJoin(now);
  }

  /** How the dashboard reads an `analysis` row back: `|| 0` turns a zero into a missing value. */
  function ReadBack(r: SavedRow): (a: ComponentsDashboard.AnalysisRow)
    ensures a.date == r.date
    ensures a.totalMale.GetOr(0) == r.totalMale && a.totalFemale.GetOr(0) == r.totalFemale
  {
    ComponentsDashboard.AnalysisRow(
      r.date,
      if r.totalMale == 0 then None else Some(r.totalMale),
      if r.totalFemale == 0 then None else Some(r.totalFemale))
  }

  /** A saved row adds its counts, and only its counts, to the dashboard's gender chart. */
  lemma SavedRowCharted(rows: seq<ComponentsDashboard.AnalysisRow>, r: SavedRow)
    ensures Aggregates.SumMale(ComponentsDashboard.GenderChart(rows + [ReadBack(r)]))
      == Aggregates.SumMale(ComponentsDashboard.GenderChart(rows)) + r.totalMale
    ensures Aggregates.SumFemale(ComponentsDashboard.GenderChart(rows + [ReadBack(r)]))
      == Aggregates.SumFemale(ComponentsDashboard.GenderChart(rows)) + r.totalFemale
  {
    var all := rows + [ReadBack(r)];
    ComponentsDashboard.GenderChartSums(all);
    ComponentsDashboard.GenderChartSums(rows);
    assert all[..|all| - 1] == rows;
  }
}

=== FILE: heatmap.dfy ===
/**
  The store heatmap (pages/StoreHeatmap.tsx and components/StoreHeatmap.tsx,
  whose grid logic is identical): a 50 x 40 grid of counters, one per 10 x 10
  block of a 500 x 400 frame, raised where the block's sampled pixel is dark,
  coloured by thresholds, reset on stop, and updated on every tenth frame.
 */
module Heatmap {
  import opened Wrappers

  const Width: int := 500
  const Height: int := 400
  const FrameInterval: int := 10
  const Scale: int := 10

  /** The grid has `Width / Scale` columns of `Height / Scale` cells each. */
  const Cols: int := Width / Scale
  const Rows: int := Height / Scale

  /** RGBA bytes of one frame, row by row. */
  const FrameBytes: int := Width * Height * 4

  /** `heatmapData[x][y]`: column-major, as the source indexes it. */
  type Grid = seq<seq<int>>

  predicate WellFormed(g: Grid) {
    |g| == Cols && forall x :: 0 <= x < |g| ==> |g[x]| == Rows
  }

  predicate InGrid(x: int, y: int) {
    0 <= x < Cols && 0 <= y < Rows
  }

  // ---------------------------------------------------------------------------
  // Initialisation and reset.

  /** `Array(50).fill(0).map(() => Array(40).fill(0))`. */
  function Init(): (g: Grid)
    ensures WellFormed(g)
    ensures forall x, y :: InGrid(x, y) ==> g[x][y] == 0
  {
    seq(Cols, x => seq(Rows, y => 0))
  }

  /** `resetHeatmap`: every cell of every column set to 0, the shape kept. */
  function Reset(g: Grid): (r: Grid)
    ensures |r| == |g|
    ensures forall x :: 0 <= x < |g| ==> |r[x]| == |g[x]|
    ensures forall x, y :: 0 <= x < |r| && 0 <= y < |r[x]| ==> r[x][y] == 0
  {
    seq(|g|, x requires 0 <= x < |g| => seq(|g[x]|, y => 0))
  }

  /** Resetting a well-formed grid gives back the initial grid, whatever it held. */
  lemma ResetIsInit(g: Grid)
    requires WellFormed(g)
    ensures Reset(g) == Init()
  {
    var r := Reset(g);
    var i := Init();
    forall x | 0 <= x < Cols
      ensures r[x] == i[x]
    {
      assert forall y :: 0 <= y < Rows ==> r[x][y] == i[x][y];
    }
  }

  // ---------------------------------------------------------------------------
  // Movement detection.

  /** The byte offset of pixel (x, y) in the frame. */
  function PixelIndex(x: int, y: int): int {
    (y * Width + x) * 4
  }

  /** The red, green and blue bytes of every sampled pixel lie inside the frame. */
  lemma SampleInFrame(x: int, y: int)
    requires 0 <= x < Width && 0 <= y < Height
    ensures 0 <= PixelIndex(x, y) && PixelIndex(x, y) + 2 < FrameBytes
  {
  }

  /**
    `(red + green + blue) / 3 < 100` for the pixel sampled in cell (cx, cy),
    the top-left pixel of its block.
   */
  predicate Dark(pixels: seq<int>, cx: int, cy: int)
    requires |pixels| == FrameBytes && InGrid(cx, cy)
  {
    var i := PixelIndex(cx * Scale, cy * Scale);
    (pixels[i] + pixels[i + 1] + pixels[i + 2]) as real / 3.0 < 100.0
  }

  /** The brightness test is the integer test `r + g + b < 300`. */
  lemma DarkIff(pixels: seq<int>, cx: int, cy: int)
    requires |pixels| == FrameBytes && InGrid(cx, cy)
    ensures var i := PixelIndex(cx * Scale, cy * Scale);
      Dark(pixels, cx, cy) <==> pixels[i] + pixels[i + 1] + pixels[i + 2] < 300
  {
  }

  /** One cell raised by one, every other cell kept. */
  function Bump(g: Grid, cx: int, cy: int): (r: Grid)
    requires WellFormed(g) && InGrid(cx, cy)
    ensures WellFormed(r)
    ensures forall x, y :: InGrid(x, y) ==> r[x][y] == g[x][y] + (if x == cx && y == cy then 1 else 0)
  {
    g[cx := g[cx][cy := g[cx][cy] + 1]]
  }

  /**
    `detectMovement`: one pass over the sampled pixels, rows of blocks outer
    and columns inner, stepping by the scale. Each cell rises by exactly one
    when its sample is dark and is otherwise left alone.
   */
  method DetectMovement(grid: Grid, pixels: seq<int>) returns (g: Grid)
    requires WellFormed(grid) && |pixels| == FrameBytes
    ensures WellFormed(g)
    ensures forall x, y :: InGrid(x, y) ==> g[x][y] == grid[x][y] + (if Dark(pixels, x, y) then 1 else 0)
  {
    g := grid;
    var y := 0;
    while y < Height
      invariant 0 <= y <= Height && y % Scale == 0
      invariant WellFormed(g)
      invariant forall cx, cy :: InGrid(cx, cy) ==>
        g[cx][cy] == grid[cx][cy] + (if cy * Scale < y && Dark(pixels, cx, cy) then 1 else 0)
    {
      var x := 0;
      while x < Width
        invariant 0 <= x <= Width && x % Scale == 0
        invariant WellFormed(g)
        invariant forall cx, cy :: InGrid(cx, cy) ==>
          g[cx][cy] == grid[cx][cy]
            + (if (cy * Scale < y || (cy * Scale == y && cx * Scale < x)) && Dark(pixels, cx, cy) then 1 else 0)
      {
        var pixelIndex := (y * Width + x) * 4;
        var red := pixels[pixelIndex];
        var green := pixels[pixelIndex + 1];
        var blue := pixels[pixelIndex + 2];
        var brightness := (red + green + blue) as real / 3.0;
        var heatX := x / Scale;
        var heatY := y / Scale;
        assert heatX * Scale == x && heatY * Scale == y;
        assert brightness < 100.0 <==> Dark(pixels, heatX, heatY);
        if brightness < 100.0 {
          g := Bump(g, heatX, heatY);
        }
        x := x + Scale;
      }
      y := y + Scale;
    }
  }

  /** The same pass as a value: the reference the method computes. */
  function Detect(grid: Grid, pixels: seq<int>): (g: Grid)
    requires WellFormed(grid) && |pixels| == FrameBytes
    ensures WellFormed(g)
  {
    seq(Cols, x requires 0 <= x < Cols =>
      seq(Rows, y requires 0 <= y < Rows => grid[x][y] + (if Dark(pixels, x, y) then 1 else 0)))
  }

  /** The method and the reference agree on every grid and frame. */
  method DetectMovementIsDetect(grid: Grid, pixels: seq<int>) returns (g: Grid)
    requires WellFormed(grid) && |pixels| == FrameBytes
    ensures g == Detect(grid, pixels)
  {
    g := DetectMovement(grid, pixels);
    var d := Detect(grid, pixels);
    forall x | 0 <= x < Cols
      ensures g[x] == d[x]
    {
      assert forall y :: 0 <= y < Rows ==> g[x][y] == d[x][y];
    }
  }

  /** Cells never decrease, and rise by at most one per pass. */
  lemma DetectBounds(grid: Grid, pixels: seq<int>)
    requires WellFormed(grid) && |pixels| == FrameBytes
    ensures forall x, y :: InGrid(x, y) ==>
      grid[x][y] <= Detect(grid, pixels)[x][y] <= grid[x][y] + 1
  {
  }

  // ---------------------------------------------------------------------------
  // Colours.

  datatype Colour = Green | Yellow | Red

  /** `renderHeatmap`'s rule: above 30 red, above 10 yellow, otherwise green. */
  function ColourOf(intensity: int): (c: Colour)
    ensures c == Red <==> intensity > 30
    ensures c == Yellow <==> 10 < intensity <= 30
    ensures c == Green <==> intensity <= 10
  {
    if intensity > 30 then Red
    else if intensity > 10 then Yellow
    else Green
  }

  function Rank(c: Colour): int {
    match c
    case Green => 0
    case Yellow => 1
    case Red => 2
  }

  /** A busier cell is never shown in a cooler colour. */
  lemma ColourMonotone(a: int, b: int)
    requires a <= b
    ensures Rank(ColourOf(a)) <= Rank(ColourOf(b))
  {
  }

  /** A reset grid is green everywhere. */
  lemma ResetIsGreen(g: Grid)
    requires WellFormed(g)
    ensures forall x, y :: InGrid(x, y) ==> ColourOf(Reset(g)[x][y]) == Green
  {
  }

  // ---------------------------------------------------------------------------
  // The frame loop.

  /** The processing loop's state: the grid and `frameCount`. */
  datatype Session = Session(grid: Grid, frameCount: nat)

  /**
    One `processFrame`: nothing happens (the loop ends) unless processing is on
    and the video is neither paused nor ended; otherwise detection runs on
    frames whose count is a multiple of the interval, and the count advances.
   */
  function ProcessFrame(s: Session, processing: bool, paused: bool, ended: bool, pixels: seq<int>): (r: Option<Session>)
    requires WellFormed(s.grid) && |pixels| == FrameBytes
    ensures r.None? <==> !processing || paused || ended
    ensures r.Some? ==> r.value.frameCount == s.frameCount + 1 && WellFormed(r.value.grid)
    ensures r.Some? && s.frameCount % FrameInterval != 0 ==> r.value.grid == s.grid
  {
    if !processing || paused || ended then None
    else if s.frameCount % FrameInterval == 0 then Some(Session(Detect(s.grid, pixels), s.frameCount + 1))
    else Some(Session(s.grid, s.frameCount + 1))
  }

  predicate Frames(frames: seq<seq<int>>) {
    forall i :: 0 <= i < |frames| ==> |frames[i]| == FrameBytes
  }

  /** Frames processed back to back while the video plays. */
  function Run(s: Session, frames: seq<seq<int>>): (r: Session)
    requires WellFormed(s.grid) && Frames(frames)
    ensures WellFormed(r.grid)
    ensures r.frameCount == s.frameCount + |frames|
    decreases |frames|
  {
    if |frames| == 0 then s
    else
      var t := Run(s, frames[..|frames| - 1]);
      ProcessFrame(t, true, false, false, frames[|frames| - 1]).value
  }

  /** The gate passes the frame `j` frames after count `start`. */
  predicate Gated(start: nat, j: int) {
    (start + j) % FrameInterval == 0
  }

  /** How many of the counts `start`, ..., `start + n - 1` pass the gate. */
  function Detections(start: nat, n: nat): nat
    decreases n
  {
    if n == 0 then 0
    else Detections(start, n - 1) + (if Gated(start, n - 1) then 1 else 0)
  }

  /**
    Over a run, no cell decreases and no cell rises by more than the number of
    frames the gate let through.
   */
  lemma {:induction false} RunBounds(s: Session, frames: seq<seq<int>>)
    requires WellFormed(s.grid) && Frames(frames)
    ensures forall x, y :: InGrid(x, y) ==>
      s.grid[x][y] <= Run(s, frames).grid[x][y] <= s.grid[x][y] + Detections(s.frameCount, |frames|)
    decreases |frames|
  {
    if |frames| > 0 {
      var init := frames[..|frames| - 1];
      RunBounds(s, init);
      var t := Run(s, init);
      DetectBounds(t.grid, frames[|frames| - 1]);
    }
  }

  /** Ten consecutive frames let exactly one through. */
  lemma TenFramesOneDetection(start: nat)
    ensures Detections(start, FrameInterval) == 1
  {
    var k := start % FrameInterval;
    var hit := (FrameInterval - k) % FrameInterval;
    forall j | 0 <= j < FrameInterval
      ensures Gated(start, j) <==> j == hit
    {
      ShiftMod(start, j);
    }
    DetectionsCount(start, FrameInterval, hit);
  }

  lemma ShiftMod(start: nat, j: nat)
    ensures (start + j) % FrameInterval == (start % FrameInterval + j) % FrameInterval
  {
    var q := start / FrameInterval;
    assert start == q * FrameInterval + start % FrameInterval;
    assert start + j == q * FrameInterval + (start % FrameInterval + j);
  }

  /** When exactly one offset below `n` is a multiple of the interval, one frame gets through. */
  lemma {:induction false} DetectionsCount(start: nat, n: nat, hit: nat)
    requires hit < n
    requires forall j :: 0 <= j < n ==> (Gated(start, j) <==> j == hit)
    ensures Detections(start, n) == 1
    decreases n
  {
    if n - 1 != hit {
      DetectionsCount(start, n - 1, hit);
    } else {
      DetectionsNone(start, n - 1);
    }
  }

  lemma {:induction false} DetectionsNone(start: nat, n: nat)
    requires forall j :: 0 <= j < n ==> !Gated(start, j)
    ensures Detections(start, n) == 0
    decreases n
  {
    if n > 0 {
      DetectionsNone(start, n - 1);
    }
  }

  // ---------------------------------------------------------------------------
  // Camera and processing switches.

  datatype Viewer = Viewer(grid: Grid, processing: bool, streaming: bool)

  /** The page's `startCamera`: the stream is attached but processing is not started. */
  function PageStartCamera(v: Viewer): (r: Viewer)
    ensures r.streaming && r.processing == v.processing && r.grid == v.grid
  {
    v.(streaming := true)
  }

  /** The component's `startCamera`: attaching the stream also starts processing. */
  function ComponentStartCamera(v: Viewer): (r: Viewer)
    ensures r.streaming && r.processing && r.grid == v.grid
  {
    v.(streaming := true, processing := true)
  }

  /** `stopProcessing`: processing off, the stream released, the grid reset. */
  function StopProcessing(v: Viewer): (r: Viewer)
    requires WellFormed(v.grid)
    ensures !r.processing && !r.streaming
    ensures r.grid == Init()
  {
    ResetIsInit(v.grid);
    v.(processing := false, streaming := false, grid := Reset(v.grid))
  }

  /**
    From a stopped viewer, only the component's camera button leads to frames
    being processed; the page's leaves the loop gate closed.
   */
  lemma StartCameraDiffers(v: Viewer, s: Session, pixels: seq<int>)
    requires WellFormed(v.grid) && WellFormed(s.grid) && |pixels| == FrameBytes
    ensures ProcessFrame(s, PageStartCamera(StopProcessing(v)).processing, false, false, pixels).None?
    ensures ProcessFrame(s, ComponentStartCamera(StopProcessing(v)).processing, false, false, pixels).Some?
  {
  }
}

=== FILE: jsnum.dfy ===
/**
  JavaScript numbers as the front end uses them: a finite value or `NaN`.
  Arithmetic is exact (`real`); rounding of binary floating point is not modelled.
 */
module JsNum {

  datatype Num = Finite(v: real) | NaN

  /** `a + b`: `NaN` is absorbing. */
  function Plus(a: Num, b: Num): (r: Num)
    ensures r.Finite? <==> a.Finite? && b.Finite?
    ensures r.Finite? ==> r.v == a.v + b.v
  {
    if a.Finite? && b.Finite? then Finite(a.v + b.v) else NaN
  }

  /** `a * q` for an integer quantity `q`. */
  function TimesInt(a: Num, q: int): (r: Num)
    ensures r.Finite? <==> a.Finite?
    ensures r.Finite? ==> r.v == a.v * q as real
  {
    if a.Finite? then Finite(a.v * q as real) else NaN
  }

  /** `a * b`: `NaN` is absorbing. */
  function Times(a: Num, b: Num): (r: Num)
    ensures r.Finite? <==> a.Finite? && b.Finite?
    ensures r.Finite? ==> r.v == a.v * b.v
  {
    if a.Finite? && b.Finite? then Finite(a.v * b.v) else NaN
  }
}

=== FILE: pagesdashboard.dfy ===
/**
  The `fetchData` pass of the plain-JavaScript dashboard (pages/Dashboard.jsx):
  product quantities, unit sales, revenue, top product, gender by date,
  association rules, time of day and people by date, computed from the rows
  the store returned. A cart is stored either as an array or as JSON text;
  decoding the text is a parameter, and a cart that does not decode to an
  array aborts the whole pass before any figure is shown.
 */
module PagesDashboard {
  import opened Wrappers
  import opened Tally
  import opened Strings
  import opened Aggregates
  import opened Baskets
  import opened TimeOfDay
  import opened DashboardRows

  /**
    A cart line. `name` is `""` when the line has no (truthy) name; `quantity`
    is `None` when it is not a number.
   */
  type Line = LineItem<Option<int>>

  /** `y.quantity || 0`. */
  function Quantity(q: Option<int>): int {
    q.GetOr(0)
  }

  /**
    `x.cart` as stored: falsy, JSON text, an array of lines, or some other
    truthy value (an object or a number), which has no `forEach`.
   */
  datatype RawCart = Absent | Text(json: string) | Lines(items: seq<Line>) | Structured

  /** A payments row as the store returns it. */
  type StoredPayment = Payment<RawCart>

  /** `JSON.parse`, yielding the array of lines, or `None` where it throws or yields no array. */
  type Decoder = string -> Option<seq<Line>>

  /**
    `typeof x.cart === 'string' ? JSON.parse(x.cart) : x.cart || []`, then
    `cart.forEach`: a text that does not parse, or a truthy cart that is not
    an array, throws and aborts the pass.
   */
  function DecodeCart(c: RawCart, decode: Decoder): (r: Option<seq<Line>>)
    ensures c.Absent? ==> r == Some([])
    ensures c.Lines? ==> r == Some(c.items)
    ensures r.None? <==> c.Structured? || (c.Text? && decode(c.json).None?)
  {
    match c
    case Absent => Some([])
    case Text(json) => decode(json)
    case Lines(items) => Some(items)
    case Structured => None
  }

  /** Decodes every cart, or fails as soon as one fails. */
  function DecodeAll(pays: seq<StoredPayment>, decode: Decoder): (r: Option<seq<seq<Line>>>)
    ensures r.Some? <==> forall i :: 0 <= i < |pays| ==> DecodeCart(pays[i].cart, decode).Some?
    ensures r.Some? ==> |r.value| == |pays|
    ensures r.Some? ==> forall i :: 0 <= i < |pays| ==> Some(r.value[i]) == DecodeCart(pays[i].cart, decode)
    decreases |pays|
  {
    if |pays| == 0 then Some([])
    else
      var n := |pays| - 1;
      var init := DecodeAll(pays[..n], decode);
      assert forall i :: 0 <= i < n ==> pays[..n][i] == pays[i];
      match (init, DecodeCart(pays[n].cart, decode))
      case (Some(cs), Some(c)) => Some(cs + [c])
      case _ => None
  }

  // ---------------------------------------------------------------------------
  // Unit sales and product quantities.

  /** The outer reduce: unit sales over all carts. */
  function UnitSales(carts: seq<seq<Line>>): int
    decreases |carts|
  {
    if |carts| == 0 then 0 else UnitSales(carts[..|carts| - 1]) + Units(carts[|carts| - 1], Quantity)
  }

  /** All lines of all carts, in order. */
  function Flatten(carts: seq<seq<Line>>): seq<Line>
    decreases |carts|
  {
    if |carts| == 0 then [] else Flatten(carts[..|carts| - 1]) + carts[|carts| - 1]
  }

  /** The guard `y?.name && typeof y.quantity === 'number'`. */
  predicate Counted(y: Line) {
    y.name != "" && y.quantity.Some?
  }

  /** What the guarded `forEach` adds to the product object, in visiting order. */
  function ProductColumn(items: seq<Line>): (ps: seq<(string, int)>)
    ensures forall i :: 0 <= i < |ps| ==> ps[i].0 != ""
    ensures forall k :: k in Keys(ps) <==> exists i :: 0 <= i < |items| && Counted(items[i]) && items[i].name == k
    decreases |items|
  {
    if |items| == 0 then []
    else
      var n := |items| - 1;
      var init := ProductColumn(items[..n]);
      assert forall i :: 0 <= i < n ==> items[..n][i] == items[i];
      if Counted(items[n]) then
        assert Keys(init + [(items[n].name, items[n].quantity.value)]) == Keys(init) + [items[n].name];
        init + [(items[n].name, items[n].quantity.value)]
      else init
  }

  /** `productCounts` (and the identical `attendanceData`) over all lines. */
  function ProductCounts(carts: seq<seq<Line>>): (t: Tally<string>)
    ensures Unique(t)
    ensures forall i :: 0 <= i < |t| ==> t[i].0 != ""
  {
    var ps := ProductColumn(Flatten(carts));
    var t := ByKey(ps);
    assert forall i :: 0 <= i < |t| ==> t[i].0 in Keys(t);
    t
  }

  /** Reference: the quantity recorded for product `k` on lines that pass the guard. */
  function NamedQuantity(items: seq<Line>, k: string): int
    decreases |items|
  {
    if |items| == 0 then 0
    else
      var y := items[|items| - 1];
      NamedQuantity(items[..|items| - 1], k) + (if Counted(y) && y.name == k then y.quantity.value else 0)
  }

  /** Reference: quantities on lines that have no name. */
  function UnnamedUnits(items: seq<Line>): int
    decreases |items|
  {
    if |items| == 0 then 0
    else
      var y := items[|items| - 1];
      UnnamedUnits(items[..|items| - 1]) + (if y.name == "" then y.quantity.GetOr(0) else 0)
  }

  lemma {:induction false} ColumnKeySum(items: seq<Line>, k: string)
    ensures KeySum(ProductColumn(items), k) == NamedQuantity(items, k)
    decreases |items|
  {
    if |items| > 0 {
      var n := |items| - 1;
      ColumnKeySum(items[..n], k);
      if Counted(items[n]) {
        Snoc(ProductColumn(items[..n]), (items[n].name, items[n].quantity.value));
      }
    }
  }

  /** Each product's entry is the sum of its guarded quantities. */
  lemma ProductCountsGet(carts: seq<seq<Line>>, k: string)
    ensures Get(ProductCounts(carts), k) == NamedQuantity(Flatten(carts), k)
  {
    ByKeyGet(ProductColumn(Flatten(carts)), k);
    ColumnKeySum(Flatten(carts), k);
  }

  lemma {:induction false} ColumnSplit(items: seq<Line>)
    ensures Units(items, Quantity) == SumValues(ProductColumn(items)) + UnnamedUnits(items)
    decreases |items|
  {
    if |items| > 0 {
      var n := |items| - 1;
      ColumnSplit(items[..n]);
      if Counted(items[n]) {
        Snoc(ProductColumn(items[..n]), (items[n].name, items[n].quantity.value));
      }
    }
  }

  lemma {:induction false} UnitSalesFlatten(carts: seq<seq<Line>>)
    ensures UnitSales(carts) == Units(Flatten(carts), Quantity)
    decreases |carts|
  {
    if |carts| > 0 {
      UnitSalesFlatten(carts[..|carts| - 1]);
      UnitsAppend(Flatten(carts[..|carts| - 1]), carts[|carts| - 1], Quantity);
    }
  }

  /**
    Unit sales count every line, the product object only named ones: the two
    differ by exactly the quantities on unnamed lines.
   */
  lemma UnitSalesVersusProducts(carts: seq<seq<Line>>)
    ensures UnitSales(carts) == Total(ProductCounts(carts)) + UnnamedUnits(Flatten(carts))
  {
    UnitSalesFlatten(carts);
    ColumnSplit(Flatten(carts));
  }

  /** The top product's name, `''` when no product has a positive quantity. */
  lemma TopProductEmpty(carts: seq<seq<Line>>)
    ensures var t := ProductCounts(carts);
      Top(t).0 == "" <==> forall i :: 0 <= i < |t| ==> t[i].1 <= 0
  {
    var t := ProductCounts(carts);
    if exists i :: 0 <= i < |t| && t[i].1 > 0 {
      var i :| 0 <= i < |t| && t[i] == Top(t) && forall j :: 0 <= j < i ==> t[j].1 < Top(t).1;
      assert t[i].0 != "";
    }
  }

  // ---------------------------------------------------------------------------
  // Gender by date, from the demographics table.

  /** A demographics row; `date` is its locale date key. */
  datatype GenderRow = GenderRow(date: string, gender: string, count: int)

  /** The lower-cased label picks the column; any other label adds nothing. */
  function Contribution(row: GenderRow): GenderContribution {
    var g := Lower(row.gender);
    if g == "male" then GenderContribution(row.date, row.count, 0)
    else if g == "female" then GenderContribution(row.date, 0, row.count)
    else GenderContribution(row.date, 0, 0)
  }

  function Contributions(rows: seq<GenderRow>): (cs: seq<GenderContribution>)
    ensures |cs| == |rows| && forall i :: 0 <= i < |rows| ==> cs[i] == Contribution(rows[i])
    ensures forall i :: 0 <= i < |rows| ==> cs[i].date == rows[i].date
  {
    seq(|rows|, i requires 0 <= i < |rows| => Contribution(rows[i]))
  }

  /** Reference: the counts of rows for date `d` whose label lower-cases to `tag`. */
  function LabelSum(rows: seq<GenderRow>, d: string, tag: string): int
    decreases |rows|
  {
    if |rows| == 0 then 0
    else
      var r := rows[|rows| - 1];
      LabelSum(rows[..|rows| - 1], d, tag) + (if r.date == d && Lower(r.gender) == tag then r.count else 0)
  }

  lemma {:induction false} ColumnsMatchLabels(rows: seq<GenderRow>, d: string)
    ensures KeySum(MaleColumn(Contributions(rows)), d) == LabelSum(rows, d, "male")
    ensures KeySum(FemaleColumn(Contributions(rows)), d) == LabelSum(rows, d, "female")
    decreases |rows|
  {
    if |rows| > 0 {
      var n := |rows| - 1;
      ColumnsMatchLabels(rows[..n], d);
      var cs := Contributions(rows);
      assert Contributions(rows[..n]) == cs[..n];
      assert MaleColumn(cs)[..n] == MaleColumn(cs[..n]);
      assert FemaleColumn(cs)[..n] == FemaleColumn(cs[..n]);
    }
  }

  /** The chart rows of the demographics table. */
  function GenderChart(rows: seq<GenderRow>): seq<DateTotals> {
    GenderByDate(Contributions(rows))
  }

  /**
    Every row's date gets a chart entry, even when its label is neither male
    nor female, and only those dates do.
   */
  lemma GenderChartDates(rows: seq<GenderRow>)
    ensures forall d :: d in Dates(GenderChart(rows)) <==> exists i :: 0 <= i < |rows| && rows[i].date == d
  {
    var cs := Contributions(rows);
    forall d
      ensures d in RowDates(cs) <==> exists i :: 0 <= i < |rows| && rows[i].date == d
    {
      if d in RowDates(cs) {
        var i :| 0 <= i < |cs| && RowDates(cs)[i] == d;
        assert rows[i].date == d;
      }
      if exists i :: 0 <= i < |rows| && rows[i].date == d {
        var i :| 0 <= i < |rows| && rows[i].date == d;
        assert RowDates(cs)[i] == d;
      }
    }
  }

  /** Each chart entry totals, case-insensitively, the male and female counts of its date. */
  lemma GenderChartTotals(rows: seq<GenderRow>)
    ensures var out := GenderChart(rows);
      forall i :: 0 <= i < |out| ==>
        out[i].totalMale == LabelSum(rows, out[i].date, "male")
        && out[i].totalFemale == LabelSum(rows, out[i].date, "female")
  {
    var out := GenderChart(rows);
    forall i | 0 <= i < |out|
      ensures out[i].totalMale == LabelSum(rows, out[i].date, "male")
      ensures out[i].totalFemale == LabelSum(rows, out[i].date, "female")
    {
      ColumnsMatchLabels(rows, out[i].date);
    }
  }

  // ---------------------------------------------------------------------------
  // People counts.

  /** The (date, count) pairs of the entries whose timestamp is a valid date. */
  function ValidDated(entries: seq<PeopleEntry>): (ps: seq<(string, int)>)
    ensures forall k :: k in Keys(ps) <==> exists i :: 0 <= i < |entries| && entries[i].date == Some(k)
    decreases |entries|
  {
    if |entries| == 0 then []
    else
      var n := |entries| - 1;
      var init := ValidDated(entries[..n]);
      assert forall i :: 0 <= i < n ==> entries[..n][i] == entries[i];
      match entries[n].date
      case None => init
      case Some(d) =>
        assert Keys(init + [(d, entries[n].count)]) == Keys(init) + [d];
        init + [(d, entries[n].count)]
  }

  /** Reference: the counts of the entries with a valid date. */
  function ValidSum(entries: seq<PeopleEntry>): int
    decreases |entries|
  {
    if |entries| == 0 then 0
    else ValidSum(entries[..|entries| - 1]) + (if entries[|entries| - 1].date.Some? then entries[|entries| - 1].count else 0)
  }

  /** Reference: the counts of the entries dated `d`. */
  function DateSum(entries: seq<PeopleEntry>, d: string): int
    decreases |entries|
  {
    if |entries| == 0 then 0
    else DateSum(entries[..|entries| - 1], d) + (if entries[|entries| - 1].date == Some(d) then entries[|entries| - 1].count else 0)
  }

  lemma {:induction false} ValidDatedTotal(entries: seq<PeopleEntry>)
    ensures SumValues(ValidDated(entries)) == ValidSum(entries)
    decreases |entries|
  {
    if |entries| > 0 {
      var n := |entries| - 1;
      ValidDatedTotal(entries[..n]);
      if entries[n].date.Some? {
        Snoc(ValidDated(entries[..n]), (entries[n].date.value, entries[n].count));
      }
    }
  }

  lemma {:induction false} ValidDatedKeySum(entries: seq<PeopleEntry>, d: string)
    ensures KeySum(ValidDated(entries), d) == DateSum(entries, d)
    decreases |entries|
  {
    if |entries| > 0 {
      var n := |entries| - 1;
      ValidDatedKeySum(entries[..n], d);
      if entries[n].date.Some? {
        Snoc(ValidDated(entries[..n]), (entries[n].date.value, entries[n].count));
      }
    }
  }

  /**
    `aggregatePeopleCountByDate`: invalid dates are skipped; one label per valid
    date, in order of first appearance, with the total of that date.
   */
  function PeopleByDate(entries: seq<PeopleEntry>): (c: Chart)
    ensures |c.labels| == |c.data|
    ensures forall i, j :: 0 <= i < j < |c.labels| ==> c.labels[i] != c.labels[j]
    ensures forall d :: d in c.labels <==> exists i :: 0 <= i < |entries| && entries[i].date == Some(d)
    ensures forall i :: 0 <= i < |c.labels| ==> c.data[i] == DateSum(entries, c.labels[i])
    ensures SumSeq(c.data) == ValidSum(entries)
  {
    var t := ByKey(ValidDated(entries));
    ValidDatedTotal(entries);
    PeopleByDateEntries(entries, t);
    ChartOf(t)
  }

  lemma PeopleByDateEntries(entries: seq<PeopleEntry>, t: Tally<string>)
    requires t == ByKey(ValidDated(entries))
    ensures forall i :: 0 <= i < |t| ==> t[i].1 == DateSum(entries, t[i].0)
  {
    forall i | 0 <= i < |t|
      ensures t[i].1 == DateSum(entries, t[i].0)
    {
      GetEntry(t, i);
      ByKeyGet(ValidDated(entries), t[i].0);
      ValidDatedKeySum(entries, t[i].0);
    }
  }

  // ---------------------------------------------------------------------------
  // Association rules.

  function CartNames(carts: seq<seq<Line>>): (ns: seq<seq<string>>)
    ensures |ns| == |carts| && forall i :: 0 <= i < |carts| ==> ns[i] == Names(carts[i])
  {
    seq(|carts|, i requires 0 <= i < |carts| => Names(carts[i]))
  }

  /**
    `calculateAssociationRules(transactions, minSupport, minConfidence)`. The
    confidence threshold is never read: the filter is `confidence <= 1`.
   */
  function Rules(carts: seq<seq<Line>>, minSupport: real): (rules: seq<Rule>)
    ensures forall r :: r in rules ==> 0.0 < r.support <= r.confidence <= 1.0 && r.support >= minSupport
    ensures forall r :: r in rules ==> Less(r.antecedent, r.consequent)
    ensures DistinctRules(rules)
  {
    var names := CartNames(carts);
    var rules := MineRules(names, SupportCappedConfidence(minSupport));
    RulesBounded(names, minSupport);
    MinedRulesDistinct(names, SupportCappedConfidence(minSupport));
    rules
  }

  lemma RulesBounded(names: seq<seq<string>>, minSupport: real)
    ensures forall r :: r in MineRules(names, SupportCappedConfidence(minSupport)) ==>
      0.0 < r.support <= r.confidence <= 1.0 && r.support >= minSupport && Less(r.antecedent, r.consequent)
  {
    forall r | r in MineRules(names, SupportCappedConfidence(minSupport))
      ensures 0.0 < r.support <= r.confidence <= 1.0 && r.support >= minSupport && Less(r.antecedent, r.consequent)
    {
      CappedRuleBounds(names, minSupport, r);
      MinedRuleSound(names, SupportCappedConfidence(minSupport), r);
    }
  }

  /** Three carts: `[A, B]`, `[A, B]` and `[A]`. */
  const ExampleCarts: seq<seq<string>> := [["A", "B"], ["A", "B"], ["A"]]

  lemma ExampleCounts()
    ensures Occurs(ExampleCarts, "A") == 3 && CoOccurs(ExampleCarts, "A", "B") == 2
  {
    var carts := ExampleCarts;
    assert carts[..2] == [["A", "B"], ["A", "B"]] && carts[..2][..1] == [["A", "B"]] && carts[..1][..0] == [];
  }

  lemma ExamplePairs(a: string, b: string)
    requires CoOccurs(ExampleCarts, a, b) > 0
    ensures (a == "A" || a == "B") && (b == "A" || b == "B")
  {
    var carts := ExampleCarts;
    assert carts[..2] == [["A", "B"], ["A", "B"]] && carts[..2][..1] == [["A", "B"]] && carts[..1][..0] == [];
  }

  /**
    Under the cap a mined pair occurs together at most half as often as its
    antecedent occurs, because the pair count is doubled.
   */
  lemma CapHalvesCoOccurrence(carts: seq<seq<string>>, minSupport: real, r: Rule)
    requires r in MineRules(carts, SupportCappedConfidence(minSupport))
    ensures 2 * CoOccurs(carts, r.antecedent, r.consequent) <= Occurs(carts, r.antecedent)
  {
    MinedRuleSound(carts, SupportCappedConfidence(minSupport), r);
    var count := (2 * CoOccurs(carts, r.antecedent, r.consequent)) as real;
    var na := Occurs(carts, r.antecedent) as real;
    assert r.confidence == count / na <= 1.0;
    QuotientAtMostOne(count, na);
  }

  lemma QuotientAtMostOne(n: real, d: real)
    requires d > 0.0 && n / d <= 1.0
    ensures n <= d
  {
    assert n == n / d * d;
  }

  /**
    The three example carts give no rule: the pair is counted twice per cart,
    so its confidence is 4/3 and the cap rejects it.
   */
  lemma DoubledPairExample()
    ensures MineRules(ExampleCarts, SupportCappedConfidence(0.1)) == []
  {
    var rules := MineRules(ExampleCarts, SupportCappedConfidence(0.1));
    if rules != [] {
      var r := rules[0];
      CapHalvesCoOccurrence(ExampleCarts, 0.1, r);
      MinedRuleSound(ExampleCarts, SupportCappedConfidence(0.1), r);
      ExamplePairs(r.antecedent, r.consequent);
      ExampleCounts();
      assert false;
    }
  }

  // ---------------------------------------------------------------------------
  // The whole pass.

  /**
    `fetchData`, with the three query results as inputs. A cart text that does
    not decode throws before any state is set, so nothing is shown.
   */
  function FetchData(pays: seq<StoredPayment>, genderRows: seq<GenderRow>, people: seq<PeopleEntry>, decode: Decoder): (r: Option<Snapshot>)
    ensures r.None? <==> exists i :: 0 <= i < |pays| && DecodeCart(pays[i].cart, decode).None?
    ensures r.Some? ==> r.value.people.labels == PeopleByDate(people).labels
    ensures r.Some? ==> (r.value.topProduct == "" <==> forall i :: 0 <= i < |r.value.attendance| ==> r.value.attendance[i].1 <= 0)
    ensures r.Some? ==> forall x :: x in r.value.rules ==> 0.0 < x.support <= x.confidence <= 1.0
  {
    match DecodeAll(pays, decode)
    case None => None
    case Some(carts) =>
      TopProductEmpty(carts);
      var counts := ProductCounts(carts);
      Some(Snapshot(
        counts,
        UnitSales(carts),
        Revenue(Prices(pays)),
        Top(counts).0,
        GenderChart(genderRows),
        Rules(carts, 0.1),
        TimeOfDay.Distribute(HourEntries(people)),
        PeopleByDate(people)))
  }
}

=== FILE: peoplecount.dfy ===
/**
  The people counters (pages/Peoplecount.tsx and components/Peoplecount.tsx):
  the person count of a detection pass, and the `peopledata` rows the two
  variants insert. The page sends from a periodic timer and only a positive
  count; the component sends once, on stop, whatever the count.
 */
module PeopleCount {
  import opened Wrappers
  import opened Strings
  import opened Timestamp
  import Chatbot

  /** One object the detector reports, by its class name. */
  datatype Prediction = Prediction(kind: string)

  /** `predictions.filter(p => p.class === 'person')`. */
  function People(preds: seq<Prediction>): (r: seq<Prediction>)
    ensures |r| <= |preds|
    decreases |preds|
  {
    if |preds| == 0 then []
    else
      var init := People(preds[..|preds| - 1]);
      var p := preds[|preds| - 1];
      if p.kind == "person" then init + [p] else init
  }

  /** The filter keeps exactly the person predictions. */
  lemma {:induction false} PeopleMembers(preds: seq<Prediction>)
    ensures forall p :: p in People(preds) <==> p in preds && p.kind == "person"
    decreases |preds|
  {
    if |preds| > 0 {
      var n := |preds| - 1;
      PeopleMembers(preds[..n]);
      assert preds == preds[..n] + [preds[n]];
    }
  }

  /** The count shown and sent: the number of person predictions. */
  function PersonCount(preds: seq<Prediction>): nat {
    |People(preds)|
  }

  /** Reference: how many predictions are of a person, counted position by position. */
  function CountPersons(preds: seq<Prediction>): nat
    decreases |preds|
  {
    if |preds| == 0 then 0
    else CountPersons(preds[1..]) + (if preds[0].kind == "person" then 1 else 0)
  }

  lemma {:induction false} PeopleAppend(a: seq<Prediction>, b: seq<Prediction>)
    ensures People(a + b) == People(a) + People(b)
    decreases |b|
  {
    if |b| == 0 {
      assert a + b == a;
    } else {
      var n := |b| - 1;
      var ab := a + b;
      PeopleAppend(a, b[..n]);
      assert ab[..|ab| - 1] == a + b[..n];
      assert ab[|ab| - 1] == b[n];
      var keep := if b[n].kind == "person" then [b[n]] else [];
      assert People(ab) == People(a + b[..n]) + keep;
      assert People(b) == People(b[..n]) + keep;
      assert People(a) + People(b[..n]) + keep == People(a) + (People(b[..n]) + keep);
    }
  }

  /** The count is the number of predictions whose class is "person", no more and no fewer. */
  lemma {:induction false} PersonCountIsCount(preds: seq<Prediction>)
    ensures PersonCount(preds) == CountPersons(preds)
    decreases |preds|
  {
    if |preds| > 0 {
      PersonCountIsCount(preds[1..]);
      PeopleAppend([preds[0]], preds[1..]);
      assert [preds[0]] + preds[1..] == preds;
      assert [preds[0]][..0] == [];
    }
  }

  /** A `peopledata` row. */
  datatype Row = Row(lastCount: int, timestamp: string)

  // ---------------------------------------------------------------------------
  // The page variant.

  datatype PageState = PageState(showCamera: bool, peopleCount: nat)

  /** A detection pass sets the count. */
  function PageDetected(s: PageState, preds: seq<Prediction>): (t: PageState)
    ensures t.peopleCount == CountPersons(preds) && t.showCamera == s.showCamera
  {
    PersonCountIsCount(preds);
    s.(peopleCount := PersonCount(preds))
  }

  /**
    One tick of the interval: a positive count is sent with the current
    timestamp and the count is reset (the reset follows the insert whatever
    its outcome); a zero count sends nothing.
   */
  function PageTick(s: PageState, now: Clock): (r: (PageState, Option<Row>))
    ensures r.1.Some? <==> s.peopleCount > 0
    ensures r.1.Some? ==> r.1.value == Row(s.peopleCount, Format(now))
    ensures r.0 == s.(peopleCount := 0)
  {
    if s.peopleCount > 0 then (s.(peopleCount := 0), Some(Row(s.peopleCount, Format(now))))
    else (s, None)
  }

  /** `handleStopCamera` of the page: the camera is hidden and the count dropped without a row. */
  function PageStop(s: PageState): (t: PageState)
    ensures !t.showCamera && t.peopleCount == 0
  {
    PageState(false, 0)
  }

  /** The page never stores a zero count. */
  lemma PageRowsPositive(s: PageState, now: Clock)
    requires PageTick(s, now).1.Some?
    ensures PageTick(s, now).1.value.lastCount > 0
  {
  }

  /** A second tick before the next detection sends nothing. */
  lemma PageTickOnce(s: PageState, now: Clock, later: Clock)
    ensures PageTick(PageTick(s, now).0, later).1.None?
  {
  }

  // ---------------------------------------------------------------------------
  // The component variant.

  datatype ComponentState = ComponentState(showCamera: bool, peopleCount: nat, lastCount: Option<int>)

  function ComponentDetected(s: ComponentState, preds: seq<Prediction>): (t: ComponentState)
    ensures t.peopleCount == CountPersons(preds) && t.showCamera == s.showCamera && t.lastCount == s.lastCount
  {
    PersonCountIsCount(preds);
    s.(peopleCount := PersonCount(preds))
  }

  /**
    `handleStopCamera` of the component: the camera is hidden, the last count
    is recorded, a row is inserted unconditionally and the count is reset.
   */
  function ComponentStop(s: ComponentState, now: Clock): (r: (ComponentState, Row))
    ensures r.0 == ComponentState(false, 0, Some(s.peopleCount))
    ensures r.1 == Row(s.peopleCount, Format(now))
  {
    (ComponentState(false, 0, Some(s.peopleCount)), Row(s.peopleCount, Format(now)))
  }

  /** Unlike the page, the component stores a row even for an empty room. */
  lemma ComponentStoresZero(s: ComponentState, now: Clock)
    requires s.peopleCount == 0
    ensures ComponentStop(s, now).1.lastCount == 0
    ensures PageTick(PageState(s.showCamera, 0), now).1.None?
  {
  }

  // ---------------------------------------------------------------------------
  // The stored timestamps and the chatbot's day query.

  lemma MidnightText(day: Clock)
    requires Valid(day)
    ensures Format(day.(hours := 0, minutes := 0, seconds := 0)) == DateText(day) + " 00:00:00"
  {
    assert Two(0) == "00";
    AtTime(day, 0, 0, 0, " 00:00:00");
  }

  lemma LastSecondText(day: Clock)
    requires Valid(day)
    ensures Format(day.(hours := 23, minutes := 59, seconds := 59)) == DateText(day) + " 23:59:59"
  {
    LastSecondDigits();
    AtTime(day, 23, 59, 59, " 23:59:59");
  }

  lemma LastSecondDigits()
    ensures " " + (Two(23) + ":" + Two(59) + ":" + Two(59)) == " 23:59:59"
  {
    assert Two(23) == [DigitChar(2), DigitChar(3)];
    assert Two(59) == [DigitChar(5), DigitChar(9)];
    assert DigitChar(2) == '2' && DigitChar(3) == '3' && DigitChar(5) == '5' && DigitChar(9) == '9';
  }

  /** The chatbot's bounds for a day are the texts of its first and last second. */
  lemma RangeIsDayBounds(day: Clock)
    requires Valid(day)
    ensures Chatbot.PeopleRange(DateText(day))
      == (Format(day.(hours := 0, minutes := 0, seconds := 0)), Format(day.(hours := 23, minutes := 59, seconds := 59)))
  {
    DateTextDigits(day);
    Chatbot.PeopleRangeOfDate(DateText(day));
    MidnightText(day);
    LastSecondText(day);
  }

  /**
    A stored timestamp lies within the chatbot's string bounds for a day
    exactly when it was taken on that day.
   */
  lemma StoredRowInDayRange(now: Clock, day: Clock)
    requires Valid(now) && Valid(day)
    ensures var (lo, hi) := Chatbot.PeopleRange(DateText(day));
      (!Less(Format(now), lo) && !Less(hi, Format(now)))
      <==> (now.year == day.year && now.month == day.month && now.day == day.day)
  {
    RangeIsDayBounds(day);
    var lo := day.(hours := 0, minutes := 0, seconds := 0);
    var hi := day.(hours := 23, minutes := 59, seconds := 59);
    LessIsBefore(now, lo);
    LessIsBefore(hi, now);
    WithinDay(now, day, lo, hi);
  }

  /** Between the first and the last second of a day, in clock order, lie exactly that day's clocks. */
  lemma WithinDay(now: Clock, day: Clock, lo: Clock, hi: Clock)
    requires Valid(now)
    requires lo == day.(hours := 0, minutes := 0, seconds := 0)
    requires hi == day.(hours := 23, minutes := 59, seconds := 59)
    ensures (!Before(now, lo) && !Before(hi, now))
      <==> (now.year == day.year && now.month == day.month && now.day == day.day)
  {
  }
}

=== FILE: qrscanner.dfy ===
/**
  The QR scanner page (pages/QRScanner.tsx): the `name:..;price:..` payload
  with its generator and parser, and the cart the scans fill.
 */
module QrScanner {
  import opened Wrappers
  import opened Strings
  import opened JsNum

  // ---------------------------------------------------------------------------
  // The payload codec.

  /** What a payload decodes to. */
  datatype Product = Product(name: string, price: Num)

  /**
    `parseProductData`. The payload must split on ';' into exactly two parts,
    and each part must contain a ':' (otherwise `split(":")[1]` is undefined,
    `.trim()` throws and the catch yields `null`). The name and the price text
    are the trimmed second `:`-pieces; `parseFloat` is a parameter.
   */
  function Parse(data: string, parseFloat: string -> Num): (r: Option<Product>)
    ensures r.Some? ==> Count(data, ';') == 1
    ensures r.Some? <==>
      |Split(data, ';')| == 2 && ':' in Split(data, ';')[0] && ':' in Split(data, ';')[1]
    ensures r.Some? ==>
      var names := Split(Split(data, ';')[0], ':');
      var prices := Split(Split(data, ';')[1], ':');
      |names| >= 2 && |prices| >= 2
      && r.value == Product(Trim(names[1]), parseFloat(Trim(prices[1])))
  {
    var parts := Split(data, ';');
    SplitLength(data, ';');
    if |parts| != 2 then None
    else
      var names := Split(parts[0], ':');
      var prices := Split(parts[1], ':');
      SplitLength(parts[0], ':');
      SplitLength(parts[1], ':');
      if |names| < 2 || |prices| < 2 then None
      else Some(Product(Trim(names[1]), parseFloat(Trim(prices[1]))))
  }

  /**
    `handleGenerate`: the payload for the form's name and price text, or
    nothing (the generated data is left as it was) when either is empty.
   */
  function Generate(productName: string, price: string): (r: Option<string>)
    ensures r.Some? <==> productName != "" && price != ""
    ensures r.Some? ==> Count(r.value, ';') == Count(productName, ';') + Count(price, ';') + 1
  {
    if productName != "" && price != "" then
      GeneratedCount(productName, price);
      Some("name:" + productName + ";price:" + price)
    else None
  }

  lemma GeneratedCount(productName: string, price: string)
    ensures Count("name:" + productName + ";price:" + price, ';') == Count(productName, ';') + Count(price, ';') + 1
  {
    var a := "name:" + productName;
    assert Count("name:", ';') == 0 by {
      assert forall i :: 0 <= i < |"name:"| ==> "name:"[i] != ';';
    }
    assert Count(";price:", ';') == 1 by {
      assert ";price:"[1..] == "price:";
      assert forall i :: 0 <= i < |"price:"| ==> "price:"[i] != ';';
    }
    CountConcat("name:", productName, ';');
    CountConcat(a, ";price:", ';');
    CountConcat(a + ";price:", price, ';');
  }

  lemma {:induction false} CountConcat(a: string, b: string, c: char)
    ensures Count(a + b, c) == Count(a, c) + Count(b, c)
    decreases |a|
  {
    if |a| > 0 {
      CountConcat(a[1..], b, c);
      assert (a + b)[1..] == a[1..] + b;
    } else {
      assert a + b == b;
    }
  }

  /**
    Round trip: a generated payload parses back to the trimmed name and the
    parsed trimmed price, provided neither field contains ';' or ':'.
   */
  lemma {:induction false} ParseGenerated(n: string, p: string, parseFloat: string -> Num)
    requires n != "" && p != ""
    requires ';' !in n && ':' !in n && ';' !in p && ':' !in p
    ensures Generate(n, p).Some?
    ensures Parse(Generate(n, p).value, parseFloat) == Some(Product(Trim(n), parseFloat(Trim(p))))
  {
    var g := Generate(n, p).value;
    var a, b := "name" + ":" + n, "price" + ":" + p;
    GeneratedSplit(n, p);
    FieldSplit("name", n);
    FieldSplit("price", p);
    assert Split(g, ';') == [a, b];
    assert Split(a, ':') == ["name", n] && Split(b, ':') == ["price", p];
  }

  /** A generated payload splits on ';' into its two fields. */
  lemma GeneratedSplit(n: string, p: string)
    requires n != "" && p != ""
    requires ';' !in n && ';' !in p
    ensures Generate(n, p).Some?
    ensures Split(Generate(n, p).value, ';') == ["name" + ":" + n, "price" + ":" + p]
  {
    var a := "name" + ":" + n;
    var b := "price" + ":" + p;
    assert "name:" + n == a && ";price:" + p == [';'] + b;
    assert Generate(n, p).value == a + [';'] + b;
    assert ';' !in a && ';' !in b;
    SplitFirst(a, ';', b);
    SplitNoSep(b, ';');
  }

  /** A `key:value` field with no other ':' splits into the label and the value. */
  lemma FieldSplit(key: string, v: string)
    requires ':' !in key && ':' !in v
    ensures Split(key + ":" + v, ':') == [key, v]
  {
    assert key + ":" + v == key + [':'] + v;
    SplitFirst(key, ':', v);
    SplitNoSep(v, ':');
  }

  /** A payload with no ':' at all never parses. */
  lemma NoColonNoProduct(data: string, parseFloat: string -> Num)
    requires ':' !in data
    ensures Parse(data, parseFloat).None?
  {
    var parts := Split(data, ';');
    if |parts| == 2 {
      SplitPiecesFrom(data, ';');
      assert parts[0] in parts;
      SplitNoSep(parts[0], ':');
    }
  }

  /** Every piece of a split consists of characters of the input. */
  lemma {:induction false} SplitPiecesFrom(s: string, sep: char)
    ensures forall piece, c :: piece in Split(s, sep) && c in piece ==> c in s
    decreases |s|
  {
    if |s| > 0 {
      SplitPiecesFrom(s[1..], sep);
      var rest := Split(s[1..], sep);
      assert rest[0] in rest;
      forall piece, c | piece in Split(s, sep) && c in piece
        ensures c in s
      {
        if s[0] != sep && piece == [s[0]] + rest[0] {
          if c != s[0] {
            assert c in rest[0];
          }
        } else {
          assert piece in rest;
        }
      }
    }
  }

  // ---------------------------------------------------------------------------
  // The cart.

  /** A cart line `{ name, price, quantity }`. */
  datatype CartItem = CartItem(name: string, price: Num, quantity: int)

  /** `cart.find(item => item.name === name)` finds something. */
  predicate InCart(cart: seq<CartItem>, name: string) {
    exists i :: 0 <= i < |cart| && cart[i].name == name
  }

  /** The cart invariant: names are unique and every quantity is at least 1. */
  predicate CartOk(cart: seq<CartItem>) {
    && (forall i, j :: 0 <= i < j < |cart| ==> cart[i].name != cart[j].name)
    && (forall i :: 0 <= i < |cart| ==> cart[i].quantity >= 1)
  }

  /** The page state the scanner touches. */
  datatype Scanner = Scanner(cart: seq<CartItem>, scannedData: string, error: string, productScanned: bool)

  const InvalidFormat: string := "Invalid QR data format. Please scan again."
  const AlreadyInCart: string := "Product already in cart."

  /**
    `addProductToCart`: a product already in the cart only sets an error;
    a new one is appended with quantity 1, shown as the scanned data, clears
    the error and starts the scan cooldown.
   */
  function AddProduct(s: Scanner, p: Product): (t: Scanner)
    ensures InCart(s.cart, p.name) ==> t == s.(error := AlreadyInCart)
    ensures !InCart(s.cart, p.name) ==>
      && t.cart == s.cart + [CartItem(p.name, p.price, 1)]
      && t.scannedData == p.name && t.error == "" && t.productScanned
    ensures CartOk(s.cart) ==> CartOk(t.cart)
    ensures InCart(t.cart, p.name)
  {
    if InCart(s.cart, p.name) then s.(error := AlreadyInCart)
    else
      var t := s.(cart := s.cart + [CartItem(p.name, p.price, 1)], scannedData := p.name,
                  error := "", productScanned := true);
      assert t.cart[|s.cart|].name == p.name;
      t
  }

  /** `handleScan`: a payload that does not parse only sets the format error. */
  function HandleScan(s: Scanner, data: string, parseFloat: string -> Num): (t: Scanner)
    ensures Parse(data, parseFloat).None? ==> t == s.(error := InvalidFormat)
    ensures Parse(data, parseFloat).Some? ==> t == AddProduct(s, Parse(data, parseFloat).value)
    ensures CartOk(s.cart) ==> CartOk(t.cart)
  {
    match Parse(data, parseFloat)
    case None => s.(error := InvalidFormat)
    case Some(p) => AddProduct(s, p)
  }

  /** The scanner callback: results are ignored while the cooldown is on. */
  function OnScanResult(s: Scanner, data: string, parseFloat: string -> Num): (t: Scanner)
    ensures s.productScanned ==> t == s
    ensures CartOk(s.cart) ==> CartOk(t.cart)
  {
    if s.productScanned then s else HandleScan(s, data, parseFloat)
  }

  /** Scanning the same payload twice adds the product once. */
  lemma ScanTwiceAddsOnce(s: Scanner, data: string, parseFloat: string -> Num)
    requires Parse(data, parseFloat).Some?
    ensures HandleScan(HandleScan(s, data, parseFloat), data, parseFloat).cart == HandleScan(s, data, parseFloat).cart
  {
  }

  function Max(a: int, b: int): int {
    if a >= b then a else b
  }

  /**
    `updateQuantity`: the lines named `name` get quantity `max(1, q + delta)`;
    every other line, and every name and price, is unchanged.
   */
  function UpdateQuantity(cart: seq<CartItem>, name: string, delta: int): (r: seq<CartItem>)
    ensures |r| == |cart|
    ensures forall i :: 0 <= i < |cart| ==>
      && r[i].name == cart[i].name && r[i].price == cart[i].price
      && r[i].quantity == (if cart[i].name == name then Max(1, cart[i].quantity + delta) else cart[i].quantity)
    ensures CartOk(cart) ==> CartOk(r)
    decreases |cart|
  {
    if |cart| == 0 then []
    else
      var x := cart[|cart| - 1];
      var y := if x.name == name then x.(quantity := Max(1, x.quantity + delta)) else x;
      UpdateQuantity(cart[..|cart| - 1], name, delta) + [y]
  }

  /** An update that does not hit the floor of 1 is undone by the opposite update. */
  lemma UpdateUndone(cart: seq<CartItem>, name: string, delta: int)
    requires CartOk(cart)
    requires forall i :: 0 <= i < |cart| && cart[i].name == name ==> cart[i].quantity + delta >= 1
    ensures UpdateQuantity(UpdateQuantity(cart, name, delta), name, -delta) == cart
  {
    var r := UpdateQuantity(UpdateQuantity(cart, name, delta), name, -delta);
    forall i | 0 <= i < |cart|
      ensures r[i] == cart[i]
    {
      UndoneAt(cart, name, delta, i);
    }
  }

  lemma UndoneAt(cart: seq<CartItem>, name: string, delta: int, i: int)
    requires 0 <= i < |cart| && cart[i].quantity >= 1
    requires cart[i].name == name ==> cart[i].quantity + delta >= 1
    ensures UpdateQuantity(UpdateQuantity(cart, name, delta), name, -delta)[i] == cart[i]
  {
    var m := UpdateQuantity(cart, name, delta);
    assert m[i].name == cart[i].name;
  }

  /** `removeItem`: keeps, in order, exactly the lines with another name. */
  function RemoveItem(cart: seq<CartItem>, name: string): (r: seq<CartItem>)
    ensures !InCart(r, name)
    ensures |r| <= |cart|
    decreases |cart|
  {
    if |cart| == 0 then []
    else
      var init := RemoveItem(cart[..|cart| - 1], name);
      var x := cart[|cart| - 1];
      if x.name != name then init + [x] else init
  }

  /** Removal keeps every item with another name and nothing else. */
  lemma {:induction false} RemoveMembers(cart: seq<CartItem>, name: string)
    ensures forall x :: x in RemoveItem(cart, name) <==> x in cart && x.name != name
    decreases |cart|
  {
    if |cart| > 0 {
      var n := |cart| - 1;
      RemoveMembers(cart[..n], name);
      assert cart == cart[..n] + [cart[n]];
    }
  }

  /** Removing a name that is not in the cart changes nothing. */
  lemma {:induction false} RemoveAbsent(cart: seq<CartItem>, name: string)
    requires !InCart(cart, name)
    ensures RemoveItem(cart, name) == cart
    decreases |cart|
  {
    if |cart| > 0 {
      var n := |cart| - 1;
      var init := cart[..n];
      forall i | 0 <= i < n
        ensures init[i].name != name
      {
        assert init[i] == cart[i];
      }
      RemoveAbsent(init, name);
      assert cart[n].name != name;
      assert RemoveItem(cart, name) == init + [cart[n]];
      assert init + [cart[n]] == cart;
    }
  }

  lemma {:induction false} RemoveKeepsOk(cart: seq<CartItem>, name: string)
    requires CartOk(cart)
    ensures CartOk(RemoveItem(cart, name))
    decreases |cart|
  {
    if |cart| > 0 {
      var n := |cart| - 1;
      var init, x := cart[..n], cart[n];
      assert CartOk(init);
      RemoveKeepsOk(init, name);
      var r := RemoveItem(init, name);
      RemoveMembers(init, name);
      if x.name != name {
        assert !InCart(init, x.name);
        forall i | 0 <= i < |r|
          ensures r[i].name != x.name && r[i].quantity >= 1
        {
          MemberOk(init, r[i]);
        }
        assert RemoveItem(cart, name) == r + [x];
      } else {
        assert RemoveItem(cart, name) == r;
      }
    }
  }

  lemma MemberOk(cart: seq<CartItem>, y: CartItem)
    requires CartOk(cart) && y in cart
    ensures InCart(cart, y.name) && y.quantity >= 1
  {
    var j :| 0 <= j < |cart| && cart[j] == y;
  }

  /** Adding a new product and removing it again restores the cart. */
  lemma AddThenRemove(s: Scanner, p: Product)
    requires !InCart(s.cart, p.name)
    ensures RemoveItem(AddProduct(s, p).cart, p.name) == s.cart
  {
    var c := s.cart + [CartItem(p.name, p.price, 1)];
    assert c[..|s.cart|] == s.cart;
    RemoveAbsent(s.cart, p.name);
  }

  // ---------------------------------------------------------------------------
  // The total.

  /** One line's amount, `price * quantity`. */
  function LineAmount(x: CartItem): Num {
    TimesInt(x.price, x.quantity)
  }

  /**
    `calculateTotalPrice` before `toFixed(2)`: the sum of the line amounts;
    one `NaN` price makes the total `NaN`.
   */
  function Total(cart: seq<CartItem>): (r: Num)
    ensures r.Finite? <==> forall x :: x in cart ==> x.price.Finite?
    ensures |cart| == 0 ==> r == Finite(0.0)
    decreases |cart|
  {
    if |cart| == 0 then Finite(0.0)
    else
      var x := cart[|cart| - 1];
      assert cart == cart[..|cart| - 1] + [x];
      Plus(Total(cart[..|cart| - 1]), LineAmount(x))
  }

  lemma TotalSnoc(cart: seq<CartItem>, x: CartItem)
    ensures Total(cart + [x]) == Plus(Total(cart), LineAmount(x))
  {
    assert (cart + [x])[..|cart|] == cart;
  }

  /** Removing a line takes exactly its amount, `price * quantity`, off the total. */
  lemma {:induction false} TotalRemove(cart: seq<CartItem>, i: int)
    requires CartOk(cart) && 0 <= i < |cart|
    requires forall x :: x in cart ==> x.price.Finite?
    ensures Total(cart) == Plus(Total(RemoveItem(cart, cart[i].name)), LineAmount(cart[i]))
    decreases |cart|
  {
    var n := |cart| - 1;
    if i == n {
      TotalRemoveLast(cart);
    } else {
      InitOk(cart);
      TotalRemove(cart[..n], i);
      assert cart[i] in cart && cart[n] in cart;
      TotalRemoveEarlier(cart, i);
    }
  }

  /** The prefix of a well-formed cart with finite prices is one too. */
  lemma InitOk(cart: seq<CartItem>)
    requires CartOk(cart) && |cart| > 0
    requires forall x :: x in cart ==> x.price.Finite?
    ensures CartOk(cart[..|cart| - 1])
    ensures forall x :: x in cart[..|cart| - 1] ==> x.price.Finite?
  {
    var init := cart[..|cart| - 1];
    forall x | x in init
      ensures x.price.Finite?
    {
      var j :| 0 <= j < |init| && init[j] == x;
      assert cart[j] == x;
    }
  }

  /** Removing the last line of a well-formed cart leaves the lines before it. */
  lemma TotalRemoveLast(cart: seq<CartItem>)
    requires CartOk(cart) && |cart| > 0
    ensures Total(cart) == Plus(Total(RemoveItem(cart, cart[|cart| - 1].name)), LineAmount(cart[|cart| - 1]))
  {
    var n := |cart| - 1;
    var init, name := cart[..n], cart[n].name;
    LastNameFresh(cart);
    RemoveAbsent(init, name);
    assert RemoveItem(cart, name) == init;
    assert Total(cart) == Plus(Total(init), LineAmount(cart[n]));
  }

  /** The step of `TotalRemove` for a line before the last one. */
  lemma TotalRemoveEarlier(cart: seq<CartItem>, i: int)
    requires 0 <= i < |cart| - 1
    requires cart[i].price.Finite? && cart[|cart| - 1].price.Finite?
    requires cart[i].name != cart[|cart| - 1].name
    requires var init := cart[..|cart| - 1];
      Total(init) == Plus(Total(RemoveItem(init, init[i].name)), LineAmount(init[i]))
    ensures Total(cart) == Plus(Total(RemoveItem(cart, cart[i].name)), LineAmount(cart[i]))
  {
    var n := |cart| - 1;
    var init, last, name := cart[..n], cart[n], cart[i].name;
    assert init[i] == cart[i];
    var r := RemoveItem(init, name);
    assert Total(cart) == Plus(Total(init), LineAmount(last));
    assert RemoveItem(cart, name) == r + [last];
    TotalSnoc(r, last);
    PlusSwap(Total(r), LineAmount(cart[i]), LineAmount(last));
  }

  /** Two finite amounts can be added to a total in either order. */
  lemma PlusSwap(t: Num, a: Num, b: Num)
    requires a.Finite? && b.Finite?
    ensures Plus(Plus(t, a), b) == Plus(Plus(t, b), a)
  {
  }

  lemma LastNameFresh(cart: seq<CartItem>)
    requires CartOk(cart) && |cart| > 0
    ensures !InCart(cart[..|cart| - 1], cart[|cart| - 1].name)
  {
  }

  /** Adding a product adds its price once to the total. */
  lemma AddTotal(s: Scanner, p: Product)
    requires !InCart(s.cart, p.name)
    ensures Total(AddProduct(s, p).cart) == Plus(Total(s.cart), p.price)
  {
    var c := s.cart + [CartItem(p.name, p.price, 1)];
    assert c[..|s.cart|] == s.cart;
    assert p.price.Finite? ==> p.price.v * 1 as real == p.price.v;
  }
}

=== FILE: strings.dfy ===
/**
  The JavaScript string operations the front end relies on, over `seq<char>`:
  lexicographic order (default `sort()` and `<`), ASCII case mapping,
  `trim()`, `split(c)` and the decimal rendering `String(n)` of a natural number.
 */
module Strings {

  /**
    Strict lexicographic order on Unicode code points. JavaScript compares
    UTF-16 code units instead; the two orders agree on every pair of strings
    except where a character above U+FFFF (two surrogate units, starting
    0xD800-0xDBFF) meets one in U+E000-U+FFFF at the first difference.
   */
  predicate Less(a: string, b: string)
    decreases |a|
  {
    if |a| == 0 then |b| > 0
    else if |b| == 0 then false
    else if a[0] == b[0] then Less(a[1..], b[1..])
    else a[0] < b[0]
  }

  lemma {:induction false} LessIrreflexive(a: string)
    ensures !Less(a, a)
    decreases |a|
  {
    if |a| > 0 {
      LessIrreflexive(a[1..]);
    }
  }

  lemma {:induction false} LessAsymmetric(a: string, b: string)
    ensures Less(a, b) ==> !Less(b, a)
    decreases |a|
  {
    if |a| > 0 && |b| > 0 && a[0] == b[0] {
      LessAsymmetric(a[1..], b[1..]);
    }
  }

  /** Two different strings are always ordered one way or the other. */
  lemma {:induction false} LessTotal(a: string, b: string)
    requires a != b
    ensures Less(a, b) || Less(b, a)
    decreases |a|
  {
    if |a| > 0 && |b| > 0 && a[0] == b[0] {
      assert a == [a[0]] + a[1..] && b == [b[0]] + b[1..];
      LessTotal(a[1..], b[1..]);
    }
  }

  lemma {:induction false} LessTransitive(a: string, b: string, c: string)
    requires Less(a, b) && Less(b, c)
    ensures Less(a, c)
    decreases |a|
  {
    if |a| > 0 && |b| > 0 && |c| > 0 && a[0] == b[0] && b[0] == c[0] {
      LessTransitive(a[1..], b[1..], c[1..]);
    }
  }

  /** Comparing two concatenations whose first blocks have equal width compares block by block. */
  lemma {:induction false} LessConcat(p: string, s: string, q: string, t: string)
    requires |p| == |q|
    ensures Less(p + s, q + t) <==> Less(p, q) || (p == q && Less(s, t))
    decreases |p|
  {
    if |p| == 0 {
      assert p + s == s && q + t == t;
    } else {
      assert (p + s)[1..] == p[1..] + s && (q + t)[1..] == q[1..] + t;
      LessConcat(p[1..], s, q[1..], t);
      if p[0] == q[0] && p[1..] == q[1..] {
        assert p == [p[0]] + p[1..] && q == [q[0]] + q[1..];
      }
      if Less(p, q) {
        LessAsymmetric(p, q);
        if p == q {
          LessIrreflexive(p);
        }
      }
    }
  }

  predicate IsDigit(c: char) {
    '0' <= c <= '9'
  }

  /** The digit character of `d`. */
  function DigitChar(d: nat): (c: char)
    requires d < 10
    ensures IsDigit(c) && (c as int) - ('0' as int) == d
  {
    (('0' as int) + d) as char
  }

  /** `String(n)`: shortest decimal rendering of a natural number. */
  function NatToString(n: nat): (r: string)
    ensures |r| >= 1
    ensures forall i :: 0 <= i < |r| ==> IsDigit(r[i])
    ensures r[|r| - 1] == DigitChar(n % 10)
    decreases n
  {
    if n < 10 then [DigitChar(n)] else NatToString(n / 10) + [DigitChar(n % 10)]
  }

  /** `String(n)` for an integer: a minus sign before the digits of a negative number. */
  function IntToString(n: int): (r: string)
    ensures |r| >= 1
    ensures n >= 0 ==> r == NatToString(n)
    ensures n < 0 ==> r == "-" + NatToString(-n)
  {
    if n >= 0 then NatToString(n) else "-" + NatToString(-n)
  }

  /** Value of a string of decimal digits. */
  function DigitsValue(s: string): (v: nat)
    requires forall i :: 0 <= i < |s| ==> IsDigit(s[i])
    decreases |s|
  {
    if |s| == 0 then 0
    else
      assert IsDigit(s[|s| - 1]);
      DigitsValue(s[..|s| - 1]) * 10 + ((s[|s| - 1] as int) - ('0' as int))
  }

  /** Reading back the decimal rendering gives the number. */
  lemma {:induction false} NatToStringValue(n: nat)
    ensures DigitsValue(NatToString(n)) == n
    decreases n
  {
    var r := NatToString(n);
    if n >= 10 {
      assert r[..|r| - 1] == NatToString(n / 10);
      NatToStringValue(n / 10);
    }
  }

  /** Four-digit numbers render as exactly four digits. */
  lemma NatToStringFourDigits(n: nat)
    requires 1000 <= n < 10000
    ensures NatToString(n) == [DigitChar(n / 1000), DigitChar(n / 100 % 10), DigitChar(n / 10 % 10), DigitChar(n % 10)]
  {
    var a := n / 10;
    var b := a / 10;
    var c := b / 10;
    assert b == n / 100 && c == n / 1000 by { DivTen(n); }
    assert NatToString(b) == [DigitChar(c), DigitChar(b % 10)];
    assert NatToString(a) == NatToString(b) + [DigitChar(a % 10)];
    assert NatToString(n) == NatToString(a) + [DigitChar(n % 10)];
  }

  lemma DivTen(n: nat)
    ensures n / 10 / 10 == n / 100 && n / 10 / 10 / 10 == n / 1000
  {
    var q, r := n / 1000, n % 1000;
    assert n == 1000 * q + r && 0 <= r < 1000;
    assert n / 10 == 100 * q + r / 10;
    assert n / 10 / 10 == 10 * q + r / 100;
    assert n / 100 == 10 * q + r / 100;
  }

  /** ASCII letters, upper-cased; every other character is left alone. */
  function UpperChar(c: char): char {
    if 'a' <= c <= 'z' then (c as int - 32) as char else c
  }

  function LowerChar(c: char): char {
    if 'A' <= c <= 'Z' then (c as int + 32) as char else c
  }

  /** `s.toUpperCase()`, restricted to ASCII letters. */
  function Upper(s: string): (r: string)
    ensures |r| == |s| && forall i :: 0 <= i < |s| ==> r[i] == UpperChar(s[i])
  {
    seq(|s|, i requires 0 <= i < |s| => UpperChar(s[i]))
  }

  /** `s.toLowerCase()`, restricted to ASCII letters. */
  function Lower(s: string): (r: string)
    ensures |r| == |s| && forall i :: 0 <= i < |s| ==> r[i] == LowerChar(s[i])
  {
    seq(|s|, i requires 0 <= i < |s| => LowerChar(s[i]))
  }

  /** The white-space and line-terminator characters `String.prototype.trim` removes. */
  predicate IsSpace(c: char) {
    || c == ' ' || c == '\t' || c == '\n' || c == '\r' || c == '\U{000B}' || c == '\U{000C}'
    || c == '\U{00A0}' || c == '\U{1680}' || ('\U{2000}' <= c <= '\U{200A}')
    || c == '\U{2028}' || c == '\U{2029}' || c == '\U{202F}' || c == '\U{205F}'
    || c == '\U{3000}' || c == '\U{FEFF}'
  }

  /** `s` without its leading white space. */
  function TrimStart(s: string): (r: string)
    ensures |r| <= |s| && r == s[|s| - |r|..]
    ensures forall k :: 0 <= k < |s| - |r| ==> IsSpace(s[k])
    ensures |r| > 0 ==> !IsSpace(r[0])
    ensures (|s| == 0 || !IsSpace(s[0])) ==> r == s
    decreases |s|
  {
    if |s| > 0 && IsSpace(s[0]) then
      var r := TrimStart(s[1..]);
      assert forall k :: 1 <= k < |s| - |r| ==> s[k] == s[1..][k - 1];
      r
    else s
  }

  /** `s` without its trailing white space. */
  function TrimEnd(s: string): (r: string)
    ensures |r| <= |s| && r == s[..|r|]
    ensures forall k :: |r| <= k < |s| ==> IsSpace(s[k])
    ensures |r| > 0 ==> !IsSpace(r[|r| - 1])
    ensures (|s| == 0 || !IsSpace(s[|s| - 1])) ==> r == s
    decreases |s|
  {
    if |s| > 0 && IsSpace(s[|s| - 1]) then
      var r := TrimEnd(s[..|s| - 1]);
      assert forall k :: |r| <= k < |s| - 1 ==> s[k] == s[..|s| - 1][k];
      r
    else s
  }

  /** `s.trim()`: `s` without leading and trailing white space. */
  function Trim(s: string): (r: string)
    ensures |r| <= |s|
    ensures exists i, j ::
              && 0 <= i <= j <= |s| && r == s[i..j]
              && (forall k :: 0 <= k < i ==> IsSpace(s[k]))
              && (forall k :: j <= k < |s| ==> IsSpace(s[k]))
    ensures |r| > 0 ==> !IsSpace(r[0]) && !IsSpace(r[|r| - 1])
    ensures (|s| == 0 || (!IsSpace(s[0]) && !IsSpace(s[|s| - 1]))) ==> r == s
  {
    var a := TrimStart(s);
    var r := TrimEnd(a);
    assert |r| > 0 ==> r[0] == a[0];
    TrimSlice(s, a, r);
    r
  }

  /**
    A prefix `r` of a suffix `a` of `s`, followed in `a` only by white space,
    is the slice of `s` at `|s| - |a|`, followed in `s` only by white space.
   */
  lemma TrimSlice(s: string, a: string, r: string)
    requires |a| <= |s| && a == s[|s| - |a|..]
    requires |r| <= |a| && r == a[..|r|]
    requires forall k :: |r| <= k < |a| ==> IsSpace(a[k])
    ensures r == s[|s| - |a|..|s| - |a| + |r|]
    ensures forall k :: |s| - |a| + |r| <= k < |s| ==> IsSpace(s[k])
  {
    var i := |s| - |a|;
    forall k | i + |r| <= k < |s|
      ensures IsSpace(s[k])
    {
      assert s[k] == a[k - i];
    }
  }

  /** `s.split(sep)` for a one-character separator: always at least one piece. */
  function Split(s: string, sep: char): (r: seq<string>)
    ensures |r| >= 1
    decreases |s|
  {
    if |s| == 0 then [""]
    else
      var rest := Split(s[1..], sep);
      if s[0] == sep then [""] + rest else [[s[0]] + rest[0]] + rest[1..]
  }

  /** The number of occurrences of `c` in `s`. */
  function Count(s: string, c: char): (n: nat)
    ensures n > 0 <==> c in s
    ensures n <= |s|
    decreases |s|
  {
    if |s| == 0 then 0
    else
      assert s == [s[0]] + s[1..];
      (if s[0] == c then 1 else 0) + Count(s[1..], c)
  }

  /** `split` yields one more piece than there are separators. */
  lemma {:induction false} SplitLength(s: string, sep: char)
    ensures |Split(s, sep)| == Count(s, sep) + 1
    decreases |s|
  {
    if |s| > 0 {
      SplitLength(s[1..], sep);
    }
  }

  /** A string without the separator splits into itself. */
  lemma {:induction false} SplitNoSep(a: string, sep: char)
    requires sep !in a
    ensures Split(a, sep) == [a]
    decreases |a|
  {
    if |a| > 0 {
      SplitNoSep(a[1..], sep);
      assert [a[0]] + a[1..] == a;
    }
  }

  /** Splitting at the first separator peels off the text before it. */
  lemma {:induction false} SplitFirst(a: string, sep: char, b: string)
    requires sep !in a
    ensures Split(a + [sep] + b, sep) == [a] + Split(b, sep)
    decreases |a|
  {
    if |a| == 0 {
      assert a + [sep] + b == [sep] + b;
      assert ([sep] + b)[1..] == b;
    } else {
      var s := a + [sep] + b;
      assert s[1..] == a[1..] + [sep] + b;
      SplitFirst(a[1..], sep, b);
      assert [a[0]] + a[1..] == a;
    }
  }
}

=== FILE: tally.dfy ===
/**
  A JavaScript object used as an accumulator (`acc[k] = (acc[k] || 0) + d`),
  modelled as an insertion-ordered association list. `Object.keys` and
  `Object.values` follow insertion order, which the dashboards rely on for
  chart label order and top-product tie-breaks.
 */
module Tally {

  type Tally<K> = seq<(K, int)>

  /** `Object.keys(t)`, in insertion order, whatever the values hold. */
  function Keys<K, V>(t: seq<(K, V)>): (ks: seq<K>)
    ensures |ks| == |t| && forall i :: 0 <= i < |t| ==> ks[i] == t[i].0
  {
    seq(|t|, i requires 0 <= i < |t| => t[i].0)
  }

  /** `Object.values(t)`, in insertion order. */
  function Values<K>(t: Tally<K>): (vs: seq<int>)
    ensures |vs| == |t| && forall i :: 0 <= i < |t| ==> vs[i] == t[i].1
  {
    seq(|t|, i requires 0 <= i < |t| => t[i].1)
  }

  /** No key occurs twice. */
  predicate Unique<K(==), V>(t: seq<(K, V)>) {
    forall i, j :: 0 <= i < j < |t| ==> t[i].0 != t[j].0
  }

  /** Every accumulated value is at least one. */
  predicate Positive<K>(t: Tally<K>) {
    forall i :: 0 <= i < |t| ==> t[i].1 > 0
  }

  /** `t[k] || 0`: the accumulated value of `k`, zero when absent. */
  function Get<K(==)>(t: Tally<K>, k: K): (v: int)
    ensures k !in Keys(t) ==> v == 0
    decreases |t|
  {
    if |t| == 0 then 0
    else if t[0].0 == k then t[0].1
    else
      assert Keys(t[1..]) == Keys(t)[1..];
      Get(t[1..], k)
  }

  /** Sum of all values. */
  function Total<K>(t: Tally<K>): int
    decreases |t|
  {
    if |t| == 0 then 0 else t[0].1 + Total(t[1..])
  }

  /**
    `t[k] = (t[k] || 0) + d`: an existing key keeps its position, a new key
    is appended at the end.
   */
  function Add<K(==, !new)>(t: Tally<K>, k: K, d: int): (r: Tally<K>)
    ensures Get(r, k) == Get(t, k) + d
    ensures forall j :: j != k ==> Get(r, j) == Get(t, j)
    ensures k in Keys(t) ==> Keys(r) == Keys(t)
    ensures k !in Keys(t) ==> Keys(r) == Keys(t) + [k]
    ensures Unique(t) ==> Unique(r)
    ensures Total(r) == Total(t) + d
    ensures Positive(t) && d > 0 ==> Positive(r)
  {
    AddRawGet(t, k, d);
    AddRawPositive(t, k, d);
    AddRawKeys(t, k, d);
    AddRawTotal(t, k, d);
    AddRawUnique(t, k, d);
    AddRaw(t, k, d)
  }

  function AddRaw<K(==)>(t: Tally<K>, k: K, d: int): Tally<K>
    decreases |t|
  {
    if |t| == 0 then [(k, d)]
    else if t[0].0 == k then [(k, t[0].1 + d)] + t[1..]
    else [t[0]] + AddRaw(t[1..], k, d)
  }

  lemma {:induction false} AddRawGet<K(!new)>(t: Tally<K>, k: K, d: int)
    ensures forall j :: Get(AddRaw(t, k, d), j) == Get(t, j) + (if j == k then d else 0)
    decreases |t|
  {
    if |t| > 0 && t[0].0 != k {
      AddRawGet(t[1..], k, d);
      var r := AddRaw(t, k, d);
      assert r[0] == t[0] && r[1..] == AddRaw(t[1..], k, d);
    } else if |t| > 0 {
      var r := AddRaw(t, k, d);
      assert r[0] == (k, t[0].1 + d) && r[1..] == t[1..];
    }
  }

  lemma {:induction false} AddRawKeys<K>(t: Tally<K>, k: K, d: int)
    ensures Keys(AddRaw(t, k, d)) == if k in Keys(t) then Keys(t) else Keys(t) + [k]
    decreases |t|
  {
    var r := AddRaw(t, k, d);
    if |t| == 0 {
      assert Keys(r) == [k];
    } else {
      var head, ks := [t[0].0], Keys(t[1..]);
      assert t == [t[0]] + t[1..];
      KeysConcat([t[0]], t[1..]);
      assert Keys(t) == head + ks;
      if t[0].0 != k {
        var rest := AddRaw(t[1..], k, d);
        AddRawKeys(t[1..], k, d);
        KeysConcat([t[0]], rest);
        assert Keys(r) == head + Keys(rest);
        assert (k in Keys(t)) == (k in ks);
        if k !in ks {
          assert head + (ks + [k]) == (head + ks) + [k];
        }
      } else {
        KeysConcat([(k, t[0].1 + d)], t[1..]);
      }
    }
  }

  lemma KeysConcat<K>(a: Tally<K>, b: Tally<K>)
    ensures Keys(a + b) == Keys(a) + Keys(b)
  {
  }

  lemma AddRawUnique<K>(t: Tally<K>, k: K, d: int)
    ensures Unique(t) ==> Unique(AddRaw(t, k, d))
  {
    var r := AddRaw(t, k, d);
    AddRawKeys(t, k, d);
    if Unique(t) {
      var kr, kt := Keys(r), Keys(t);
      forall i, j | 0 <= i < j < |r|
        ensures r[i].0 != r[j].0
      {
        assert r[i].0 == kr[i] && r[j].0 == kr[j];
        if j < |t| {
          assert kr[i] == t[i].0 && kr[j] == t[j].0;
        } else {
          assert kr[i] == t[i].0 && kr[j] == k && k !in kt;
        }
      }
    }
  }

  lemma {:induction false} AddRawPositive<K>(t: Tally<K>, k: K, d: int)
    ensures Positive(t) && d > 0 ==> Positive(AddRaw(t, k, d))
    decreases |t|
  {
    var r := AddRaw(t, k, d);
    if |t| > 0 && Positive(t) && d > 0 {
      if t[0].0 != k {
        AddRawPositive(t[1..], k, d);
        assert r[0] == t[0] && r[1..] == AddRaw(t[1..], k, d);
        assert forall i :: 1 <= i < |r| ==> r[i] == r[1..][i - 1];
      } else {
        assert forall i :: 1 <= i < |r| ==> r[i] == t[i];
      }
    }
  }

  lemma {:induction false} AddRawTotal<K>(t: Tally<K>, k: K, d: int)
    ensures Total(AddRaw(t, k, d)) == Total(t) + d
    decreases |t|
  {
    var r := AddRaw(t, k, d);
    if |t| > 0 {
      if t[0].0 != k {
        AddRawTotal(t[1..], k, d);
        assert r[0] == t[0] && r[1..] == AddRaw(t[1..], k, d);
      } else {
        assert r[1..] == t[1..];
      }
    } else {
      assert r[1..] == [];
    }
  }

  /** In a tally with unique keys, every entry holds the value `Get` reports for its key. */
  lemma {:induction false} GetEntry<K>(t: Tally<K>, i: nat)
    requires Unique(t) && i < |t|
    ensures Get(t, t[i].0) == t[i].1
    decreases |t|
  {
    if i > 0 {
      assert t[0].0 != t[i].0;
      assert t[1..][i - 1] == t[i];
      GetEntry(t[1..], i - 1);
    }
  }

  /** The values sum to `Total`. */
  function SumSeq(s: seq<int>): int
    decreases |s|
  {
    if |s| == 0 then 0 else s[0] + SumSeq(s[1..])
  }

  lemma {:induction false} ValuesTotal<K>(t: Tally<K>)
    ensures SumSeq(Values(t)) == Total(t)
    decreases |t|
  {
    if |t| > 0 {
      assert Values(t)[1..] == Values(t[1..]);
      ValuesTotal(t[1..]);
    }
  }
}

=== FILE: timeofday.dfy ===
/**
  `calculateTimeDistribution`, identical in both dashboards: every people-count
  entry adds its count to one of four day parts chosen by the hour of its
  timestamp. An unparseable timestamp has hour `NaN`, which fails every range
  test and so lands in the night bucket.
 */
module TimeOfDay {
  import opened Wrappers

  datatype Bucket = Morning | Afternoon | Evening | Night

  /** The day part of an hour; `None` stands for the `NaN` of an invalid timestamp. */
  function BucketOf(hour: Option<int>): (b: Bucket)
    ensures b == Morning <==> hour.Some? && 5 <= hour.value < 12
    ensures b == Afternoon <==> hour.Some? && 12 <= hour.value < 17
    ensures b == Evening <==> hour.Some? && 17 <= hour.value < 21
    ensures b == Night <==> hour.None? || hour.value < 5 || 21 <= hour.value
  {
    match hour
    case None => Night
    case Some(h) =>
      if h >= 5 && h < 12 then Morning
      else if h >= 12 && h < 17 then Afternoon
      else if h >= 17 && h < 21 then Evening
      else Night
  }

  /** A people-count row as the distribution sees it: the hour of its timestamp and its count. */
  datatype Entry = Entry(hour: Option<int>, count: int)

  /** `{ morning, afternoon, evening, night }`. */
  datatype Distribution = Distribution(morning: int, afternoon: int, evening: int, night: int) {
    function Slice(b: Bucket): int {
      match b
      case Morning => morning
      case Afternoon => afternoon
      case Evening => evening
      case Night => night
    }

    function Sum(): int {
      morning + afternoon + evening + night
    }
  }

  /** Adds `n` to the slice of bucket `b` and leaves the other three alone. */
  function AddTo(d: Distribution, b: Bucket, n: int): (r: Distribution)
    ensures r.Slice(b) == d.Slice(b) + n
    ensures forall c :: c != b ==> r.Slice(c) == d.Slice(c)
    ensures r.Sum() == d.Sum() + n
  {
    match b
    case Morning => d.(morning := d.morning + n)
    case Afternoon => d.(afternoon := d.afternoon + n)
    case Evening => d.(evening := d.evening + n)
    case Night => d.(night := d.night + n)
  }

  /** The `forEach` over the entries, starting from four zeros. */
  function Distribute(entries: seq<Entry>): Distribution
    decreases |entries|
  {
    if |entries| == 0 then Distribution(0, 0, 0, 0)
    else
      var last := entries[|entries| - 1];
      AddTo(Distribute(entries[..|entries| - 1]), BucketOf(last.hour), last.count)
  }

  /** Reference: the counts of the entries whose hour falls in bucket `b`. */
  function BucketSum(entries: seq<Entry>, b: Bucket): int
    decreases |entries|
  {
    if |entries| == 0 then 0
    else
      BucketSum(entries[..|entries| - 1], b)
      + (if BucketOf(entries[|entries| - 1].hour) == b then entries[|entries| - 1].count else 0)
  }

  /** Sum of all counts. */
  function CountSum(entries: seq<Entry>): int
    decreases |entries|
  {
    if |entries| == 0 then 0 else CountSum(entries[..|entries| - 1]) + entries[|entries| - 1].count
  }

  /** Each slice holds exactly the counts of the entries in its hour range. */
  lemma {:induction false} DistributeSlices(entries: seq<Entry>)
    ensures forall b :: Distribute(entries).Slice(b) == BucketSum(entries, b)
    decreases |entries|
  {
    if |entries| > 0 {
      DistributeSlices(entries[..|entries| - 1]);
    }
  }

  /** The four slices together hold every count once: nothing is lost or counted twice. */
  lemma {:induction false} DistributeTotal(entries: seq<Entry>)
    ensures Distribute(entries).Sum() == CountSum(entries)
    decreases |entries|
  {
    if |entries| > 0 {
      DistributeTotal(entries[..|entries| - 1]);
    }
  }

  /** Entries with an invalid timestamp are counted at night. */
  lemma InvalidHourIsNight(entries: seq<Entry>)
    requires forall i :: 0 <= i < |entries| ==> entries[i].hour.None?
    ensures Distribute(entries) == Distribution(0, 0, 0, CountSum(entries))
  {
    DistributeSlices(entries);
    DistributeTotal(entries);
    var d := Distribute(entries);
    assert BucketSum(entries, Morning) == 0 by { NoneOutside(entries, Morning); }
    assert BucketSum(entries, Afternoon) == 0 by { NoneOutside(entries, Afternoon); }
    assert BucketSum(entries, Evening) == 0 by { NoneOutside(entries, Evening); }
  }

  lemma {:induction false} NoneOutside(entries: seq<Entry>, b: Bucket)
    requires forall i :: 0 <= i < |entries| ==> entries[i].hour.None?
    requires b != Night
    ensures BucketSum(entries, b) == 0
    decreases |entries|
  {
    if |entries| > 0 {
      NoneOutside(entries[..|entries| - 1], b);
    }
  }
}

=== FILE: timestamp.dfy ===
/**
  The people counter's timestamp text (pages/Peoplecount.tsx and
  components/Peoplecount.tsx): the year, then month, day, hours, minutes and
  seconds each `padStart(2, '0')`, as `YYYY-MM-DD HH:MM:SS`. The clock fields
  are taken as already read from the local date.
 */
module Timestamp {
  import opened Wrappers
  import opened Strings

  /** `getFullYear`, `getMonth` (from 0), `getDate`, `getHours`, `getMinutes`, `getSeconds`. */
  datatype Clock = Clock(year: int, month: int, day: int, hours: int, minutes: int, seconds: int)

  /** The ranges the date getters return, with a four-digit year. */
  predicate Valid(c: Clock) {
    && 1000 <= c.year < 10000
    && 0 <= c.month < 12 && 1 <= c.day <= 31
    && 0 <= c.hours < 24 && 0 <= c.minutes < 60 && 0 <= c.seconds < 60
  }

  /** `padStart(2, '0')`. */
  function PadStart2(s: string): (r: string)
    ensures |r| == if |s| < 2 then 2 else |s|
    ensures r[|r| - |s|..] == s
    ensures forall i :: 0 <= i < |r| - |s| ==> r[i] == '0'
  {
    if |s| >= 2 then s else if |s| == 1 then "0" + s else "00"
  }

  /** `String(n).padStart(2, '0')`. */
  function Pad2(n: int): string {
    PadStart2(IntToString(n))
  }

  /** The two decimal digits of `n`. */
  function Two(n: int): (r: string)
    requires 0 <= n < 100
    ensures |r| == 2 && IsDigit(r[0]) && IsDigit(r[1])
  {
    [DigitChar(n / 10), DigitChar(n % 10)]
  }

  /** The four decimal digits of `n`. */
  function Four(n: int): (r: string)
    requires 0 <= n < 10000
    ensures |r| == 4
  {
    Two(n / 100) + Two(n % 100)
  }

  lemma Pad2Two(n: int)
    requires 0 <= n < 100
    ensures Pad2(n) == Two(n)
  {
    if n >= 10 {
      assert NatToString(n) == NatToString(n / 10) + [DigitChar(n % 10)];
    }
  }

  lemma YearFour(n: int)
    requires 1000 <= n < 10000
    ensures IntToString(n) == Four(n)
  {
    NatToStringFourDigits(n);
    DigitsOfHundreds(n);
    assert Four(n) == [DigitChar(n / 100 / 10), DigitChar(n / 100 % 10), DigitChar(n % 100 / 10), DigitChar(n % 100 % 10)];
  }

  lemma DigitsOfHundreds(n: int)
    requires 0 <= n < 10000
    ensures n / 100 / 10 == n / 1000
    ensures n % 100 / 10 == n / 10 % 10
    ensures n % 100 % 10 == n % 10
  {
    var th, rest := n / 1000, n % 1000;
    var h, t, u := rest / 100, rest % 100 / 10, rest % 10;
    assert rest == 100 * h + 10 * t + u && 0 <= h < 10 && 0 <= t < 10 && 0 <= u < 10;
    DivMod100(n, 10 * th + h, 10 * t + u);
    DivMod10(10 * th + h, th, h);
    DivMod10(10 * t + u, t, u);
    DivMod10(n, 100 * th + 10 * h + t, u);
    DivMod10(100 * th + 10 * h + t, 10 * th + h, t);
  }

  lemma DivMod10(n: int, q: int, r: int)
    requires 0 <= r < 10 && n == 10 * q + r
    ensures n / 10 == q && n % 10 == r
  {
  }

  lemma DivMod100(n: int, q: int, r: int)
    requires 0 <= r < 100 && n == 100 * q + r
    ensures n / 100 == q && n % 100 == r
  {
  }

  /** `formattedDate`. */
  function DatePart(c: Clock): string {
    IntToString(c.year) + "-" + Pad2(c.month + 1) + "-" + Pad2(c.day)
  }

  /** `formattedTime`. */
  function TimePart(c: Clock): string {
    Pad2(c.hours) + ":" + Pad2(c.minutes) + ":" + Pad2(c.seconds)
  }

  /** `${formattedDate} ${formattedTime}`. */
  function Format(c: Clock): string {
    DatePart(c) + " " + TimePart(c)
  }

  /** The date part of a valid clock, `YYYY-MM-DD`. */
  function DateText(c: Clock): (r: string)
    requires Valid(c)
    ensures |r| == 10 && r[4] == '-' && r[7] == '-'
  {
    Four(c.year) + "-" + Two(c.month + 1) + "-" + Two(c.day)
  }

  /** The time part of a valid clock, `HH:MM:SS`. */
  function TimeText(c: Clock): (r: string)
    requires Valid(c)
    ensures |r| == 8 && r[2] == ':' && r[5] == ':'
  {
    Two(c.hours) + ":" + Two(c.minutes) + ":" + Two(c.seconds)
  }

  /** Every character of the date text other than the two dashes is a digit. */
  lemma DateTextDigits(c: Clock)
    requires Valid(c)
    ensures forall i :: 0 <= i < 10 && i != 4 && i != 7 ==> IsDigit(DateText(c)[i])
  {
  }

  /** The date text depends only on the date fields. */
  lemma SameDateText(a: Clock, b: Clock)
    requires Valid(a) && Valid(b) && a.year == b.year && a.month == b.month && a.day == b.day
    ensures DateText(a) == DateText(b)
  {
  }

  lemma DateBlocks(c: Clock)
    requires Valid(c)
    ensures DatePart(c) == DateText(c)
  {
    YearFour(c.year);
    Pad2Two(c.month + 1);
    Pad2Two(c.day);
  }

  lemma TimeBlocks(c: Clock)
    requires Valid(c)
    ensures TimePart(c) == TimeText(c)
  {
    Pad2Two(c.hours);
    Pad2Two(c.minutes);
    Pad2Two(c.seconds);
  }

  /** The timestamp of a valid clock is its date text and time text joined by a space. */
  lemma FormatJoin(c: Clock)
    requires Valid(c)
    ensures Format(c) == DateText(c) + " " + TimeText(c)
  {
    DateBlocks(c);
    TimeBlocks(c);
  }

  /** The text of a reading at another time of the same day. */
  lemma AtTime(day: Clock, h: int, m: int, sec: int, time: string)
    requires Valid(day) && 0 <= h < 24 && 0 <= m < 60 && 0 <= sec < 60
    requires " " + (Two(h) + ":" + Two(m) + ":" + Two(sec)) == time
    ensures Format(day.(hours := h, minutes := m, seconds := sec)) == DateText(day) + time
  {
    var c := day.(hours := h, minutes := m, seconds := sec);
    var d, t := DateText(day), TimeText(c);
    assert Format(c) == d + " " + t by {
      FormatJoin(c);
      SameDateText(c, day);
    }
    assert " " + t == time;
    JoinAssoc(d, " ", t);
  }

  lemma JoinAssoc(a: string, b: string, c: string)
    ensures a + b + c == a + (b + c)
  {
  }

  /**
    Every field of a valid clock has its fixed width: the text is 19
    characters with the separators in fixed places.
   */
  lemma FormatParts(c: Clock)
    requires Valid(c)
    ensures Format(c) == DateText(c) + " " + TimeText(c)
    ensures |Format(c)| == 19
    ensures Format(c)[4] == '-' && Format(c)[7] == '-' && Format(c)[10] == ' '
      && Format(c)[13] == ':' && Format(c)[16] == ':'
  {
    FormatJoin(c);
    var d, t := DateText(c), TimeText(c);
    SplitJoin(d, t);
    var f := d + " " + t;
    assert f[4] == d[4] && f[7] == d[7];
    assert f[13] == t[2] && f[16] == t[5];
  }

  /** A ten-character date, a space and a time split back at the space. */
  lemma SplitJoin(d: string, t: string)
    requires |d| == 10
    ensures var f := d + " " + t;
      |f| == 11 + |t| && f[..10] == d && f[10] == ' ' && f[11..] == t
      && (forall i :: 0 <= i < 10 ==> f[i] == d[i])
      && (forall i :: 0 <= i < |t| ==> f[11 + i] == t[i])
  {
  }

  // ---------------------------------------------------------------------------
  // Reading a timestamp back.

  /** The value of the two digits at `i` of `s`. */
  function TwoAt(s: string, i: int): int
    requires 0 <= i && i + 2 <= |s| && IsDigit(s[i]) && IsDigit(s[i + 1])
  {
    10 * ((s[i] as int) - ('0' as int)) + ((s[i + 1] as int) - ('0' as int))
  }

  predicate DigitsAt(s: string, i: int, n: int)
    requires 0 <= i && i + n <= |s|
  {
    forall k :: i <= k < i + n ==> IsDigit(s[k])
  }

  /** Reads `YYYY-MM-DD` back into year, month (from 0 again) and day. */
  function ParseDate(s: string): (r: Option<(int, int, int)>)
    ensures r.Some? ==> |s| == 10
  {
    if |s| == 10 && s[4] == '-' && s[7] == '-' && DigitsAt(s, 0, 4) && DigitsAt(s, 5, 2) && DigitsAt(s, 8, 2)
    then Some((100 * TwoAt(s, 0) + TwoAt(s, 2), TwoAt(s, 5) - 1, TwoAt(s, 8)))
    else None
  }

  /** Reads `HH:MM:SS` back into hours, minutes and seconds. */
  function ParseTime(s: string): (r: Option<(int, int, int)>)
    ensures r.Some? ==> |s| == 8
  {
    if |s| == 8 && s[2] == ':' && s[5] == ':' && DigitsAt(s, 0, 2) && DigitsAt(s, 3, 2) && DigitsAt(s, 6, 2)
    then Some((TwoAt(s, 0), TwoAt(s, 3), TwoAt(s, 6)))
    else None
  }

  /** Reads `YYYY-MM-DD HH:MM:SS` back into clock fields. */
  function Parse(s: string): (r: Option<Clock>)
    ensures r.Some? ==> |s| == 19 && s[10] == ' '
  {
    if |s| == 19 && s[10] == ' ' then
      match (ParseDate(s[..10]), ParseTime(s[11..]))
      case (Some((y, m, d)), Some((h, mi, se))) => Some(Clock(y, m, d, h, mi, se))
      case _ => None
    else None
  }

  lemma TwoAtTwo(s: string, i: int, n: int)
    requires 0 <= n < 100 && 0 <= i && i + 2 <= |s| && s[i..i + 2] == Two(n)
    ensures IsDigit(s[i]) && IsDigit(s[i + 1]) && TwoAt(s, i) == n
  {
    assert s[i] == s[i..i + 2][0] && s[i + 1] == s[i..i + 2][1];
  }

  lemma ParseDateText(c: Clock)
    requires Valid(c)
    ensures ParseDate(DateText(c)) == Some((c.year, c.month, c.day))
  {
    var s := DateText(c);
    var a, b, m, d := Two(c.year / 100), Two(c.year % 100), Two(c.month + 1), Two(c.day);
    assert s[0..2] == a by { assert s == a + b + "-" + m + "-" + d; }
    assert s[2..4] == b by { assert s == a + b + "-" + m + "-" + d; }
    assert s[5..7] == m by { assert s == a + b + "-" + m + "-" + d; }
    assert s[8..10] == d by { assert s == a + b + "-" + m + "-" + d; }
    TwoAtTwo(s, 0, c.year / 100);
    TwoAtTwo(s, 2, c.year % 100);
    TwoAtTwo(s, 5, c.month + 1);
    TwoAtTwo(s, 8, c.day);
    assert DigitsAt(s, 0, 4) by {
      assert s[0] == s[0..2][0] && s[1] == s[0..2][1] && s[2] == s[2..4][0] && s[3] == s[2..4][1];
    }
  }

  lemma ParseTimeText(c: Clock)
    requires Valid(c)
    ensures ParseTime(TimeText(c)) == Some((c.hours, c.minutes, c.seconds))
  {
    var s := TimeText(c);
    var h, m, d := Two(c.hours), Two(c.minutes), Two(c.seconds);
    assert s == h + ":" + m + ":" + d;
    assert s[0..2] == h && s[3..5] == m && s[6..8] == d;
    TwoAtTwo(s, 0, c.hours);
    TwoAtTwo(s, 3, c.minutes);
    TwoAtTwo(s, 6, c.seconds);
  }

  /** Round trip: the text of a valid clock reads back as that clock. */
  lemma ParseFormat(c: Clock)
    requires Valid(c)
    ensures Parse(Format(c)) == Some(c)
  {
    FormatJoin(c);
    SplitJoin(DateText(c), TimeText(c));
    ParseDateText(c);
    ParseTimeText(c);
  }

  /** Different valid clocks never share a timestamp text. */
  lemma FormatInjective(a: Clock, b: Clock)
    requires Valid(a) && Valid(b) && Format(a) == Format(b)
    ensures a == b
  {
    ParseFormat(a);
    ParseFormat(b);
  }

  // ---------------------------------------------------------------------------
  // Order.

  /** Chronological order of clock readings, field by field. */
  predicate Before(a: Clock, b: Clock) {
    || a.year < b.year
    || (a.year == b.year && a.month < b.month)
    || (a.year == b.year && a.month == b.month && a.day < b.day)
    || (a.year == b.year && a.month == b.month && a.day == b.day && a.hours < b.hours)
    || (a.year == b.year && a.month == b.month && a.day == b.day && a.hours == b.hours && a.minutes < b.minutes)
    || (a.year == b.year && a.month == b.month && a.day == b.day && a.hours == b.hours && a.minutes == b.minutes
        && a.seconds < b.seconds)
  }

  lemma LessTwo(a: int, b: int)
    requires 0 <= a < 100 && 0 <= b < 100
    ensures Less(Two(a), Two(b)) <==> a < b
    ensures Two(a) == Two(b) <==> a == b
  {
    var x, y := Two(a), Two(b);
    assert x[1..] == [x[1]] && y[1..] == [y[1]];
    assert [x[1]][1..] == [] && [y[1]][1..] == [];
    assert !Less([], []);
    assert Less([x[1]], [y[1]]) <==> x[1] < y[1];
    assert Less(x, y) <==> x[0] < y[0] || (x[0] == y[0] && x[1] < y[1]);
    assert x[0] < y[0] <==> a / 10 < b / 10;
    assert x[0] == y[0] <==> a / 10 == b / 10;
    assert x[1] < y[1] <==> a % 10 < b % 10;
    assert x[1] == y[1] <==> a % 10 == b % 10;
    assert a == 10 * (a / 10) + a % 10 && b == 10 * (b / 10) + b % 10;
  }

  lemma LessFour(a: int, b: int)
    requires 0 <= a < 10000 && 0 <= b < 10000
    ensures Less(Four(a), Four(b)) <==> a < b
    ensures Four(a) == Four(b) <==> a == b
  {
    LessTwo(a / 100, b / 100);
    LessTwo(a % 100, b % 100);
    LessConcat(Two(a / 100), Two(a % 100), Two(b / 100), Two(b % 100));
    if Four(a) == Four(b) {
      assert Four(a)[..2] == Two(a / 100) && Four(b)[..2] == Two(b / 100);
      assert Four(a)[2..] == Two(a % 100) && Four(b)[2..] == Two(b % 100);
    }
  }

  /** A shared separator in front does not change the comparison. */
  lemma LessAfter(sep: string, s: string, t: string)
    ensures Less(sep + s, sep + t) <==> Less(s, t)
  {
    LessConcat(sep, s, sep, t);
    LessIrreflexive(sep);
  }

  /** Comparing two blocks of equal width followed by anything. */
  lemma Block(p: string, s: string, q: string, t: string)
    requires |p| == |q|
    ensures Less(p + s, q + t) <==> Less(p, q) || (p == q && Less(s, t))
    ensures p + s == q + t <==> p == q && s == t
  {
    LessConcat(p, s, q, t);
    if p + s == q + t {
      assert (p + s)[..|p|] == p && (q + t)[..|q|] == q;
      assert (p + s)[|p|..] == s && (q + t)[|q|..] == t;
    }
  }

  /** The two times, compared as text and as readings. */
  lemma LessTime(a: Clock, b: Clock)
    requires Valid(a) && Valid(b)
    ensures Less(TimeText(a), TimeText(b)) <==>
      a.hours < b.hours || (a.hours == b.hours && a.minutes < b.minutes)
      || (a.hours == b.hours && a.minutes == b.minutes && a.seconds < b.seconds)
    ensures TimeText(a) == TimeText(b) <==>
      a.hours == b.hours && a.minutes == b.minutes && a.seconds == b.seconds
  {
    LessTwo(a.hours, b.hours);
    PairTail(":", a.minutes, a.seconds, b.minutes, b.seconds);
    var ma := ":" + Two(a.minutes) + (":" + Two(a.seconds));
    var mb := ":" + Two(b.minutes) + (":" + Two(b.seconds));
    assert TimeText(a) == Two(a.hours) + ma && TimeText(b) == Two(b.hours) + mb;
    Block(Two(a.hours), ma, Two(b.hours), mb);
  }

  /** The two dates, compared as text and as readings. */
  lemma LessDate(a: Clock, b: Clock)
    requires Valid(a) && Valid(b)
    ensures Less(DateText(a), DateText(b)) <==>
      a.year < b.year || (a.year == b.year && a.month < b.month)
      || (a.year == b.year && a.month == b.month && a.day < b.day)
    ensures DateText(a) == DateText(b) <==> a.year == b.year && a.month == b.month && a.day == b.day
  {
    LessFour(a.year, b.year);
    MonthDay(a, b);
    var ma := "-" + Two(a.month + 1) + ("-" + Two(a.day));
    var mb := "-" + Two(b.month + 1) + ("-" + Two(b.day));
    assert DateText(a) == Four(a.year) + ma && DateText(b) == Four(b.year) + mb;
    Block(Four(a.year), ma, Four(b.year), mb);
  }

  /** The `-MM-DD` tails of two dates, compared as text and as readings. */
  lemma MonthDay(a: Clock, b: Clock)
    requires Valid(a) && Valid(b)
    ensures var ma, mb := "-" + Two(a.month + 1) + ("-" + Two(a.day)), "-" + Two(b.month + 1) + ("-" + Two(b.day));
      && (Less(ma, mb) <==> a.month < b.month || (a.month == b.month && a.day < b.day))
      && (ma == mb <==> a.month == b.month && a.day == b.day)
  {
    PairTail("-", a.month + 1, a.day, b.month + 1, b.day);
  }

  /** Two separated two-digit fields, compared as text and as numbers. */
  lemma PairTail(sep: string, a1: int, a2: int, b1: int, b2: int)
    requires 0 <= a1 < 100 && 0 <= a2 < 100 && 0 <= b1 < 100 && 0 <= b2 < 100
    ensures var ta, tb := sep + Two(a1) + (sep + Two(a2)), sep + Two(b1) + (sep + Two(b2));
      && (Less(ta, tb) <==> a1 < b1 || (a1 == b1 && a2 < b2))
      && (ta == tb <==> a1 == b1 && a2 == b2)
  {
    LessTwo(a1, b1);
    LessTwo(a2, b2);
    var da, db := sep + Two(a2), sep + Two(b2);
    LessAfter(sep, Two(a2), Two(b2));
    Block(sep, Two(a2), sep, Two(b2));
    var ta, tb := sep + Two(a1) + da, sep + Two(b1) + db;
    JoinAssoc(sep, Two(a1), da);
    JoinAssoc(sep, Two(b1), db);
    Block(Two(a1), da, Two(b1), db);
    LessAfter(sep, Two(a1) + da, Two(b1) + db);
    Block(sep, Two(a1) + da, sep, Two(b1) + db);
  }

  lemma SpaceJoin(c: Clock)
    requires Valid(c)
    ensures Format(c) == DateText(c) + (" " + TimeText(c))
  {
    FormatJoin(c);
    JoinAssoc(DateText(c), " ", TimeText(c));
  }

  /**
    The fields have fixed widths, so for four-digit years comparing two
    timestamp texts as strings is comparing the readings in time.
   */
  lemma LessIsBefore(a: Clock, b: Clock)
    requires Valid(a) && Valid(b)
    ensures Less(Format(a), Format(b)) <==> Before(a, b)
  {
    var ta := " " + TimeText(a);
    var tb := " " + TimeText(b);
    SpaceJoin(a);
    SpaceJoin(b);
    LessDate(a, b);
    LessTime(a, b);
    LessAfter(" ", TimeText(a), TimeText(b));
    Block(DateText(a), ta, DateText(b), tb);
  }
}

=== FILE: wrappers.dfy ===
/** The optional value used wherever the source works with `null`, `undefined` or `NaN`. */
module Wrappers {

  datatype Option<+T> = None | Some(value: T) {

    /** Returns the value held in `Some`, or `default` when `None`. */
    function GetOr(default: T): T {
      match this
      case Some(v) => v
      case None => default
    }
  }
}
